=== FILE: README.md ===
# PULU01 hold clearing, modelled in Dafny

PULU01 is a command-line batch utility that clears holds on blood-donation
products. Its input is a CSV file of `DonationNumber,ProductCode,HoldCode`
rows. For each row it sends one "clear hold" request to an HTTP API. It keeps
a success ledger, a JSON file of processed keys, so that an interrupted run
can resume without clearing a hold twice, and it reports progress while it
works. The repository holds two copies of the program: the current tree
(`Savant.Pulse.Utility.Client.PULU01`) and an earlier one
(`savant.ulse.utility.client.PULU01`). The only worker and progress tracker
are in the earlier tree. A small generator writes a 20 000-row test file.

This project models the program's logic as pure functions over immutable
datatypes and proves properties about that model. Files, the network and the
clock become values:

- a file is a sequence of lines, or a `Store` that is missing, blank,
  unreadable or a list of entries;
- an API call is an abstract outcome (an answer, or one of the exception
  kinds);
- `DateTime.UtcNow` is a parameter `now`, counted in milliseconds;
- cancellation is the number of items handled before it is seen;
- exceptions that escape a call are a `thrown` flag in the result.

| file | module | models |
|---|---|---|
| `wrappers.dfy` | `Wrappers` | `Option`, standing for C# `null` |
| `text.dfy` | `Text` | `string.Length` in UTF-16 code units, ASCII `Trim`, `ToUpper`, `IsNullOrWhiteSpace`, `char.IsDigit`, the `D<n>` number format, `string.Join` |
| `records.dfy` | `Records` | `DonationRecord` (key, validity) and `ProcessingResult` (factories, flags) |
| `csv_reader.dfy` | `CsvReader` | `CsvReaderService`: splitter, header heuristic, line parser, read loop |
| `clear_hold_request.dfy` | `ClearHoldRequest` | `ClearHoldRequestDto`: normalising setters, flags, `FromDonationRecord` |
| `config.dfy` | `Config` | `AppConfiguration` defaults, settings binding, command-line validation and overrides |
| `api_client.dfy` | `ApiClient` | `HttpApiClientService`: outcome classification, client headers |
| `ledger.dfy` | `Ledger` | the success ledger both persistence services share |
| `persistence.dfy` | `Persistence` | the current `ProcessingPersistenceService`: failures written one line at a time |
| `legacy_persistence.dfy` | `LegacyPersistence` | the earlier `ProcessingPersistenceService`: failures batched like successes |
| `progress.dfy` | `Progress` | `ProgressTrackingService`: counters, update rule, throttle, summary, duration format |
| `worker.dfy` | `Worker` | `ProcessingWorkerService` run by one worker: resume filter, routing, final save |
| `test_data.dfy` | `TestData` | the test-data generator and what the reader makes of its output |

Paths below are relative to the repository root.

## Model

| member | source | states |
|---|---|---|
| Records.KeyRoundTrip | Savant.Pulse.Utility.Client.PULU01/Models/DonationRecord.cs:8 | the key `number|product|hold` reads back into the three fields when the first two contain no `|` |
| Records.KeyInjective | Savant.Pulse.Utility.Client.PULU01/Models/DonationRecord.cs:8 | under that proviso, records with equal keys are equal records |
| Records.KeyCollision | Savant.Pulse.Utility.Client.PULU01/Models/DonationRecord.cs:8 | without the proviso two different records share a key |
| Records.IsValidDoesNotTrim | Savant.Pulse.Utility.Client.PULU01/Models/DonationRecord.cs:10-15 | validity checks the raw `Length`s 14, 4 and 3, in UTF-16 code units: for every valid record, a 13-unit number behind a space is accepted, a trailing space makes the number too long, and a product code of four spaces is rejected |
| Records.PositionalDefaults | Savant.Pulse.Utility.Client.PULU01/Models/ProcessingResult.cs:3-7 | the positional constructor leaves the message null, the time at `default(DateTime)`, and the result without error |
| Records.CreateSuccess | Savant.Pulse.Utility.Client.PULU01/Models/ProcessingResult.cs:9-10 | a success for the given record, stamped now, with a null message and so without error |
| Records.CreateFailure | Savant.Pulse.Utility.Client.PULU01/Models/ProcessingResult.cs:12-13 | a failure carrying exactly the given message; it has an error iff the message is non-empty |
| Records.CreateSkipped | Savant.Pulse.Utility.Client.PULU01/Models/ProcessingResult.cs:15-16 | a skip for the given record, not a success, with a null message and so without error |
| Records.HasErrorIgnoresStatus | Savant.Pulse.Utility.Client.PULU01/Models/ProcessingResult.cs:18-19 | `HasError` depends on the message alone: a failure with `""` has none, a success with a message has one |
| Text.Trim | Savant.Pulse.Utility.Client.PULU01/Services/CsvReaderService.cs:97-99 | the trimmed field is an infix of the input with only whitespace dropped on either side, has no whitespace at either end, and is empty iff the input is whitespace-only |
| Text.Utf16LengthIsLength | Savant.Pulse.Utility.Client.PULU01/Models/DonationRecord.cs:12-14 | `Length` counts UTF-16 code units, and equals the number of characters exactly when none lies outside the Basic Multilingual Plane |
| Text.TrimIdempotent | Savant.Pulse.Utility.Client.PULU01/Services/CsvReaderService.cs:97-99 | trimming twice is trimming once |
| Text.TrimOfUpper | Savant.Pulse.Utility.Client.PULU01/Models/ClearHoldRequestDto.cs:10 | upper-casing and trimming commute |
| Text.DigitsRoundTrip | TestDataGenerator/TestDataGenerator/Program.cs:23 | reading back the decimal digits of `n` gives `n` |
| Text.PadDigits | TestDataGenerator/TestDataGenerator/Program.cs:23 | the `D<width>` format is all digits, reads back as `n`, and is as long as the plain digits of `n` or `width`, whichever is more |
| Text.PadDigitsInjective | TestDataGenerator/TestDataGenerator/Program.cs:23 | equal padded renderings come from equal numbers |
| CsvReader.SplitCsvLine | Savant.Pulse.Utility.Client.PULU01/Services/CsvReaderService.cs:119-146 | the loop yields one more field than there are commas outside quotes, and joining the fields with `,` gives the line with every `"` removed |
| CsvReader.SplitLaws | Savant.Pulse.Utility.Client.PULU01/Services/CsvReaderService.cs:119-146 | at least one field; the field count and join laws above; no field contains `"` |
| CsvReader.SplitJoin | Savant.Pulse.Utility.Client.PULU01/Services/CsvReaderService.cs:125-145 | joining fields free of `,` and `"` and splitting the result gives the fields back |
| CsvReader.QuotedCommaStaysInField | Savant.Pulse.Utility.Client.PULU01/Services/CsvReaderService.cs:129-141 | a comma between quotes stays inside its field and the quotes are dropped |
| CsvReader.DetectHeaderIff | Savant.Pulse.Utility.Client.PULU01/Services/CsvReaderService.cs:77-83 | a header iff the line has exactly three fields and one of them is empty or starts with neither a digit nor `G` |
| CsvReader.DataLineLooksLikeHeader | Savant.Pulse.Utility.Client.PULU01/Services/CsvReaderService.cs:77-83 | a data line whose product code starts with a letter other than `G` is taken for a header |
| CsvReader.ParseLine | Savant.Pulse.Utility.Client.PULU01/Services/CsvReaderService.cs:85-117 | a line without exactly three fields gives nothing; otherwise the record of the three trimmed fields is returned iff it is valid (lengths counted in UTF-16 code units), so every parsed record is valid and trimmed |
| CsvReader.ParseFormatRoundTrip | Savant.Pulse.Utility.Client.PULU01/Services/CsvReaderService.cs:85-110 | a record with plain, trimmed fields written as a line parses back to itself if valid and to nothing otherwise |
| CsvReader.ReadRecords | Savant.Pulse.Utility.Client.PULU01/Services/CsvReaderService.cs:15-75 | an empty file gives nothing; every record returned is valid; the valid counter equals the number of records |
| CsvReader.FirstLine | Savant.Pulse.Utility.Client.PULU01/Services/CsvReaderService.cs:33-51 | the first line is dropped iff it looks like a header; otherwise it is counted once, valid or invalid, even when blank |
| CsvReader.ReadLineAccounting | Savant.Pulse.Utility.Client.PULU01/Services/CsvReaderService.cs:55-68 | one loop step appends the line's record if any and counts the line exactly once as blank, valid or invalid |
| CsvReader.ScanAccounting | Savant.Pulse.Utility.Client.PULU01/Services/CsvReaderService.cs:53-69 | the loop appends the parses of the non-blank lines in file order, and blank + valid + invalid equals the lines seen |
| CsvReader.ParsedOneEach | Savant.Pulse.Utility.Client.PULU01/Services/CsvReaderService.cs:53-69 | lines that each parse to one record yield exactly those records, in order |
| CsvReader.ReadAccounting | Savant.Pulse.Utility.Client.PULU01/Services/CsvReaderService.cs:15-75 | the whole read: the records are the first line's (unless it is a header) followed by the parses of the lines read; every line is a header, blank, valid or invalid |
| CsvReader.CancelledReadIsPrefixRead | Savant.Pulse.Utility.Client.PULU01/Services/CsvReaderService.cs:53 | a cancelled read is the complete read of a prefix of the file |
| CsvReader.BlankFirstLineIsInvalid | Savant.Pulse.Utility.Client.PULU01/Services/CsvReaderService.cs:33-51 | a file whose only line is whitespace reads as one invalid record: the first line is not skipped for being blank |
| CsvReader.ReadHeaderThenRecords | Savant.Pulse.Utility.Client.PULU01/Services/CsvReaderService.cs:15-75 | a file whose first line is taken for a header and whose other lines each yield one record reads as exactly those records, all valid, none invalid |
| CsvReader.BlankLineAfterHeaderIsSkipped | Savant.Pulse.Utility.Client.PULU01/Services/CsvReaderService.cs:53-62 | a whitespace-only line after a header is ignored and not counted at all |
| ClearHoldRequest.Normalize | Savant.Pulse.Utility.Client.PULU01/Models/ClearHoldRequestDto.cs:10 | the stored value is the upper-cased input with only the input's surrounding whitespace dropped: upper case, trimmed, and empty iff the input is whitespace-only |
| ClearHoldRequest.NormalizeFixesNormalized | Savant.Pulse.Utility.Client.PULU01/Models/ClearHoldRequestDto.cs:10 | an upper-case, trimmed value is stored unchanged |
| ClearHoldRequest.NormalizeIdempotent | Savant.Pulse.Utility.Client.PULU01/Models/ClearHoldRequestDto.cs:10-16 | normalising twice is normalising once |
| ClearHoldRequest.SetProductCode | Savant.Pulse.Utility.Client.PULU01/Models/ClearHoldRequestDto.cs:7-11 | the product code becomes the normalised value (upper case, trimmed); every other property is unchanged |
| ClearHoldRequest.SetUnitNumber | Savant.Pulse.Utility.Client.PULU01/Models/ClearHoldRequestDto.cs:13-17 | the unit number becomes the normalised value (upper case, trimmed); every other property is unchanged |
| ClearHoldRequest.ReassignIsNoOp | Savant.Pulse.Utility.Client.PULU01/Models/ClearHoldRequestDto.cs:7-17 | assigning a property its own getter's value changes nothing |
| ClearHoldRequest.AllHoldIff | Savant.Pulse.Utility.Client.PULU01/Models/ClearHoldRequestDto.cs:7-31 | after assigning a product code, the request is an all-hold request iff the value normalises to `ALL` |
| ClearHoldRequest.AllHoldAfterAssignment | Savant.Pulse.Utility.Client.PULU01/Models/ClearHoldRequestDto.cs:31 | assigning a product code that upper-cases to `" ALL "` (such as `" all "`) makes the request an all-hold request |
| ClearHoldRequest.FromDonationRecord | Savant.Pulse.Utility.Client.PULU01/Models/ClearHoldRequestDto.cs:33-48 | a request exists iff the hold time is present; it carries the normalised unit number and product code, the hold code and clear code as given, the hold time, and is not an in-stock incident |
| ClearHoldRequest.FromDonationRecordConstants | Savant.Pulse.Utility.Client.PULU01/Models/ClearHoldRequestDto.cs:41-46 | program `PULS11`, a direct clear of the constituents, not called from DT or validation, empty incident number |
| ClearHoldRequest.RequestIdentifiesRecord | Savant.Pulse.Utility.Client.PULU01/Models/ClearHoldRequestDto.cs:37-39 | for a record already upper case and trimmed, the request's three codes rebuild the record |
| Config.Bind | Savant.Pulse.Utility.Client.PULU01/Program.cs:80-93 | each of the nine settings is taken from the file when the file defines it and otherwise keeps its initial value; the thread count, file path and clear code keep their defaults |
| Config.BindReadsOnlyItsKeys | Savant.Pulse.Utility.Client.PULU01/Program.cs:80-93 | two settings files that agree on the nine bound keys give the same configuration |
| Config.BindNothingGivesDefaults | Savant.Pulse.Utility.Client.PULU01/Program.cs:82-89 | with no settings: `Hold_Clear_Ok.json`, `Hold_Clear_Errors.json`, batch sizes 20 and 100, timeout 30 |
| Config.Validate | Savant.Pulse.Utility.Client.PULU01/Program.cs:40-56 | accepted iff the file exists, the thread count is in 1..50 and the clear code is non-empty with a `Length` of 2 or 3 UTF-16 code units; otherwise the first failing check names the error |
| Config.Override | Savant.Pulse.Utility.Client.PULU01/Program.cs:106-108 | the thread count, file and clear code take the command-line values (both branches of the conditional); nothing else changes |
| Config.Start | Savant.Pulse.Utility.Client.PULU01/Program.cs:38-108 | startup is rejected iff validation fails |
| Config.StartedConfigurationIsValid | Savant.Pulse.Utility.Client.PULU01/Program.cs:40-108 | a configuration that reaches the service has a valid thread count, the given file and a valid clear code, whatever the settings say |
| ApiClient.ClearHold | Savant.Pulse.Utility.Client.PULU01/Services/HttpApiClientService.cs:49-116 | never throws; the result names the input record, has the default time, is never a skip, is a success iff the status is 2xx and the body says success, a success carries exactly the body's message, and a non-success always has a message |
| ApiClient.ApiFailureMessage | Savant.Pulse.Utility.Client.PULU01/Services/HttpApiClientService.cs:71-76 | a 2xx failure carries the body's message, and `Unknown API error` when the body or its message is missing |
| ApiClient.SuccessMayHaveError | Savant.Pulse.Utility.Client.PULU01/Services/HttpApiClientService.cs:61-70 | every 2xx answer whose body says success gives a success carrying the body's message, which has an error iff that message is non-empty |
| ApiClient.FailureMessageIdentifiesCause | Savant.Pulse.Utility.Client.PULU01/Services/HttpApiClientService.cs:78-115 | every failure message the client writes itself tells its cause apart and carries its details: the status code reads back from `HTTP {code} …`, what follows it is `{reason}: {body}`, and what follows an exception's fixed text is the exception's own message |
| ApiClient.ConfigureHttpClient | Savant.Pulse.Utility.Client.PULU01/Services/HttpApiClientService.cs:33-47 | configuration fails iff a non-empty base URL is not an absolute URI or the timeout is not positive and within `int.MaxValue` milliseconds; otherwise the base address is set only for a non-empty URL, the timeout is the configured one, and there are exactly four headers with the configured values and `Accept: application/json` |
| ApiClient.HeaderLookupIgnoresCase | Savant.Pulse.Utility.Client.PULU01/Services/HttpApiClientService.cs:42-46 | header names are matched without regard to case: two spellings of a name find the same header |
| ApiClient.ConfiguredHeadersAreExactly | Savant.Pulse.Utility.Client.PULU01/Services/HttpApiClientService.cs:42-46 | after configuration each of the four headers is found under any spelling of its name, and no other name finds a header |
| Ledger.SuccessEntryOf | Savant.Pulse.Utility.Client.PULU01/Services/ProcessingPersistenceService.cs:117-124 | the written entry names the record by its key and its three fields, stamped now |
| Ledger.FailureEntryOf | Savant.Pulse.Utility.Client.PULU01/Services/ProcessingPersistenceService.cs:144-152 | the failure entry names the record, keeps its message or says `Unknown error`, and keeps the result's time |
| Ledger.Append | Savant.Pulse.Utility.Client.PULU01/Services/ProcessingPersistenceService.cs:107-129 | an unreadable file fails; otherwise the new list is the old one (empty for a missing or blank file) followed by the batch |
| Ledger.AppendInBatches | Savant.Pulse.Utility.Client.PULU01/Services/ProcessingPersistenceService.cs:107-129 | writing two batches in turn is writing them together |
| Ledger.Load | Savant.Pulse.Utility.Client.PULU01/Services/ProcessingPersistenceService.cs:24-56 | the key set grows by the keys of a readable file; a missing, blank or unreadable file changes nothing and does not throw |
| Ledger.LoadFreshIsExact | Savant.Pulse.Utility.Client.PULU01/Services/ProcessingPersistenceService.cs:24-56 | loading into a new service makes the key set exactly the file's keys |
| Ledger.FlushSuccessful | Savant.Pulse.Utility.Client.PULU01/Services/ProcessingPersistenceService.cs:92-137 | an empty queue is a no-op; otherwise the queue empties and the file becomes the old list followed by the queue in FIFO order, or the call throws iff the file is unreadable |
| Ledger.FlushKeepsExact | Savant.Pulse.Utility.Client.PULU01/Services/ProcessingPersistenceService.cs:92-137 | after a flush that does not throw, the file alone accounts for the key set |
| Ledger.FlushKeepsConsistent | Savant.Pulse.Utility.Client.PULU01/Services/ProcessingPersistenceService.cs:92-137 | every key in the file or the queue stays in the key set, even when the flush throws |
| Ledger.SaveSuccessful | Savant.Pulse.Utility.Client.PULU01/Services/ProcessingPersistenceService.cs:63-75 | every saved record is processed at once; below the batch size the file is untouched and the records wait; at the batch size the file gains the whole queue |
| Ledger.SaveKeepsInvariants | Savant.Pulse.Utility.Client.PULU01/Services/ProcessingPersistenceService.cs:63-75 | saving keeps the key set consistent with the file and queue, and exact unless a flush threw |
| Ledger.RestartSeesProcessed | Savant.Pulse.Utility.Client.PULU01/Services/ProcessingPersistenceService.cs:24-56 | once the queue is empty, a restart loads exactly the keys this run knew |
| Persistence.LoadProcessed | Savant.Pulse.Utility.Client.PULU01/Services/ProcessingPersistenceService.cs:24-56 | loading touches only the key set |
| Persistence.SaveSuccessful | Savant.Pulse.Utility.Client.PULU01/Services/ProcessingPersistenceService.cs:63-75 | saved records are processed; the failure file is untouched; below the batch size nothing is written |
| Persistence.WriteFailedImmediately | Savant.Pulse.Utility.Client.PULU01/Services/ProcessingPersistenceService.cs:139-164 | exactly one line is appended, for the result's record; nothing else changes |
| Persistence.SaveFailed | Savant.Pulse.Utility.Client.PULU01/Services/ProcessingPersistenceService.cs:77-84 | the failure file gains one entry per result, in order; the success side is untouched |
| Persistence.FailuresAreRetried | Savant.Pulse.Utility.Client.PULU01/Services/ProcessingPersistenceService.cs:77-84 | saving failures never marks a record processed |
| Persistence.FlushAll | Savant.Pulse.Utility.Client.PULU01/Services/ProcessingPersistenceService.cs:86-90 | the pending successes are appended to the success file in queue order, stamped now, and the queue empties; it throws iff they meet an unreadable file, an empty queue changes nothing, and the failure file is untouched |
| Persistence.FlushAllCompletesSave | Savant.Pulse.Utility.Client.PULU01/Services/ProcessingPersistenceService.cs:63-90 | saving a short batch and then flushing writes the same file as one full batch |
| LegacyPersistence.SaveSuccessful | savant.ulse.utility.client.PULU01/Services/ProcessingPersistenceService.cs:63-75 | saved records are processed; the failure side is untouched; below the batch size nothing is written |
| LegacyPersistence.FlushFailed | savant.ulse.utility.client.PULU01/Services/ProcessingPersistenceService.cs:143-189 | an empty queue is a no-op; otherwise the queue empties and the failure file gains it in FIFO order, or the call throws iff the file is unreadable |
| LegacyPersistence.SaveFailed | savant.ulse.utility.client.PULU01/Services/ProcessingPersistenceService.cs:77-88 | below the batch size failures are only queued; at the batch size the whole queue is appended to the failure file in order, or the call throws iff the file is unreadable; the key set never changes |
| LegacyPersistence.SaveFailedThenFlush | savant.ulse.utility.client.PULU01/Services/ProcessingPersistenceService.cs:77-189 | with a readable failure file, saving failures and then flushing writes the old list followed by the whole queue, in order, whether or not the batch size was reached |
| LegacyPersistence.FlushAll | savant.ulse.utility.client.PULU01/Services/ProcessingPersistenceService.cs:90-94 | successes, then failures, each file gaining its queue in order; it throws iff a non-empty queue meets an unreadable file, and a failed success flush leaves the failure side alone |
| LegacyPersistence.FlushAllIsDurable | savant.ulse.utility.client.PULU01/Services/ProcessingPersistenceService.cs:90-189 | with readable files both queues end empty and each file is its old list followed by its queue |
| Progress.DisplayProgress | savant.ulse.utility.client.PULU01/Services/ProgressTrackingService.cs:136-164 | the line is written iff forced or 500 ms have passed, and only then does the last-update time move |
| Progress.Initialize | savant.ulse.utility.client.PULU01/Services/ProgressTrackingService.cs:32-48 | the total is set, every counter is zero, both times are now, and the line is written |
| Progress.ReportProgress | savant.ulse.utility.client.PULU01/Services/ProgressTrackingService.cs:50-90 | one more processed record under its own status; an event with the current counters iff a batch is complete or the last record is in; no event means nothing is rendered |
| Progress.ThrottledUpdateStillPublishes | savant.ulse.utility.client.PULU01/Services/ProgressTrackingService.cs:69-87 | a throttled line still raises the event and moves the last-reported mark |
| Progress.ReportKeepsBalanced | savant.ulse.utility.client.PULU01/Services/ProgressTrackingService.cs:54-67 | processed stays equal to success + failed + skipped |
| Progress.StatusCountsAddUp | savant.ulse.utility.client.PULU01/Services/ProgressTrackingService.cs:56-67 | every result has exactly one of the three statuses |
| Progress.ReportAllCounts | savant.ulse.utility.client.PULU01/Services/ProgressTrackingService.cs:50-90 | after a run of reports each counter grew by the number of results with its status, and the balance holds |
| Progress.AfterConcat | savant.ulse.utility.client.PULU01/Services/ProgressTrackingService.cs:50-90 | reporting two runs in turn is reporting their concatenation |
| Progress.FinalReportPublishes | savant.ulse.utility.client.PULU01/Services/ProgressTrackingService.cs:69-87 | the last of `total` reports always raises an event carrying the final count |
| Progress.FinalSummary | savant.ulse.utility.client.PULU01/Services/ProgressTrackingService.cs:103-125 | the headline says complete iff every record was processed; the error-log line appears iff something failed |
| Progress.HeadlineReflectsCoverage | savant.ulse.utility.client.PULU01/Services/ProgressTrackingService.cs:103-110 | reporting every record ends complete; a cancelled run ends stopped |
| Progress.FormatDuration | savant.ulse.utility.client.PULU01/Services/ProgressTrackingService.cs:180-186 | `HH:MM:SS` from one hour on, `MM:SS` below |
| Progress.FormatParseRoundTrip | savant.ulse.utility.client.PULU01/Services/ProgressTrackingService.cs:180-186 | the rendering reads back as the duration's hour, minute and second components |
| Progress.WholeDaysDropped | savant.ulse.utility.client.PULU01/Services/ProgressTrackingService.cs:182-183 | adding a whole day does not change the rendering |
| Worker.Route | savant.ulse.utility.client.PULU01/Services/ProcessingWorkerService.cs:157-177 | the call's own result, or a failure `Worker error: {message}` for the record whose call threw |
| Worker.RoutingPartitions | savant.ulse.utility.client.PULU01/Services/ProcessingWorkerService.cs:159-166 | each handled record lands in exactly one collection: one success record per successful result, every other result in the failure collection |
| Worker.ProcessWorkerQueue | savant.ulse.utility.client.PULU01/Services/ProcessingWorkerService.cs:139-194 | the worker handles the queue in order up to cancellation, reports each handled record exactly once, and routes each to one collection |
| Worker.Unprocessed | savant.ulse.utility.client.PULU01/Services/ProcessingWorkerService.cs:36-39 | the kept records are input records whose key is not processed, and every such input record is kept |
| Worker.UnprocessedOne | savant.ulse.utility.client.PULU01/Services/ProcessingWorkerService.cs:38-39 | a single record is kept iff its key is not processed |
| Worker.UnprocessedConcat | savant.ulse.utility.client.PULU01/Services/ProcessingWorkerService.cs:38-39 | filtering a concatenation is filtering each part, so the kept records stay in input order |
| Worker.SkipReports | savant.ulse.utility.client.PULU01/Services/ProcessingWorkerService.cs:59-64 | one skip per skipped count, for the input records at the front of the list |
| Worker.SkipReportsNameLeadingRecords | savant.ulse.utility.client.PULU01/Services/ProcessingWorkerService.cs:57-64 | the skip can be reported for a record that is then processed, not for the one filtered out |
| Worker.Work | savant.ulse.utility.client.PULU01/Services/ProcessingWorkerService.cs:31-104 | skips plus unprocessed equal the input; nothing left means an early return without tracker; otherwise the counters balance and the successes match the success collection; nothing is saved yet |
| Worker.ProcessRecordsAsWritten | savant.ulse.utility.client.PULU01/Services/ProcessingWorkerService.cs:31-137 | an uncancelled run with work handles every record and then never returns: no final save and no summary; a stop runs the final save as written, which below the batch size leaves the success file untouched |
| Worker.ProcessRecords | savant.ulse.utility.client.PULU01/Services/ProcessingWorkerService.cs:31-137 | the corrected run, with the batch saver stopping once the workers are done and the corrected final save: it always returns; an uncancelled run handles everything and ends complete; with readable files every success reaches the success file |
| Worker.FinalSaveAsWritten | savant.ulse.utility.client.PULU01/Services/ProcessingWorkerService.cs:113-129 | the final save as written: every success is processed in memory, but below the batch size neither file changes |
| Worker.SmallRunIsNotWritten | savant.ulse.utility.client.PULU01/Services/ProcessingWorkerService.cs:113-129 | one success on a new ledger leaves the success file missing, so a restart does not know the record |
| Worker.FinalSave | savant.ulse.utility.client.PULU01/Services/ProcessingWorkerService.cs:113-129 | the corrected final save: after it, unless it threw, both queues are empty |
| Worker.FinalSaveIsDurable | savant.ulse.utility.client.PULU01/Services/ProcessingWorkerService.cs:113-129 | with readable files the corrected save writes everything queued and handed over, and a restart sees every success |
| Worker.ResumeSkipsSucceeded | savant.ulse.utility.client.PULU01/Services/ProcessingWorkerService.cs:36-40 | with the corrected final save and readable files, a second run over the same input sends no record that succeeded or was done before |
| TestData.DonationNumber | TestDataGenerator/TestDataGenerator/Program.cs:22-25 | 14 characters: `G095625`, six digits that read back as the line number, and the drawn last character |
| TestData.DonationNumbersDistinct | TestDataGenerator/TestDataGenerator/Program.cs:23-25 | different line numbers give different donation numbers, whatever was drawn |
| TestData.PoolsAreWellFormed | TestDataGenerator/TestDataGenerator/Program.cs:9-13 | product codes have length 4, hold codes length 3, all letters and digits; no hold code starts with a digit or `G` |
| TestData.DataLineParses | TestDataGenerator/TestDataGenerator/Program.cs:20-31 | each data line splits into its three fields and parses back to the valid record it was written from |
| TestData.GeneratedRecordsValidAndDistinct | TestDataGenerator/TestDataGenerator/Program.cs:20-31 | every generated record is valid and no two share a key |
| TestData.GenerateFile | TestDataGenerator/TestDataGenerator/Program.cs:15-31 | 20 001 lines: the header, then on line `k` the donation number for `k` and the drawn product and hold codes as its three fields |
| TestData.HeaderIsDetected | TestDataGenerator/TestDataGenerator/Program.cs:18 | the header line splits into its three names and is taken for a header |
| TestData.DataLineIsHeaderLike | TestDataGenerator/TestDataGenerator/Program.cs:29-31 | every data line would also pass for a header, through its hold code |
| TestData.ReadGeneratedFile | TestDataGenerator/TestDataGenerator/Program.cs:15-31 | reading the generated file gives every generated record in order, 20 000 valid and none invalid |
| TestData.HeaderlessFileLosesFirstRecord | TestDataGenerator/TestDataGenerator/Program.cs:18-31 | without its header line the file loses its first record to the header heuristic: the rest are read, none invalid |

A valid record's key is 23 characters long. This is stated on
`DonationRecord.Key` itself.

## Left out

- Concurrency: several workers, the semaphore, the concurrent queue and bags, and `Task.Run`/`WhenAll` are not modelled. One sequential worker stands for them.
- The batch saver's periodic saves (`BatchSaveResults`, ProcessingWorkerService.cs:196-260) are not modelled: its 5-second timer, its `TryTake` loop and its `lastSuccessCount` arithmetic. Only its lifetime is modelled. As written it ends only on cancellation, so a run returns only once a stop is requested (see Findings). The state of a run that has not returned is the state when the workers finish, without whatever the batch saver wrote meanwhile.
- The order of a `ConcurrentBag` is unspecified. The model keeps the order in which the worker handled the records.
- File I/O and JSON: a file is an abstract store or a sequence of lines. Indentation, property naming, the wire format and write failures are not modelled. A write that fails after the read is not distinguished from success.
- HTTP transport: the `HttpClient` call, the request body and the response parsing are inputs, as a `CallOutcome`. `MockApiClientService` (random delays and success rate) is not modelled.
- Floating point: percentages, the rate, the ETA and the progress bar are not modelled. Neither is console rendering or `ConsoleHelper`.
- The clock: `DateTime.UtcNow` is a parameter. The worker model reads the clock once per run, so every result of a run carries the same time.
- `Trim`, `ToUpper` and `IsNullOrWhiteSpace` are modelled on ASCII only: six whitespace characters and the letters `a`-`z`. Culture rules and Unicode whitespace are not modelled.
- Text.Utf16Length: a string is a sequence of Unicode scalar values, so a .NET string holding an unpaired surrogate cannot be represented; `Length` is otherwise counted as .NET does, two units for each character outside the Basic Multilingual Plane.
- CsvReader.DetectHeader: `char.IsDigit` (any Unicode decimal digit) is modelled as `0`-`9`, and the culture-sensitive `p.StartsWith("G")` (CsvReaderService.cs:82) as a test of the first character. The two differ only on non-ASCII text, for example a field starting with an ignorable character before `G`.
- ApiClient.SameHeaderName: header names are compared ignoring ASCII case only, as `HttpHeaders` does for the ASCII names used here.
- Config.Bind: conversion errors in the settings file and the fallback to `config.Bind` (Program.cs:98-103) are not modelled; settings are maps of already-typed values.
- Config.Validate: the file's existence is an input flag. A null clear code does not arise, because the command-line library supplies a string.
- ApiClient.ClearHold: the request is not built from `FromDonationRecord`. The call site passes one argument where the method takes two (HttpApiClientService.cs:55 against ClearHoldRequestDto.cs:33), so the request and the call are kept apart.
- ClearHoldRequest.FromDonationRecord: `record.HoldDateTime` is not declared on `DonationRecord`, so the hold time is an optional parameter; its absence is the `.Value` exception.
- `ICsvReaderService.ReadDiscardRecordsAsync` has no implementation in the reader, and discard records are not modelled.
- The earlier tree's `ProcessingResult` and `DonationRecord` files are not part of this model. The current tree's versions are used for both trees.
- The current tree's `FlushFailedRecordsAsync` does nothing (ProcessingPersistenceService.cs:166-171). It is not modelled, because nothing in the failure path depends on it.
- ApiClient.ConfigureHttpClient: whether a base URL parses as an absolute URI is a parameter, because the URI parser is not modelled. `HttpHeaders.Add` rejects some header values (for example ones containing line breaks), and that check is not modelled either.
- DI wiring, both `ApplicationService` files, `JsonContext`, the interfaces, `ErrorNum`, `ClearHoldStatus` and the response DTOs hold no logic that the modelled code consumes.

## Findings

| source | as written | input that shows it | evidently intended | confidence | as-written member | corrected member |
|---|---|---|---|---|---|---|
| savant.ulse.utility.client.PULU01/Services/ProcessingWorkerService.cs:113-129 | the final cleanup hands the remaining successes and failures to `SaveSuccessfulRecordsAsync` and `SaveFailedRecordsAsync`, which write only once `FileWriteBatchSize` records are queued; `FlushAllAsync` is never called | a new ledger with no success file, batch size 100, one record cleared successfully: the success file stays absent, and the next run clears the same hold again | flush both queues after the final save, so every success reaches the ledger | not executed | Worker.FinalSaveAsWritten, Worker.SmallRunIsNotWritten, Worker.ProcessRecordsAsWritten | Worker.FinalSave, Worker.FinalSaveIsDurable, Worker.ResumeSkipsSucceeded, Worker.ProcessRecords |
| savant.ulse.utility.client.PULU01/Services/ProcessingWorkerService.cs:96-208 | the batch saver loops `while (!cancellationToken.IsCancellationRequested)` and leaves only when its `Task.Delay` is cancelled, and the run awaits it after the workers | any run with at least one unprocessed record and no Ctrl+C: every record is handled, then `await batchSaver` never returns, so the final save and `DisplayFinalSummary` in the `finally` block never run | the batch saver stops once the workers are done, so the run ends on its own with the final save and a `Complete` summary | not executed | Worker.ProcessRecordsAsWritten | Worker.ProcessRecords |

=== FILE: api_client.dfy ===
/** `HttpApiClientService`: the client configuration and the classification
    of one clear-hold call's outcome into a `ProcessingResult`. The transport
    is not modelled: what the call produced is an input. */
module ApiClient {
  import opened Wrappers
  import opened Text
  import opened Records
  import opened Config

  /** `ClearHoldResponseDto` as far as the classification reads it. */
  datatype ResponseBody = ResponseBody(success: bool, message: Option<string>)

  /** What one `PostAsync` call came to. A response carries its status code,
      reason phrase (`""` when it has none), body text and, for a 2xx status,
      the decoded body (`None` when the JSON was the literal `null`). The other
      cases are the exceptions the method distinguishes; any exception raised
      while building the request (for example by the request mapping) is
      an `OtherError`. */
  datatype CallOutcome =
    | Responded(statusCode: nat, reasonPhrase: string, content: string, decoded: Option<ResponseBody>)
    | HttpRequestError(message: string)
    | TaskCancelled(innerIsTimeout: bool)
    | JsonError(message: string)
    | OtherError(message: string)

  /** `HttpResponseMessage.IsSuccessStatusCode` */
  predicate IsSuccessStatusCode(code: nat) {
    200 <= code <= 299
  }

  const UnknownApiError := "Unknown API error"
  const HttpRequestFailedPrefix := "HTTP request failed: "
  const RequestTimeout := "Request timeout"
  const RequestCancelled := "Request cancelled"
  const JsonErrorPrefix := "JSON serialization/deserialization error: "
  const UnexpectedErrorPrefix := "Unexpected error: "

  /** `$"HTTP {(int)response.StatusCode} {response.ReasonPhrase}: {errorContent}"` */
  function HttpErrorMessage(code: nat, reason: string, content: string): string {
    "HTTP " + NatToDigits(code) + " " + reason + ": " + content
  }

  /** `ClearHoldAsync`: every path returns a result for the given record, built
      with the positional constructor. It is a success exactly when the status
      is 2xx and the decoded body says so; it is never a skip. */
  function ClearHold(record: DonationRecord, outcome: CallOutcome): (r: ProcessingResult)
    ensures r.record == record && r.processedAt == DefaultInstant
    ensures r.status != Skipped
    ensures r.IsSuccess() <==>
      outcome.Responded? && IsSuccessStatusCode(outcome.statusCode)
      && outcome.decoded.Some? && outcome.decoded.value.success
    ensures r.IsSuccess() ==> r.errorMessage == outcome.decoded.value.message
    ensures !r.IsSuccess() ==> r.errorMessage.Some?
  {
    match outcome
    case Responded(code, reason, content, decoded) =>
      if IsSuccessStatusCode(code) then
        if decoded.Some? && decoded.value.success then
          ProcessingResult(record, Success, decoded.value.message)
        else
          var message := if decoded.Some? then decoded.value.message.GetOr(UnknownApiError) else UnknownApiError;
          ProcessingResult(record, Failed, Some(message))
      else
        ProcessingResult(record, Failed, Some(HttpErrorMessage(code, reason, content)))
    case HttpRequestError(m) => ProcessingResult(record, Failed, Some(HttpRequestFailedPrefix + m))
    case TaskCancelled(timeout) =>
      ProcessingResult(record, Failed, Some(if timeout then RequestTimeout else RequestCancelled))
    case JsonError(m) => ProcessingResult(record, Failed, Some(JsonErrorPrefix + m))
    case OtherError(m) => ProcessingResult(record, Failed, Some(UnexpectedErrorPrefix + m))
  }

  /** A 2xx answer that the API marks as failed: its message is passed on as
      it is (even when empty, so the result may have no error), and only a
      missing message or body becomes `Unknown API error`. */
  lemma ApiFailureMessage(record: DonationRecord, code: nat, reason: string, content: string, body: Option<ResponseBody>)
    requires IsSuccessStatusCode(code)
    requires body.None? || !body.value.success
    ensures var r := ClearHold(record, Responded(code, reason, content, body));
      && r.status == Failed
      && (body.Some? && body.value.message.Some? ==> r.errorMessage == body.value.message)
      && (body.None? || body.value.message.None? ==> r.errorMessage == Some(UnknownApiError))
      && (body == Some(ResponseBody(false, Some(""))) ==> !r.HasError())
  {
  }

  /** Every 2xx answer the API marks as successful gives a success carrying
      the API's message, so a success reports an error whenever that message
      is non-empty. */
  lemma SuccessMayHaveError(record: DonationRecord, code: nat, reason: string, content: string, m: Option<string>)
    requires IsSuccessStatusCode(code)
    ensures var r := ClearHold(record, Responded(code, reason, content, Some(ResponseBody(true, m))));
      && r.IsSuccess() && r.errorMessage == m
      && (r.HasError() <==> m.Some? && m.value != "")
  {
  }

  /** The kinds of failure a message names, read back from its text. */
  datatype FailureKind =
    | StatusKind(code: nat)
    | TransportKind
    | TimeoutKind
    | CancelledKind
    | JsonKind
    | UnexpectedKind
    | Unclassified

  predicate IsPrefix(p: string, s: string) {
    |p| <= |s| && s[..|p|] == p
  }

  /** The longest run of digits at the start of `s`. */
  function LeadingDigits(s: string): (d: string)
    ensures AllDigits(d) && IsPrefix(d, s)
    ensures |d| < |s| ==> !IsDigit(s[|d|])
    decreases |s|
  {
    if |s| > 0 && IsDigit(s[0]) then
      var rest := LeadingDigits(s[1..]);
      assert ([s[0]] + rest)[1..] == rest;
      [s[0]] + rest
    else []
  }

  lemma {:induction false} LeadingDigitsOf(d: string, s: string)
    requires AllDigits(d)
    requires |s| > 0 && !IsDigit(s[0])
    ensures LeadingDigits(d + s) == d
    decreases |d|
  {
    if |d| > 0 {
      assert (d + s)[1..] == d[1..] + s;
      LeadingDigitsOf(d[1..], s);
      assert [d[0]] + d[1..] == d;
    } else {
      assert d + s == s;
    }
  }

  /** The partner of `ClearHold`'s failure messages: which failure a message
      reports, told apart by its fixed text. */
  function FailureKindOf(msg: string): FailureKind {
    if msg == RequestTimeout then TimeoutKind
    else if msg == RequestCancelled then CancelledKind
    else if IsPrefix(HttpRequestFailedPrefix, msg) then TransportKind
    else if IsPrefix(JsonErrorPrefix, msg) then JsonKind
    else if IsPrefix(UnexpectedErrorPrefix, msg) then UnexpectedKind
    else if IsPrefix("HTTP ", msg) then
      var d := LeadingDigits(msg[5..]);
      if |d| > 0 && d == NatToDigits(DigitsValue(d)) then StatusKind(DigitsValue(d)) else Unclassified
    else Unclassified
  }

  /** The other half of a message: the text after its fixed prefix (after
      `HTTP {code} ` for a status message), or the whole text when there is
      no prefix. */
  function FailurePayload(msg: string): string {
    if IsPrefix(HttpRequestFailedPrefix, msg) then msg[|HttpRequestFailedPrefix|..]
    else if IsPrefix(JsonErrorPrefix, msg) then msg[|JsonErrorPrefix|..]
    else if IsPrefix(UnexpectedErrorPrefix, msg) then msg[|UnexpectedErrorPrefix|..]
    else if IsPrefix("HTTP ", msg) then
      var n := 5 + |LeadingDigits(msg[5..])|;
      if n < |msg| && msg[n] == ' ' then msg[n + 1..] else msg
    else msg
  }

  /** What the payload of an outcome's failure message should be: the
      exception's own message, or the reason phrase and body of a non-2xx
      answer. */
  function ExpectedPayload(outcome: CallOutcome): string {
    match outcome
    case Responded(_, reason, content, _) => reason + ": " + content
    case HttpRequestError(m) => m
    case TaskCancelled(timeout) => if timeout then RequestTimeout else RequestCancelled
    case JsonError(m) => m
    case OtherError(m) => m
  }

  /** The failure an outcome stands for, when the message is the client's own
      (a 2xx failure carries the API's message instead). */
  function ExpectedKind(outcome: CallOutcome): Option<FailureKind> {
    match outcome
    case Responded(code, _, _, _) => if IsSuccessStatusCode(code) then None else Some(StatusKind(code))
    case HttpRequestError(_) => Some(TransportKind)
    case TaskCancelled(timeout) => Some(if timeout then TimeoutKind else CancelledKind)
    case JsonError(_) => Some(JsonKind)
    case OtherError(_) => Some(UnexpectedKind)
  }

  lemma StatusMessageKind(code: nat, reason: string, content: string)
    ensures FailureKindOf(HttpErrorMessage(code, reason, content)) == StatusKind(code)
  {
    var msg := HttpErrorMessage(code, reason, content);
    var digits := NatToDigits(code);
    var tail := " " + reason + ": " + content;
    assert msg == "HTTP " + (digits + tail);
    assert msg[..5] == "HTTP ";
    assert msg[5..] == digits + tail;
    assert msg[0] == 'H' && msg[1] == 'T' && msg[2] == 'T' && msg[3] == 'P' && msg[4] == ' ';
    assert IsDigit(msg[5]);
    assert msg != RequestTimeout && msg != RequestCancelled;
    assert !IsPrefix(HttpRequestFailedPrefix, msg) by {
      assert HttpRequestFailedPrefix[5] == 'r';
    }
    assert !IsPrefix(JsonErrorPrefix, msg) by {
      assert JsonErrorPrefix[0] == 'J';
    }
    assert !IsPrefix(UnexpectedErrorPrefix, msg) by {
      assert UnexpectedErrorPrefix[0] == 'U';
    }
    LeadingDigitsOf(digits, tail);
    DigitsRoundTrip(code);
  }

  /** After `HTTP `, a run of digits and a space, the payload is the rest. */
  lemma StatusPayloadOf(digits: string, rest: string)
    requires |digits| > 0 && AllDigits(digits)
    ensures FailurePayload("HTTP " + digits + " " + rest) == rest
  {
    var msg := "HTTP " + digits + " " + rest;
    assert msg[5..] == digits + (" " + rest);
    assert IsDigit(msg[5]);
    assert !IsPrefix(HttpRequestFailedPrefix, msg) by {
      assert HttpRequestFailedPrefix[5] == 'r';
    }
    assert !IsPrefix(JsonErrorPrefix, msg) by {
      assert JsonErrorPrefix[0] == 'J';
    }
    assert !IsPrefix(UnexpectedErrorPrefix, msg) by {
      assert UnexpectedErrorPrefix[0] == 'U';
    }
    assert msg[..5] == "HTTP ";
    LeadingDigitsOf(digits, " " + rest);
    var n := 5 + |digits|;
    assert msg[n] == ' ';
    assert msg[n + 1..] == rest;
  }

  lemma StatusMessagePayload(code: nat, reason: string, content: string)
    ensures FailurePayload(HttpErrorMessage(code, reason, content)) == reason + ": " + content
  {
    assert HttpErrorMessage(code, reason, content) == "HTTP " + NatToDigits(code) + " " + (reason + ": " + content);
    StatusPayloadOf(NatToDigits(code), reason + ": " + content);
  }

  lemma TransportMessageKind(m: string)
    ensures FailureKindOf(HttpRequestFailedPrefix + m) == TransportKind
    ensures FailurePayload(HttpRequestFailedPrefix + m) == m
  {
    var msg := HttpRequestFailedPrefix + m;
    assert msg[..|HttpRequestFailedPrefix|] == HttpRequestFailedPrefix;
    assert msg[|HttpRequestFailedPrefix|..] == m;
    assert msg[0] == 'H' && msg[5] == 'r';
  }

  lemma JsonMessageKind(m: string)
    ensures FailureKindOf(JsonErrorPrefix + m) == JsonKind
    ensures FailurePayload(JsonErrorPrefix + m) == m
  {
    var msg := JsonErrorPrefix + m;
    assert msg[..|JsonErrorPrefix|] == JsonErrorPrefix;
    assert msg[|JsonErrorPrefix|..] == m;
    assert msg[0] == 'J';
    assert !IsPrefix(HttpRequestFailedPrefix, msg) by {
      assert HttpRequestFailedPrefix[0] == 'H';
    }
  }

  lemma UnexpectedMessageKind(m: string)
    ensures FailureKindOf(UnexpectedErrorPrefix + m) == UnexpectedKind
    ensures FailurePayload(UnexpectedErrorPrefix + m) == m
  {
    var msg := UnexpectedErrorPrefix + m;
    assert msg[..|UnexpectedErrorPrefix|] == UnexpectedErrorPrefix;
    assert msg[|UnexpectedErrorPrefix|..] == m;
    assert msg[0] == 'U';
    assert !IsPrefix(HttpRequestFailedPrefix, msg) by {
      assert HttpRequestFailedPrefix[0] == 'H';
    }
    assert !IsPrefix(JsonErrorPrefix, msg) by {
      assert JsonErrorPrefix[0] == 'J';
    }
  }

  /** The two cancellation texts have no prefix, so they are their own payload. */
  lemma CancellationPayload(timeout: bool)
    ensures var msg := if timeout then RequestTimeout else RequestCancelled;
      FailurePayload(msg) == msg
  {
    var msg := if timeout then RequestTimeout else RequestCancelled;
    assert msg[0] == 'R';
    assert !IsPrefix(HttpRequestFailedPrefix, msg) by {
      assert HttpRequestFailedPrefix[0] == 'H';
    }
    assert !IsPrefix(JsonErrorPrefix, msg) by {
      assert JsonErrorPrefix[0] == 'J';
    }
    assert !IsPrefix(UnexpectedErrorPrefix, msg) by {
      assert UnexpectedErrorPrefix[0] == 'U';
    }
    assert !IsPrefix("HTTP ", msg) by {
      assert "HTTP "[0] == 'H';
    }
  }

  /** Every failure message the client writes itself identifies its cause
      and carries its details: the status code of a non-2xx answer can be
      read back from it, the exception kinds have distinct texts, and what
      follows the fixed text is the exception's message, or the reason phrase
      and body of the answer. */
  lemma FailureMessageIdentifiesCause(record: DonationRecord, outcome: CallOutcome)
    requires ExpectedKind(outcome).Some?
    ensures var r := ClearHold(record, outcome);
      && r.errorMessage.Some?
      && FailureKindOf(r.errorMessage.value) == ExpectedKind(outcome).value
      && FailurePayload(r.errorMessage.value) == ExpectedPayload(outcome)
  {
    match outcome
    case Responded(code, reason, content, _) =>
      StatusMessageKind(code, reason, content);
      StatusMessagePayload(code, reason, content);
    case HttpRequestError(m) => TransportMessageKind(m);
    case TaskCancelled(timeout) => CancellationPayload(timeout);
    case JsonError(m) => JsonMessageKind(m);
    case OtherError(m) => UnexpectedMessageKind(m);
  }

  /** The part of `HttpClient` that `ConfigureHttpClient` sets. */
  datatype ClientSettings = ClientSettings(baseAddress: Option<string>, timeoutSeconds: int, headers: seq<(string, string)>)

  /** Header names are compared without regard to (ASCII) case. */
  predicate SameHeaderName(a: string, b: string) {
    ToUpper(a) == ToUpper(b)
  }

  /** The value of the first header whose name matches `name`, if any. */
  function HeaderValue(headers: seq<(string, string)>, name: string): (v: Option<string>)
    ensures v.Some? <==> exists i :: 0 <= i < |headers| && SameHeaderName(headers[i].0, name)
    decreases |headers|
  {
    if |headers| == 0 then None
    else if SameHeaderName(headers[0].0, name) then Some(headers[0].1)
    else
      var v := HeaderValue(headers[1..], name);
      assert forall i :: 1 <= i < |headers| ==> headers[i] == headers[1..][i - 1];
      v
  }

  /** A lookup sees only the case-folded name: two spellings of one name
      find the same header. */
  lemma {:induction false} HeaderLookupIgnoresCase(headers: seq<(string, string)>, a: string, b: string)
    requires SameHeaderName(a, b)
    ensures HeaderValue(headers, a) == HeaderValue(headers, b)
    decreases |headers|
  {
    if |headers| > 0 {
      HeaderLookupIgnoresCase(headers[1..], a, b);
    }
  }

  /** The largest `HttpClient.Timeout`: `int.MaxValue` milliseconds, in whole seconds. */
  const MaxTimeoutSeconds := 2147483

  /** `TimeSpan.FromSeconds(t)` is accepted by the `Timeout` setter: positive
      and at most `int.MaxValue` milliseconds. */
  predicate ValidTimeout(t: int) {
    1 <= t <= MaxTimeoutSeconds
  }

  /** `ConfigureHttpClient`, run by the constructor. `new Uri(BaseUrl)`
      throws for a URL that does not parse as absolute (`isAbsoluteUri`
      stands for the URI parser), and the `Timeout` setter throws outside
      its range: either exception is `None`, as the service is then not
      constructed. Otherwise the base address changes only for a non-empty
      base URL, the timeout is the configured one, and the default headers
      are cleared and replaced by exactly the three identity headers and
      `Accept`. */
  function ConfigureHttpClient(client: ClientSettings, api: ApiConfiguration, isAbsoluteUri: string -> bool): (c: Option<ClientSettings>)
    ensures c.Some? <==> (|api.baseUrl| == 0 || isAbsoluteUri(api.baseUrl)) && ValidTimeout(api.timeoutSeconds)
    ensures c.Some? && |api.baseUrl| > 0 ==> c.value.baseAddress == Some(api.baseUrl)
    ensures c.Some? && |api.baseUrl| == 0 ==> c.value.baseAddress == client.baseAddress
    ensures c.Some? ==> c.value.timeoutSeconds == api.timeoutSeconds
    ensures c.Some? ==> |c.value.headers| == 4
    ensures c.Some? ==> HeaderValue(c.value.headers, "X-UserId") == Some(api.headers.xUserId)
    ensures c.Some? ==> HeaderValue(c.value.headers, "X-AppName") == Some(api.headers.xAppName)
    ensures c.Some? ==> HeaderValue(c.value.headers, "X-Environment") == Some(api.headers.xEnvironment)
    ensures c.Some? ==> HeaderValue(c.value.headers, "Accept") == Some("application/json")
  {
    if |api.baseUrl| > 0 && !isAbsoluteUri(api.baseUrl) then None
    else if !ValidTimeout(api.timeoutSeconds) then None
    else
      var headers := ConfiguredHeaders(api);
      ConfiguredHeadersLookup(api);
      Some(ClientSettings(
        if api.baseUrl != "" then Some(api.baseUrl) else client.baseAddress,
        api.timeoutSeconds,
        headers))
  }

  /** The four default headers, in the order they are added. */
  function ConfiguredHeaders(api: ApiConfiguration): seq<(string, string)> {
    [("X-UserId", api.headers.xUserId),
     ("X-AppName", api.headers.xAppName),
     ("X-Environment", api.headers.xEnvironment),
     ("Accept", "application/json")]
  }

  /** The four names differ in length, so no two of them match. */
  lemma HeaderNamesDiffer()
    ensures |ToUpper("X-UserId")| == 8 && |ToUpper("X-AppName")| == 9
    ensures |ToUpper("X-Environment")| == 13 && |ToUpper("Accept")| == 6
  {
  }

  lemma ConfiguredHeadersLookup(api: ApiConfiguration)
    ensures HeaderValue(ConfiguredHeaders(api), "X-UserId") == Some(api.headers.xUserId)
    ensures HeaderValue(ConfiguredHeaders(api), "X-AppName") == Some(api.headers.xAppName)
    ensures HeaderValue(ConfiguredHeaders(api), "X-Environment") == Some(api.headers.xEnvironment)
    ensures HeaderValue(ConfiguredHeaders(api), "Accept") == Some("application/json")
  {
    var h := ConfiguredHeaders(api);
    HeaderNamesDiffer();
    assert h[1..][1..] == h[2..] && h[2..][1..] == h[3..];
    assert HeaderValue(h[3..], "Accept") == Some("application/json");
    assert HeaderValue(h[2..], "X-Environment") == Some(api.headers.xEnvironment);
    assert HeaderValue(h[2..], "Accept") == Some("application/json");
    assert HeaderValue(h[1..], "Accept") == Some("application/json");
  }

  /** Any spelling of a configured name finds the configured value. */
  lemma ConfiguredHeadersAnySpelling(api: ApiConfiguration, name: string)
    ensures var h := ConfiguredHeaders(api);
      && (SameHeaderName(name, "X-UserId") ==> HeaderValue(h, name) == Some(api.headers.xUserId))
      && (SameHeaderName(name, "X-AppName") ==> HeaderValue(h, name) == Some(api.headers.xAppName))
      && (SameHeaderName(name, "X-Environment") ==> HeaderValue(h, name) == Some(api.headers.xEnvironment))
      && (SameHeaderName(name, "Accept") ==> HeaderValue(h, name) == Some("application/json"))
  {
    var h := ConfiguredHeaders(api);
    ConfiguredHeadersLookup(api);
    if SameHeaderName(name, "X-UserId") { HeaderLookupIgnoresCase(h, name, "X-UserId"); }
    if SameHeaderName(name, "X-AppName") { HeaderLookupIgnoresCase(h, name, "X-AppName"); }
    if SameHeaderName(name, "X-Environment") { HeaderLookupIgnoresCase(h, name, "X-Environment"); }
    if SameHeaderName(name, "Accept") { HeaderLookupIgnoresCase(h, name, "Accept"); }
  }

  /** No other name finds anything. */
  lemma ConfiguredHeadersNoOther(api: ApiConfiguration, name: string)
    requires !SameHeaderName(name, "X-UserId") && !SameHeaderName(name, "X-AppName")
    requires !SameHeaderName(name, "X-Environment") && !SameHeaderName(name, "Accept")
    ensures HeaderValue(ConfiguredHeaders(api), name) == None
  {
  }

  /** Whatever headers the client had before, only the four configured ones
      remain, and each is found under any spelling of its name. */
  lemma ConfiguredHeadersAreExactly(client: ClientSettings, api: ApiConfiguration, isAbsoluteUri: string -> bool, name: string)
    requires ConfigureHttpClient(client, api, isAbsoluteUri).Some?
    ensures var h := ConfigureHttpClient(client, api, isAbsoluteUri).value.headers;
      && (SameHeaderName(name, "X-UserId") ==> HeaderValue(h, name) == Some(api.headers.xUserId))
      && (SameHeaderName(name, "X-AppName") ==> HeaderValue(h, name) == Some(api.headers.xAppName))
      && (SameHeaderName(name, "X-Environment") ==> HeaderValue(h, name) == Some(api.headers.xEnvironment))
      && (SameHeaderName(name, "Accept") ==> HeaderValue(h, name) == Some("application/json"))
      && (!SameHeaderName(name, "X-UserId") && !SameHeaderName(name, "X-AppName")
          && !SameHeaderName(name, "X-Environment") && !SameHeaderName(name, "Accept")
          ==> HeaderValue(h, name) == None)
  {
    assert ConfigureHttpClient(client, api, isAbsoluteUri).value.headers == ConfiguredHeaders(api);
    ConfiguredHeadersAnySpelling(api, name);
    if !SameHeaderName(name, "X-UserId") && !SameHeaderName(name, "X-AppName")
       && !SameHeaderName(name, "X-Environment") && !SameHeaderName(name, "Accept") {
      ConfiguredHeadersNoOther(api, name);
    }
  }
}

=== FILE: clear_hold_request.dfy ===
/** `ClearHoldRequestDto`: the outbound request body, with its normalising
    setters, its two derived flags and the mapping from a donation record. */
module ClearHoldRequest {
  import opened Wrappers
  import opened Text
  import opened Records

  /** Only the member the mapping uses appears in the source. */
  datatype HoldType = Direct

  /** The request once every property has been assigned. `IncidentNumber` is a
      nullable reference, so it is an `Option`. */
  datatype ClearHoldRequestDto = ClearHoldRequestDto(
    productCode: string,
    unitNumber: string,
    holdCode: string,
    clearCode: string,
    programId: string,
    dateTimePlaced: Instant,
    incidentNumber: Option<string>,
    clearConstituents: bool,
    clearType: HoldType,
    calledFromDT: bool,
    calledFromValidation: bool)
  {
    /** `!string.IsNullOrEmpty(IncidentNumber)` */
    predicate IsInStockIncident() {
      incidentNumber.Some? && |incidentNumber.value| > 0
    }

    /** Non-empty, and `ALL` once upper-cased and trimmed. */
    predicate IsAllHold() {
      |productCode| > 0 && Normalize(productCode) == "ALL"
    }
  }

  /** What the `ProductCode` and `UnitNumber` setters store: `value.ToUpper().Trim()`.
      The result is upper-case, has no whitespace at either end and is no
      longer than the value. */
  function Normalize(value: string): (r: string)
    ensures IsUpper(r) && IsTrimmed(r) && |r| <= |value|
    ensures IsBlank(value) <==> r == ""
    ensures exists i, j :: 0 <= i <= j <= |value| && r == ToUpper(value)[i..j]
                           && IsBlank(value[..i]) && IsBlank(value[j..])
  {
    TrimOfUpper(value);
    TrimOfUpperIsInfix(value);
    Trim(ToUpper(value))
  }

  /** The infix `Trim` keeps of the upper-cased value is surrounded by
      whitespace of the value itself. */
  lemma TrimOfUpperIsInfix(value: string)
    ensures exists i, j :: 0 <= i <= j <= |value| && Trim(ToUpper(value)) == ToUpper(value)[i..j]
                           && IsBlank(value[..i]) && IsBlank(value[j..])
  {
    var u := ToUpper(value);
    assert IsWhiteSpaceInfix(Trim(u), u);
    var i, j :| 0 <= i <= j <= |u| && Trim(u) == u[i..j] && IsBlank(u[..i]) && IsBlank(u[j..]);
    UpperSlices(value, i);
    UpperSlices(value, j);
  }

  /** An already-normalised value is stored as it is. */
  lemma NormalizeFixesNormalized(value: string)
    requires IsUpper(value) && IsTrimmed(value)
    ensures Normalize(value) == value
  {
    UpperIsFixed(value);
    TrimmedIsFixed(value);
  }

  /** Normalisation is idempotent. */
  lemma NormalizeIdempotent(value: string)
    ensures Normalize(Normalize(value)) == Normalize(value)
  {
    NormalizeFixesNormalized(Normalize(value));
  }

  /** `ProductCode = value` */
  function SetProductCode(d: ClearHoldRequestDto, value: string): (r: ClearHoldRequestDto)
    ensures r.productCode == Normalize(value)
    ensures IsUpper(r.productCode) && IsTrimmed(r.productCode)
    ensures r.(productCode := d.productCode) == d
  {
    d.(productCode := Normalize(value))
  }

  /** `UnitNumber = value` */
  function SetUnitNumber(d: ClearHoldRequestDto, value: string): (r: ClearHoldRequestDto)
    ensures r.unitNumber == Normalize(value)
    ensures IsUpper(r.unitNumber) && IsTrimmed(r.unitNumber)
    ensures r.(unitNumber := d.unitNumber) == d
  {
    d.(unitNumber := Normalize(value))
  }

  /** Assigning a normalised property its own value changes nothing. */
  lemma ReassignIsNoOp(d: ClearHoldRequestDto, value: string)
    ensures var e := SetProductCode(d, value); SetProductCode(e, e.productCode) == e
    ensures var e := SetUnitNumber(d, value); SetUnitNumber(e, e.unitNumber) == e
  {
    NormalizeIdempotent(value);
  }

  lemma TrimPaddedAll()
    ensures Trim(" ALL ") == "ALL"
  {
    assert TrimStart(" ALL ") == "ALL " by {
      assert " ALL "[1..] == "ALL ";
    }
    assert TrimEnd("ALL ") == "ALL" by {
      assert "ALL "[..3] == "ALL";
    }
  }

  /** Because the setter normalises, the request is an all-products hold
      exactly when the assigned value normalises to `ALL`. */
  lemma AllHoldIff(d: ClearHoldRequestDto, value: string)
    ensures SetProductCode(d, value).IsAllHold() <==> Normalize(value) == "ALL"
  {
    NormalizeIdempotent(value);
  }

  /** So any spelling of `all` with surrounding whitespace makes the request
      an all-products hold. */
  lemma AllHoldAfterAssignment(d: ClearHoldRequestDto, value: string)
    requires ToUpper(value) == " ALL "
    ensures SetProductCode(d, value).IsAllHold()
  {
    assert Normalize(value) == "ALL" by {
      TrimPaddedAll();
    }
    AllHoldIff(d, value);
  }

  /** `FromDonationRecord(record, clearCode)`. The record's placement time is
      read with `.Value`, which throws when it is absent: `None` is that error. */
  function FromDonationRecord(record: DonationRecord, holdDateTime: Option<Instant>, clearCode: string): (r: Option<ClearHoldRequestDto>)
    ensures r.Some? <==> holdDateTime.Some?
    ensures r.Some? ==>
      && r.value.unitNumber == Normalize(record.donationNumber)
      && r.value.productCode == Normalize(record.productCode)
      && r.value.holdCode == record.holdCode
      && r.value.clearCode == clearCode
      && r.value.dateTimePlaced == holdDateTime.value
      && !r.value.IsInStockIncident()
  {
    match holdDateTime
    case None => None
    case Some(placed) =>
      var blank := ClearHoldRequestDto("", "", "", "", "", DefaultInstant, None, false, Direct, false, false);
      var withUnit := SetUnitNumber(blank, record.donationNumber);
      var withProduct := SetProductCode(withUnit, record.productCode);
      Some(withProduct.(
        holdCode := record.holdCode,
        dateTimePlaced := placed,
        incidentNumber := Some(""),
        clearType := Direct,
        clearConstituents := true,
        calledFromDT := false,
        calledFromValidation := false,
        programId := "PULS11",
        clearCode := clearCode))
  }

  /** The fixed part of every mapped request: program `PULS11`, a direct clear
      of the constituents, not called from DT or validation, and an empty
      incident number. */
  lemma FromDonationRecordConstants(record: DonationRecord, placed: Instant, clearCode: string)
    ensures var r := FromDonationRecord(record, Some(placed), clearCode).value;
      && r.programId == "PULS11"
      && r.clearType == Direct
      && r.clearConstituents
      && !r.calledFromDT && !r.calledFromValidation
      && r.incidentNumber == Some("")
  {
  }

  /** For a record whose donation number and product code are already upper
      case and trimmed (as every parsed record's are trimmed), the request
      names exactly the record: its natural key can be rebuilt from it. */
  lemma RequestIdentifiesRecord(record: DonationRecord, placed: Instant, clearCode: string)
    requires IsUpper(record.donationNumber) && IsTrimmed(record.donationNumber)
    requires IsUpper(record.productCode) && IsTrimmed(record.productCode)
    ensures var r := FromDonationRecord(record, Some(placed), clearCode).value;
      DonationRecord(r.unitNumber, r.productCode, r.holdCode) == record
  {
    NormalizeFixesNormalized(record.donationNumber);
    NormalizeFixesNormalized(record.productCode);
  }
}

=== FILE: config.dfy ===
/** Application configuration and the command-line entry point: argument
    validation, binding of settings with their fallbacks, and the
    command-line overrides. */
module Config {
  import opened Wrappers
  import opened Text

  datatype ApiHeaders = ApiHeaders(xUserId: string, xAppName: string, xEnvironment: string)

  datatype ApiConfiguration = ApiConfiguration(
    baseUrl: string,
    clearHoldEndpoint: string,
    headers: ApiHeaders,
    timeoutSeconds: int)

  datatype AppConfiguration = AppConfiguration(
    threadCount: int,
    filePath: string,
    clearCode: string,
    successLogPath: string,
    errorLogPath: string,
    progressUpdateBatchSize: int,
    fileWriteBatchSize: int,
    api: ApiConfiguration)

  /** The property initialisers of `AppConfiguration`, `ApiConfiguration` and `ApiHeaders`. */
  const DefaultConfiguration := AppConfiguration(
    1, "", "", "Hold_Clear_Ok.json", "Hold_Clear_Errors.json", 20, 100,
    ApiConfiguration("", "", ApiHeaders("", "", ""), 30))

  /** The settings file as key/value lookups: string-valued keys and
      integer-valued keys. An absent key is one the file does not define. */
  datatype Settings = Settings(strings: map<string, string>, ints: map<string, int>)
  {
    /** `GetValue<string>(key) ?? fallback` */
    function Text(key: string, fallback: string): (v: string)
      ensures key in strings ==> v == strings[key]
      ensures key !in strings ==> v == fallback
    {
      if key in strings then strings[key] else fallback
    }

    /** `GetValue<int>(key, fallback)` */
    function Number(key: string, fallback: int): (v: int)
      ensures key in ints ==> v == ints[key]
      ensures key !in ints ==> v == fallback
    {
      if key in ints then ints[key] else fallback
    }
  }

  const NoSettings := Settings(map[], map[])

  /** The string-valued keys the binding reads, and the integer-valued ones. */
  const TextKeys: set<string> := {"SuccessLogPath", "ErrorLogPath", "Api:BaseUrl", "Api:ClearHoldEndpoint",
                                  "Api:Headers:XUserId", "Api:Headers:XAppName", "Api:Headers:XEnvironment"}
  const NumberKeys: set<string> := {"ProgressUpdateBatchSize", "FileWriteBatchSize", "Api:TimeoutSeconds"}

  /** The explicit binding of the settings onto a fresh configuration. Each
      setting the file defines is taken from it; each one it does not define
      keeps its initial value. The thread count, file path and clear code
      are not read from the file. */
  function Bind(s: Settings): (c: AppConfiguration)
    ensures c.threadCount == DefaultConfiguration.threadCount
    ensures c.filePath == DefaultConfiguration.filePath
    ensures c.clearCode == DefaultConfiguration.clearCode
    ensures c.successLogPath == if "SuccessLogPath" in s.strings then s.strings["SuccessLogPath"] else DefaultConfiguration.successLogPath
    ensures c.errorLogPath == if "ErrorLogPath" in s.strings then s.strings["ErrorLogPath"] else DefaultConfiguration.errorLogPath
    ensures c.progressUpdateBatchSize ==
      if "ProgressUpdateBatchSize" in s.ints then s.ints["ProgressUpdateBatchSize"] else DefaultConfiguration.progressUpdateBatchSize
    ensures c.fileWriteBatchSize ==
      if "FileWriteBatchSize" in s.ints then s.ints["FileWriteBatchSize"] else DefaultConfiguration.fileWriteBatchSize
    ensures c.api.baseUrl == if "Api:BaseUrl" in s.strings then s.strings["Api:BaseUrl"] else DefaultConfiguration.api.baseUrl
    ensures c.api.clearHoldEndpoint ==
      if "Api:ClearHoldEndpoint" in s.strings then s.strings["Api:ClearHoldEndpoint"] else DefaultConfiguration.api.clearHoldEndpoint
    ensures c.api.timeoutSeconds ==
      if "Api:TimeoutSeconds" in s.ints then s.ints["Api:TimeoutSeconds"] else DefaultConfiguration.api.timeoutSeconds
    ensures c.api.headers.xUserId ==
      if "Api:Headers:XUserId" in s.strings then s.strings["Api:Headers:XUserId"] else DefaultConfiguration.api.headers.xUserId
    ensures c.api.headers.xAppName ==
      if "Api:Headers:XAppName" in s.strings then s.strings["Api:Headers:XAppName"] else DefaultConfiguration.api.headers.xAppName
    ensures c.api.headers.xEnvironment ==
      if "Api:Headers:XEnvironment" in s.strings then s.strings["Api:Headers:XEnvironment"] else DefaultConfiguration.api.headers.xEnvironment
  {
    DefaultConfiguration.(
      successLogPath := s.Text("SuccessLogPath", "Hold_Clear_Ok.json"),
      errorLogPath := s.Text("ErrorLogPath", "Hold_Clear_Errors.json"),
      progressUpdateBatchSize := s.Number("ProgressUpdateBatchSize", 20),
      fileWriteBatchSize := s.Number("FileWriteBatchSize", 100),
      api := ApiConfiguration(
        s.Text("Api:BaseUrl", ""),
        s.Text("Api:ClearHoldEndpoint", ""),
        ApiHeaders(
          s.Text("Api:Headers:XUserId", ""),
          s.Text("Api:Headers:XAppName", ""),
          s.Text("Api:Headers:XEnvironment", "")),
        s.Number("Api:TimeoutSeconds", 30)))
  }

  /** Two settings files that agree on the bound keys bind to the same
      configuration: nothing else in the file is read. */
  lemma BindReadsOnlyItsKeys(s: Settings, t: Settings)
    requires forall k :: k in TextKeys ==> (k in s.strings <==> k in t.strings)
    requires forall k :: k in TextKeys && k in s.strings && k in t.strings ==> s.strings[k] == t.strings[k]
    requires forall k :: k in NumberKeys ==> (k in s.ints <==> k in t.ints)
    requires forall k :: k in NumberKeys && k in s.ints && k in t.ints ==> s.ints[k] == t.ints[k]
    ensures Bind(s) == Bind(t)
  {
    assert "SuccessLogPath" in TextKeys && "ErrorLogPath" in TextKeys && "Api:BaseUrl" in TextKeys;
    assert "Api:ClearHoldEndpoint" in TextKeys && "Api:Headers:XUserId" in TextKeys;
    assert "Api:Headers:XAppName" in TextKeys && "Api:Headers:XEnvironment" in TextKeys;
    assert "ProgressUpdateBatchSize" in NumberKeys && "FileWriteBatchSize" in NumberKeys;
    assert "Api:TimeoutSeconds" in NumberKeys;
  }

  /** The fallbacks of the binding agree with the class initialisers: binding
      an empty settings file leaves the defaults in place. */
  lemma BindNothingGivesDefaults()
    ensures Bind(NoSettings) == DefaultConfiguration
    ensures Bind(NoSettings).successLogPath == "Hold_Clear_Ok.json"
    ensures Bind(NoSettings).errorLogPath == "Hold_Clear_Errors.json"
    ensures Bind(NoSettings).progressUpdateBatchSize == 20
    ensures Bind(NoSettings).fileWriteBatchSize == 100
    ensures Bind(NoSettings).api.timeoutSeconds == 30
  {
  }

  /** Why the handler stops before doing any work. */
  datatype CliError = FileNotFound | BadThreadCount | BadClearCode

  predicate ValidThreadCount(threads: int) {
    1 <= threads <= 50
  }

  /** `!string.IsNullOrEmpty(clearCode)` and a `Length` of 2 or 3 UTF-16
      code units. */
  predicate ValidClearCode(clearCode: string) {
    |clearCode| > 0 && 2 <= Utf16Length(clearCode) <= 3
  }

  /** The three checks, in the order the handler makes them; the first that
      fails decides the error. */
  function Validate(threads: int, fileExists: bool, clearCode: string): (r: Option<CliError>)
    ensures r == None <==> fileExists && ValidThreadCount(threads) && ValidClearCode(clearCode)
    ensures r == Some(FileNotFound) <==> !fileExists
    ensures r == Some(BadThreadCount) <==> fileExists && (threads < 1 || threads > 50)
    ensures r == Some(BadClearCode) <==> fileExists && ValidThreadCount(threads) && (Utf16Length(clearCode) < 2 || Utf16Length(clearCode) > 3)
  {
    if !fileExists then Some(FileNotFound)
    else if threads < 1 || threads > 50 then Some(BadThreadCount)
    else if clearCode == "" || Utf16Length(clearCode) < 2 || Utf16Length(clearCode) > 3 then Some(BadClearCode)
    else None
  }

  /** The command-line overrides. The thread count is assigned through a
      conditional whose two branches both yield the command-line value. */
  function Override(c: AppConfiguration, threads: int, file: string, clearCode: string): (r: AppConfiguration)
    ensures r.threadCount == threads
    ensures r.filePath == file && r.clearCode == clearCode
    ensures r.(threadCount := c.threadCount, filePath := c.filePath, clearCode := c.clearCode) == c
  {
    c.(threadCount := if threads != c.threadCount then threads else c.threadCount,
       filePath := file,
       clearCode := clearCode)
  }

  datatype Startup = Rejected(error: CliError) | Configured(configuration: AppConfiguration)

  /** The handler up to the point where the application service is started:
      validation, then binding, then the overrides. */
  function Start(threads: int, file: string, fileExists: bool, clearCode: string, s: Settings): (r: Startup)
    ensures r.Rejected? <==> Validate(threads, fileExists, clearCode).Some?
  {
    match Validate(threads, fileExists, clearCode)
    case Some(e) => Rejected(e)
    case None => Configured(Override(Bind(s), threads, file, clearCode))
  }

  /** A configuration that reaches the application service carries a thread
      count in 1..50, the given file and a clear code of 2 or 3 characters,
      whatever the settings file says. */
  lemma StartedConfigurationIsValid(threads: int, file: string, fileExists: bool, clearCode: string, s: Settings)
    requires Start(threads, file, fileExists, clearCode, s).Configured?
    ensures var c := Start(threads, file, fileExists, clearCode, s).configuration;
      && ValidThreadCount(c.threadCount) && c.threadCount == threads
      && c.filePath == file
      && ValidClearCode(c.clearCode) && c.clearCode == clearCode
      && fileExists
  {
  }
}

=== FILE: csv_reader.dfy ===
/** `CsvReaderService`: the quote-aware comma splitter, the header heuristic,
    per-line parsing and the read loop. The file is a sequence of lines; the
    cancellation token becomes the number of lines after the first that are
    read before cancellation is observed. */
module CsvReader {
  import opened Wrappers
  import opened Text
  import opened Records

  // ---------------------------------------------------------------------------
  // SplitCsvLine
  // ---------------------------------------------------------------------------

  /** The splitter's state between characters: finished fields, the field being
      built, and whether a `"` has opened a quoted stretch. */
  datatype SplitState = SplitState(parts: seq<string>, current: string, inQuotes: bool)

  const Start: SplitState := SplitState([], "", false)

  /** One iteration of the splitter's loop: a quote toggles the quoted state
      and is dropped, an unquoted comma ends the field, anything else is kept. */
  function Step(st: SplitState, c: char): SplitState {
    if c == '"' then st.(inQuotes := !st.inQuotes)
    else if c == ',' && !st.inQuotes then SplitState(st.parts + [st.current], "", st.inQuotes)
    else st.(current := st.current + [c])
  }

  /** The state after feeding `s` to the splitter, character by character. */
  function RunFrom(st: SplitState, s: string): SplitState
    decreases |s|
  {
    if |s| == 0 then st else Step(RunFrom(st, s[..|s| - 1]), s[|s| - 1])
  }

  /** The fields of `line`: the finished ones and the last one. */
  function Split(line: string): seq<string> {
    var st := RunFrom(Start, line);
    st.parts + [st.current]
  }

  /** `SplitCsvLine`, as the source writes it: one pass with a quote flag. */
  method SplitCsvLine(line: string) returns (parts: seq<string>)
    ensures parts == Split(line)
    ensures |parts| == 1 + UnquotedCommas(line)
    ensures Join(parts, ',') == RemoveQuotes(line)
  {
    var acc: seq<string> := [];
    var current := "";
    var inQuotes := false;
    var i := 0;
    while i < |line|
      invariant 0 <= i <= |line|
      invariant RunFrom(Start, line[..i]) == SplitState(acc, current, inQuotes)
    {
      var c := line[i];
      assert line[..i + 1][..i] == line[..i];
      if c == '"' {
        inQuotes := !inQuotes;
      } else if c == ',' && !inQuotes {
        acc := acc + [current];
        current := "";
      } else {
        current := current + [c];
      }
      i := i + 1;
    }
    assert line[..i] == line;
    parts := acc + [current];
    SplitLaws(line);
  }

  /** Number of occurrences of `c` in `s`. */
  function CountOf(s: string, c: char): nat
    decreases |s|
  {
    if |s| == 0 then 0 else CountOf(s[..|s| - 1], c) + (if s[|s| - 1] == c then 1 else 0)
  }

  /** Commas preceded by an even number of quotes, i.e. not inside quotes. */
  function UnquotedCommas(s: string): nat
    decreases |s|
  {
    if |s| == 0 then 0
    else
      var init := s[..|s| - 1];
      UnquotedCommas(init) + (if s[|s| - 1] == ',' && CountOf(init, '"') % 2 == 0 then 1 else 0)
  }

  /** `s` with every `"` deleted. */
  function RemoveQuotes(s: string): string
    decreases |s|
  {
    if |s| == 0 then []
    else RemoveQuotes(s[..|s| - 1]) + (if s[|s| - 1] == '"' then [] else [s[|s| - 1]])
  }

  lemma {:induction false} JoinAppendChar(ps: seq<string>, x: string, c: char, sep: char)
    ensures Join(ps + [x + [c]], sep) == Join(ps + [x], sep) + [c]
  {
    if |ps| > 0 {
      assert (ps + [x + [c]])[..|ps|] == ps;
      assert (ps + [x])[..|ps|] == ps;
    }
  }

  lemma {:induction false} JoinAppendEmpty(ps: seq<string>, sep: char)
    requires |ps| > 0
    ensures Join(ps + [""], sep) == Join(ps, sep) + [sep]
  {
    assert (ps + [""])[..|ps|] == ps;
  }

  /** The quote flag is the parity of the quotes seen so far. */
  lemma {:induction false} RunQuoteParity(s: string)
    ensures RunFrom(Start, s).inQuotes <==> CountOf(s, '"') % 2 == 1
    decreases |s|
  {
    if |s| > 0 {
      RunQuoteParity(s[..|s| - 1]);
    }
  }

  /** One field is finished per comma outside quotes. */
  lemma {:induction false} RunPartsCount(s: string)
    ensures |RunFrom(Start, s).parts| == UnquotedCommas(s)
    decreases |s|
  {
    if |s| > 0 {
      RunPartsCount(s[..|s| - 1]);
      RunQuoteParity(s[..|s| - 1]);
    }
  }

  /** The fields joined back give the prefix without its quotes. */
  lemma {:induction false} RunJoinsToInput(s: string)
    ensures Join(RunFrom(Start, s).parts + [RunFrom(Start, s).current], ',') == RemoveQuotes(s)
    decreases |s|
  {
    if |s| > 0 {
      var init := s[..|s| - 1];
      var c := s[|s| - 1];
      RunJoinsToInput(init);
      var st := RunFrom(Start, init);
      if c == '"' {
      } else if c == ',' && !st.inQuotes {
        JoinAppendEmpty(st.parts + [st.current], ',');
        assert st.parts + [st.current] + [""] == (st.parts + [st.current]) + [""];
      } else {
        JoinAppendChar(st.parts, st.current, c, ',');
      }
    }
  }

  /** No field holds a quote. */
  lemma {:induction false} RunQuoteFree(s: string)
    ensures forall f :: f in RunFrom(Start, s).parts + [RunFrom(Start, s).current] ==> !Contains(f, '"')
    decreases |s|
  {
    if |s| > 0 {
      var init := s[..|s| - 1];
      var c := s[|s| - 1];
      RunQuoteFree(init);
      var st := RunFrom(Start, init);
      assert forall f :: f in st.parts ==> !Contains(f, '"') by {
        forall f | f in st.parts ensures !Contains(f, '"') {
          assert f in st.parts + [st.current];
        }
      }
      assert !Contains(st.current, '"') by {
        assert st.current in st.parts + [st.current];
      }
      if c != '"' && !(c == ',' && !st.inQuotes) {
        assert !Contains(st.current + [c], '"');
      }
    }
  }

  /** What the splitter knows after any prefix: the quote flag is the parity of
      the quotes seen, one field has been finished per unquoted comma, the
      fields joined back give the prefix without its quotes, and no field
      holds a quote. */
  lemma RunInvariant(s: string)
    ensures RunFrom(Start, s).inQuotes <==> CountOf(s, '"') % 2 == 1
    ensures |RunFrom(Start, s).parts| == UnquotedCommas(s)
    ensures Join(RunFrom(Start, s).parts + [RunFrom(Start, s).current], ',') == RemoveQuotes(s)
    ensures forall f :: f in RunFrom(Start, s).parts + [RunFrom(Start, s).current] ==> !Contains(f, '"')
  {
    RunQuoteParity(s);
    RunPartsCount(s);
    RunJoinsToInput(s);
    RunQuoteFree(s);
  }

  /** The splitter's laws: at least one field, one more field than unquoted
      commas, no field holding a quote, and joining the fields with commas
      gives back the line with its quotes removed. */
  lemma {:induction false} SplitLaws(line: string)
    ensures |Split(line)| >= 1
    ensures |Split(line)| == 1 + UnquotedCommas(line)
    ensures Join(Split(line), ',') == RemoveQuotes(line)
    ensures forall f :: f in Split(line) ==> !Contains(f, '"')
  {
    RunInvariant(line);
  }

  /** A field that joins cleanly: no comma and no quote in it. */
  predicate PlainField(f: string) {
    !Contains(f, ',') && !Contains(f, '"')
  }

  lemma {:induction false} RunConcat(st: SplitState, a: string, b: string)
    ensures RunFrom(st, a + b) == RunFrom(RunFrom(st, a), b)
    decreases |b|
  {
    if |b| == 0 {
      assert a + b == a;
    } else {
      assert (a + b)[..|a + b| - 1] == a + b[..|b| - 1];
      RunConcat(st, a, b[..|b| - 1]);
    }
  }

  lemma {:induction false} RunPlain(st: SplitState, s: string)
    requires PlainField(s)
    ensures RunFrom(st, s) == st.(current := st.current + s)
    decreases |s|
  {
    if |s| > 0 {
      var init := s[..|s| - 1];
      assert PlainField(init) by {
        assert forall m :: 0 <= m < |init| ==> init[m] == s[m];
      }
      RunPlain(st, init);
      assert s[|s| - 1] != '"' && s[|s| - 1] != ',';
      assert st.current + init + [s[|s| - 1]] == st.current + s;
    }
  }

  lemma {:induction false} RunJoin(fields: seq<string>)
    requires |fields| >= 1
    requires forall i :: 0 <= i < |fields| ==> PlainField(fields[i])
    ensures RunFrom(Start, Join(fields, ',')) == SplitState(fields[..|fields| - 1], fields[|fields| - 1], false)
    decreases |fields|
  {
    if |fields| == 1 {
      RunPlain(Start, fields[0]);
    } else {
      var init := fields[..|fields| - 1];
      var last := fields[|fields| - 1];
      RunJoin(init);
      RunConcat(Start, Join(init, ',') + [','], last);
      RunConcat(Start, Join(init, ','), [',']);
      assert RunFrom(Start, Join(init, ',') + [',']) == SplitState(init, "", false) by {
        assert init[..|init| - 1] + [init[|init| - 1]] == init;
      }
      RunPlain(SplitState(init, "", false), last);
    }
  }

  /** The other round trip: fields holding no comma and no quote, joined with
      commas, split back into exactly those fields. */
  lemma {:induction false} SplitJoin(fields: seq<string>)
    requires |fields| >= 1
    requires forall i :: 0 <= i < |fields| ==> PlainField(fields[i])
    ensures Split(Join(fields, ',')) == fields
  {
    RunJoin(fields);
    assert fields[..|fields| - 1] + [fields[|fields| - 1]] == fields;
  }

  /** A comma inside quotes stays in its field, and the quotes disappear:
      `"a,b",c` splits into `a,b` and `c`. */
  lemma {:induction false} QuotedCommaStaysInField(a: string, b: string, c: string)
    requires PlainField(a) && PlainField(b) && PlainField(c)
    ensures Split(['"'] + a + [','] + b + ['"'] + [','] + c) == [a + [','] + b, c]
  {
    var s1 := ['"'];
    var s2 := s1 + a;
    var s3 := s2 + [','];
    var s4 := s3 + b;
    var s5 := s4 + ['"'];
    var s6 := s5 + [','];
    var s7 := s6 + c;
    assert s1[..0] == [];
    assert RunFrom(Start, s1) == SplitState([], "", true);
    RunConcat(Start, s1, a);
    RunPlain(SplitState([], "", true), a);
    assert RunFrom(Start, s2) == SplitState([], a, true);
    RunConcat(Start, s2, [',']);
    assert [','][..0] == [];
    assert RunFrom(Start, s3) == SplitState([], a + [','], true);
    RunConcat(Start, s3, b);
    RunPlain(SplitState([], a + [','], true), b);
    assert RunFrom(Start, s4) == SplitState([], a + [','] + b, true);
    RunConcat(Start, s4, ['"']);
    assert ['"'][..0] == [];
    assert RunFrom(Start, s5) == SplitState([], a + [','] + b, false);
    RunConcat(Start, s5, [',']);
    assert RunFrom(Start, s6) == SplitState([a + [','] + b], "", false);
    RunConcat(Start, s6, c);
    RunPlain(SplitState([a + [','] + b], "", false), c);
    assert "" + c == c;
  }

  // ---------------------------------------------------------------------------
  // DetectHeader
  // ---------------------------------------------------------------------------

  /** `p.FirstOrDefault()`: the first character, or `'\0'` for an empty field. */
  function FirstOrDefault(p: string): char {
    if |p| == 0 then '\0' else p[0]
  }

  /** The per-field test: does not start with a digit and does not start with `G`. */
  predicate HeaderLikeField(p: string) {
    !IsDigit(FirstOrDefault(p)) && !(|p| > 0 && p[0] == 'G')
  }

  /** `DetectHeader`: exactly three fields, at least one of them header-like. */
  predicate DetectHeader(firstLine: string) {
    var parts := Split(firstLine);
    |parts| == 3 && (HeaderLikeField(parts[0]) || HeaderLikeField(parts[1]) || HeaderLikeField(parts[2]))
  }

  /** The heuristic stated over the fields: a header iff there are three fields
      and one of them is empty or starts with neither a digit nor `G`. */
  lemma {:induction false} DetectHeaderIff(line: string)
    ensures DetectHeader(line) <==>
      |Split(line)| == 3 &&
      exists p :: p in Split(line) && (|p| == 0 || (!IsDigit(p[0]) && p[0] != 'G'))
  {
    var parts := Split(line);
    if |parts| == 3 {
      if exists p :: p in parts && (|p| == 0 || (!IsDigit(p[0]) && p[0] != 'G')) {
        var p :| p in parts && (|p| == 0 || (!IsDigit(p[0]) && p[0] != 'G'));
        assert p == parts[0] || p == parts[1] || p == parts[2];
      }
      if DetectHeader(line) {
        if HeaderLikeField(parts[0]) { assert parts[0] in parts; }
        else if HeaderLikeField(parts[1]) { assert parts[1] in parts; }
        else { assert parts[2] in parts; }
      }
    }
  }

  /** The heuristic's quirk: an ordinary data line whose product (or hold)
      code starts with a letter other than `G` is classed as a header, however
      well-formed its donation number. */
  lemma {:induction false} DataLineLooksLikeHeader(dn: string, pc: string, hc: string)
    requires PlainField(dn) && PlainField(pc) && PlainField(hc)
    requires |pc| > 0 && !IsDigit(pc[0]) && pc[0] != 'G'
    ensures DetectHeader(Join([dn, pc, hc], ','))
  {
    SplitJoin([dn, pc, hc]);
  }

  // ---------------------------------------------------------------------------
  // ParseLine
  // ---------------------------------------------------------------------------

  /** `ParseLine`: three fields, trimmed, kept only when the record is valid. */
  function ParseLine(line: string): (r: Option<DonationRecord>)
    ensures |Split(line)| != 3 ==> r.None?
    ensures |Split(line)| == 3 ==>
      var rec := DonationRecord(Trim(Split(line)[0]), Trim(Split(line)[1]), Trim(Split(line)[2]));
      && (r.Some? <==> rec.IsValid())
      && (r.Some? ==> r.value == rec)
    ensures r.Some? ==> r.value.IsValid()
    ensures r.Some? ==> IsTrimmed(r.value.donationNumber) && IsTrimmed(r.value.productCode) && IsTrimmed(r.value.holdCode)
  {
    var parts := Split(line);
    if |parts| != 3 then None
    else
      var record := DonationRecord(Trim(parts[0]), Trim(parts[1]), Trim(parts[2]));
      if record.IsValid() then Some(record) else None
  }

  /** The CSV line the generator writes for a record. */
  function FormatLine(r: DonationRecord): string {
    Join([r.donationNumber, r.productCode, r.holdCode], ',')
  }

  /** A record without commas, quotes or surrounding whitespace in its fields
      survives being written as a line and parsed back; an invalid one is
      rejected. */
  lemma {:induction false} ParseFormatRoundTrip(r: DonationRecord)
    requires PlainField(r.donationNumber) && PlainField(r.productCode) && PlainField(r.holdCode)
    requires IsTrimmed(r.donationNumber) && IsTrimmed(r.productCode) && IsTrimmed(r.holdCode)
    ensures ParseLine(FormatLine(r)) == (if r.IsValid() then Some(r) else None)
  {
    var parts := Split(FormatLine(r));
    assert parts == [r.donationNumber, r.productCode, r.holdCode] by {
      SplitJoin([r.donationNumber, r.productCode, r.holdCode]);
    }
    assert DonationRecord(Trim(parts[0]), Trim(parts[1]), Trim(parts[2])) == r by {
      TrimmedIsFixed(r.donationNumber);
      TrimmedIsFixed(r.productCode);
      TrimmedIsFixed(r.holdCode);
    }
  }

  // ---------------------------------------------------------------------------
  // ReadRecordsAsync
  // ---------------------------------------------------------------------------

  /** What a read produces: the records in file order and the two counters the
      reader logs. */
  datatype ReadOutcome = ReadOutcome(records: seq<DonationRecord>, valid: nat, invalid: nat)

  const Empty: ReadOutcome := ReadOutcome([], 0, 0)

  /** Accounts for one parsed line. */
  function Tally(out: ReadOutcome, parsed: Option<DonationRecord>): ReadOutcome {
    match parsed
    case Some(r) => out.(records := out.records + [r], valid := out.valid + 1)
    case None => out.(invalid := out.invalid + 1)
  }

  /** The loop over the lines after the first: whitespace-only lines are
      skipped, every other line is tallied. */
  function ScanFrom(acc: ReadOutcome, lines: seq<string>): ReadOutcome
    decreases |lines|
  {
    if |lines| == 0 then acc
    else
      ReadLine(ScanFrom(acc, lines[..|lines| - 1]), lines[|lines| - 1])
  }

  /** One iteration of the read loop. */
  function ReadLine(before: ReadOutcome, line: string): ReadOutcome {
    if IsBlank(line) then before else Tally(before, ParseLine(line))
  }

  /** The loop runs over the lines it reaches before cancellation. */
  function LinesRead(body: seq<string>, cancelAfter: Option<nat>): (seen: seq<string>)
    ensures |seen| <= |body| && seen == body[..|seen|]
  {
    match cancelAfter
    case None => body
    case Some(k) => if k < |body| then body[..k] else body
  }

  /** `ReadRecordsAsync`. An empty file gives nothing. The first line is
      dropped when it looks like a header and is otherwise parsed as data
      (even when blank). `cancelAfter = Some(k)` means cancellation is seen
      after `k` further lines. */
  function ReadRecords(lines: seq<string>, cancelAfter: Option<nat>): (out: ReadOutcome)
    ensures |lines| == 0 ==> out == Empty
    ensures forall r :: r in out.records ==> r.IsValid()
    ensures out.valid == |out.records|
  {
    if |lines| == 0 then Empty
    else
      var head := FirstLine(lines[0]);
      ScanKeepsValid(head, LinesRead(lines[1..], cancelAfter));
      ScanFrom(head, LinesRead(lines[1..], cancelAfter))
  }

  /** What the first line contributes: nothing when it is taken for a header,
      otherwise its parse, counted valid or invalid. */
  function FirstLine(line: string): (out: ReadOutcome)
    ensures forall r :: r in out.records ==> r.IsValid()
    ensures out.valid == |out.records|
    ensures DetectHeader(line) ==> out == Empty
    ensures !DetectHeader(line) ==> out.valid + out.invalid == 1
    ensures !DetectHeader(line) ==> out.records == (if ParseLine(line).Some? then [ParseLine(line).value] else [])
  {
    if DetectHeader(line) then Empty else Tally(Empty, ParseLine(line))
  }

  /** The scan only ever adds valid records and keeps `valid` equal to the
      number of records. */
  lemma {:induction false} ScanKeepsValid(acc: ReadOutcome, lines: seq<string>)
    requires forall r :: r in acc.records ==> r.IsValid()
    requires acc.valid == |acc.records|
    ensures forall r :: r in ScanFrom(acc, lines).records ==> r.IsValid()
    ensures ScanFrom(acc, lines).valid == |ScanFrom(acc, lines).records|
    decreases |lines|
  {
    if |lines| > 0 {
      ScanKeepsValid(acc, lines[..|lines| - 1]);
      ReadLineKeepsValid(ScanFrom(acc, lines[..|lines| - 1]), lines[|lines| - 1]);
    }
  }

  /** One step of the scan adds only a valid record and counts it. */
  lemma ReadLineKeepsValid(acc: ReadOutcome, line: string)
    requires forall r :: r in acc.records ==> r.IsValid()
    requires acc.valid == |acc.records|
    ensures forall r :: r in ReadLine(acc, line).records ==> r.IsValid()
    ensures ReadLine(acc, line).valid == |ReadLine(acc, line).records|
  {
    ReadLineAddsValid(acc, line);
    ReadLineCountsValid(acc, line);
  }

  lemma ReadLineAddsValid(acc: ReadOutcome, line: string)
    requires forall r :: r in acc.records ==> r.IsValid()
    ensures forall r :: r in ReadLine(acc, line).records ==> r.IsValid()
  {
    assert ReadLine(acc, line).records == acc.records + LineRecords(line) by {
      ReadLineAccounting(acc, line);
    }
    LineRecordsValid(line);
    AllValidConcat(acc.records, LineRecords(line));
  }

  lemma LineRecordsValid(line: string)
    ensures forall r :: r in LineRecords(line) ==> r.IsValid()
  {
  }

  lemma AllValidConcat(a: seq<DonationRecord>, b: seq<DonationRecord>)
    requires forall r :: r in a ==> r.IsValid()
    requires forall r :: r in b ==> r.IsValid()
    ensures forall r :: r in a + b ==> r.IsValid()
  {
  }

  lemma ReadLineCountsValid(acc: ReadOutcome, line: string)
    requires acc.valid == |acc.records|
    ensures ReadLine(acc, line).valid == |ReadLine(acc, line).records|
  {
  }

  /** Scanning two stretches of lines one after the other is scanning them
      together. */
  lemma {:induction false} ScanConcat(acc: ReadOutcome, a: seq<string>, b: seq<string>)
    ensures ScanFrom(acc, a + b) == ScanFrom(ScanFrom(acc, a), b)
    decreases |b|
  {
    if |b| == 0 {
      assert a + b == a;
    } else {
      assert (a + b)[..|a + b| - 1] == a + b[..|b| - 1];
      ScanConcat(acc, a, b[..|b| - 1]);
    }
  }

  /** The records a stretch of lines yields: the parse of each non-blank line
      that parses, in file order. */
  function ParsedRecords(lines: seq<string>): seq<DonationRecord>
    decreases |lines|
  {
    if |lines| == 0 then []
    else ParsedRecords(lines[..|lines| - 1]) + LineRecords(lines[|lines| - 1])
  }

  /** The records one line contributes: none when blank or rejected. */
  function LineRecords(line: string): seq<DonationRecord> {
    if IsBlank(line) || ParseLine(line).None? then [] else [ParseLine(line).value]
  }

  /** Number of whitespace-only lines. */
  function BlankCount(lines: seq<string>): nat
    decreases |lines|
  {
    if |lines| == 0 then 0
    else BlankCount(lines[..|lines| - 1]) + (if IsBlank(lines[|lines| - 1]) then 1 else 0)
  }

  lemma ReadLineAccounting(acc: ReadOutcome, line: string)
    ensures ReadLine(acc, line).records == acc.records + LineRecords(line)
    ensures ReadLine(acc, line).valid + ReadLine(acc, line).invalid + (if IsBlank(line) then 1 else 0)
            == acc.valid + acc.invalid + 1
  {
  }

  lemma {:induction false} ScanRecords(acc: ReadOutcome, lines: seq<string>)
    ensures ScanFrom(acc, lines).records == acc.records + ParsedRecords(lines)
    decreases |lines|
  {
    if |lines| > 0 {
      var init := lines[..|lines| - 1];
      var last := lines[|lines| - 1];
      ScanRecords(acc, init);
      ReadLineAccounting(ScanFrom(acc, init), last);
      assert acc.records + ParsedRecords(init) + LineRecords(last)
          == acc.records + (ParsedRecords(init) + LineRecords(last));
    } else {
      assert acc.records + [] == acc.records;
    }
  }

  lemma {:induction false} ScanCounts(acc: ReadOutcome, lines: seq<string>)
    ensures ScanFrom(acc, lines).valid + ScanFrom(acc, lines).invalid + BlankCount(lines)
            == acc.valid + acc.invalid + |lines|
    decreases |lines|
  {
    if |lines| > 0 {
      var init := lines[..|lines| - 1];
      ScanCounts(acc, init);
      ReadLineAccounting(ScanFrom(acc, init), lines[|lines| - 1]);
    }
  }

  /** The scan appends exactly `ParsedRecords`, in file order, and every line
      it sees is either blank, a valid record or an invalid one. */
  lemma ScanAccounting(acc: ReadOutcome, lines: seq<string>)
    ensures ScanFrom(acc, lines).records == acc.records + ParsedRecords(lines)
    ensures ScanFrom(acc, lines).valid + ScanFrom(acc, lines).invalid + BlankCount(lines)
            == acc.valid + acc.invalid + |lines|
  {
    ScanRecords(acc, lines);
    ScanCounts(acc, lines);
  }

  /** A line the reader turns into exactly the record `r`. */
  predicate YieldsRecord(line: string, r: DonationRecord) {
    LineRecords(line) == [r]
  }

  /** The concatenation of `f` over `xs`, in order. */
  function Flatten<A, B>(f: A -> seq<B>, xs: seq<A>): seq<B>
    decreases |xs|
  {
    if |xs| == 0 then [] else Flatten(f, xs[..|xs| - 1]) + f(xs[|xs| - 1])
  }

  lemma {:induction false} FlattenOneEach<A, B>(f: A -> seq<B>, xs: seq<A>, ys: seq<B>)
    requires |xs| == |ys|
    requires forall k :: 0 <= k < |xs| ==> f(xs[k]) == [ys[k]]
    ensures Flatten(f, xs) == ys
    decreases |xs|
  {
    if |xs| > 0 {
      var n := |xs| - 1;
      FlattenOneEach(f, xs[..n], ys[..n]);
      LastSplit(ys);
    }
  }

  lemma {:induction false} ParsedIsFlatten(lines: seq<string>)
    ensures ParsedRecords(lines) == Flatten(LineRecords, lines)
    decreases |lines|
  {
    if |lines| > 0 {
      ParsedIsFlatten(lines[..|lines| - 1]);
    }
  }

  /** Lines that each parse to one record yield exactly those records. */
  lemma ParsedOneEach(lines: seq<string>, rs: seq<DonationRecord>)
    requires |lines| == |rs|
    requires forall k :: 0 <= k < |lines| ==> YieldsRecord(lines[k], rs[k])
    ensures ParsedRecords(lines) == rs
  {
    ParsedIsFlatten(lines);
    FlattenOneEach(LineRecords, lines, rs);
  }

  /** The read loop's contract, end to end: the records are the parses of the
      data lines in file order (the first line's only when it is not taken for
      a header), and every line read is a header, blank, valid or invalid. */
  lemma {:induction false} ReadAccounting(lines: seq<string>, cancelAfter: Option<nat>)
    requires |lines| > 0
    ensures ReadRecords(lines, cancelAfter).records
            == FirstLine(lines[0]).records + ParsedRecords(LinesRead(lines[1..], cancelAfter))
    ensures ReadRecords(lines, cancelAfter).valid + ReadRecords(lines, cancelAfter).invalid
            + BlankCount(LinesRead(lines[1..], cancelAfter)) + (if DetectHeader(lines[0]) then 1 else 0)
            == 1 + |LinesRead(lines[1..], cancelAfter)|
  {
    ScanAccounting(FirstLine(lines[0]), LinesRead(lines[1..], cancelAfter));
  }

  /** Lines that each yield a record are none of them blank. */
  lemma {:induction false} YieldingLinesNotBlank(lines: seq<string>, rs: seq<DonationRecord>)
    requires |lines| == |rs|
    requires forall k :: 0 <= k < |lines| ==> YieldsRecord(lines[k], rs[k])
    ensures BlankCount(lines) == 0
    decreases |lines|
  {
    if |lines| > 0 {
      var n := |lines| - 1;
      YieldingLineNotBlank(lines[n], rs[n]);
      forall k | 0 <= k < n ensures YieldsRecord(lines[..n][k], rs[..n][k]) {
        assert lines[..n][k] == lines[k] && rs[..n][k] == rs[k];
      }
      YieldingLinesNotBlank(lines[..n], rs[..n]);
    }
  }

  lemma YieldingLineNotBlank(line: string, r: DonationRecord)
    requires YieldsRecord(line, r)
    ensures !IsBlank(line)
  {
  }

  /** A file whose first line is taken for a header and whose other lines
      each yield one record reads as exactly those records, none invalid. */
  lemma ReadHeaderThenRecords(lines: seq<string>, rs: seq<DonationRecord>)
    requires |lines| == |rs| + 1
    requires DetectHeader(lines[0])
    requires forall k :: 0 <= k < |rs| ==> YieldsRecord(lines[k + 1], rs[k])
    ensures ReadRecords(lines, None) == ReadOutcome(rs, |rs|, 0)
  {
    var body := lines[1..];
    forall k | 0 <= k < |body| ensures YieldsRecord(body[k], rs[k]) {
      assert body[k] == lines[k + 1];
    }
    ParsedOneEach(body, rs);
    YieldingLinesNotBlank(body, rs);
    ReadAccounting(lines, None);
  }

  /** Cancellation only shortens the file: a cancelled read is the complete
      read of a prefix of the lines. */
  lemma {:induction false} CancelledReadIsPrefixRead(lines: seq<string>, k: nat)
    ensures var n := if k + 1 < |lines| then k + 1 else |lines|;
            ReadRecords(lines, Some(k)) == ReadRecords(lines[..n], None)
  {
    var n := if k + 1 < |lines| then k + 1 else |lines|;
    if |lines| > 0 {
      assert lines[..n][0] == lines[0];
      assert lines[..n][1..] == LinesRead(lines[1..], Some(k));
    }
  }

  /** The first line is never skipped for being blank: a file holding one
      whitespace-only line reads as one invalid record. */
  lemma {:induction false} BlankFirstLineIsInvalid(b: string)
    requires IsBlank(b)
    ensures ReadRecords([b], None) == ReadOutcome([], 0, 1)
  {
    assert PlainField(b) by {
      assert forall m :: 0 <= m < |b| ==> IsWhiteSpace(b[m]);
    }
    RunPlain(Start, b);
    assert "" + b == b;
    assert FirstLine(b) == ReadOutcome([], 0, 1);
    assert LinesRead([b][1..], None) == [];
  }

  /** Whitespace-only lines after the first are ignored without being
      counted: a header followed by a blank line reads as nothing at all. */
  lemma {:induction false} BlankLineAfterHeaderIsSkipped(h: string, b: string)
    requires DetectHeader(h) && IsBlank(b)
    ensures ReadRecords([h, b], None) == Empty
  {
    assert FirstLine(h) == Empty;
    assert LinesRead([h, b][1..], None) == [b];
    assert ScanFrom(Empty, [b]) == ReadLine(ScanFrom(Empty, [b][..0]), b);
    assert [b][..0] == [];
  }
}

=== FILE: ledger.dfy ===
/** The success ledger that both versions of `ProcessingPersistenceService`
    share line for line: the in-memory key set, the FIFO queue of successes
    waiting to be written, and the JSON array file of processed records. The
    files are abstract stores of entries; the JSON text is not modelled. */
module Ledger {
  import opened Wrappers
  import opened Records

  /** `ProcessedRecord`: one element of the success file. */
  datatype SuccessEntry = SuccessEntry(
    key: string, donationNumber: string, productCode: string, holdCode: string, processedAt: Instant)

  /** `FailedRecord`: one element (or line) of the failure file. */
  datatype FailureEntry = FailureEntry(
    key: string, donationNumber: string, productCode: string, holdCode: string,
    errorMessage: string, failedAt: Instant)

  const UnknownError := "Unknown error"

  /** The entry written for a success at time `now`: it names the record by
      its key and by its three fields. */
  function SuccessEntryOf(r: DonationRecord, now: Instant): (e: SuccessEntry)
    ensures e.key == r.Key()
    ensures DonationRecord(e.donationNumber, e.productCode, e.holdCode) == r
    ensures e.processedAt == now
  {
    SuccessEntry(r.Key(), r.donationNumber, r.productCode, r.holdCode, now)
  }

  /** The entry written for a failure: a missing message becomes
      `Unknown error` and the time is the result's own. */
  function FailureEntryOf(res: ProcessingResult): (e: FailureEntry)
    ensures e.key == res.record.Key()
    ensures DonationRecord(e.donationNumber, e.productCode, e.holdCode) == res.record
    ensures res.errorMessage.Some? ==> e.errorMessage == res.errorMessage.value
    ensures res.errorMessage.None? ==> e.errorMessage == UnknownError
    ensures e.failedAt == res.processedAt
  {
    FailureEntry(res.record.Key(), res.record.donationNumber, res.record.productCode, res.record.holdCode,
      res.errorMessage.GetOr(UnknownError), res.processedAt)
  }

  function SuccessEntries(rs: seq<DonationRecord>, now: Instant): (es: seq<SuccessEntry>)
    ensures |es| == |rs|
    ensures forall i :: 0 <= i < |rs| ==> es[i] == SuccessEntryOf(rs[i], now)
  {
    seq(|rs|, i requires 0 <= i < |rs| => SuccessEntryOf(rs[i], now))
  }

  function FailureEntries(rs: seq<ProcessingResult>): (es: seq<FailureEntry>)
    ensures |es| == |rs|
    ensures forall i :: 0 <= i < |rs| ==> es[i] == FailureEntryOf(rs[i])
  {
    seq(|rs|, i requires 0 <= i < |rs| => FailureEntryOf(rs[i]))
  }

  /** A JSON array file as the service sees it: absent, present but only
      whitespace, present but not readable as a list (a deserialisation or
      read error), or a list of entries. A file holding the literal `null`
      reads as the empty list. */
  datatype Store<T> = Missing | Blank | Corrupt | Entries(entries: seq<T>)

  /** The list a flush starts from: a missing or blank file is an empty list. */
  function Existing<T>(s: Store<T>): seq<T>
    requires !s.Corrupt?
  {
    if s.Entries? then s.entries else []
  }

  /** Read the file, append `batch`, write the whole list back. An unreadable
      file makes the flush throw before anything is written. */
  function Append<T>(s: Store<T>, batch: seq<T>): (r: Option<Store<T>>)
    ensures r.None? <==> s.Corrupt?
    ensures r.Some? ==> r.value.Entries? && |r.value.entries| == |Existing(s)| + |batch|
    ensures r.Some? ==> r.value.entries[..|Existing(s)|] == Existing(s) && r.value.entries[|Existing(s)|..] == batch
  {
    if s.Corrupt? then None else Some(Entries(Existing(s) + batch))
  }

  /** Writing two batches one after the other leaves the same file as
      writing them together. */
  lemma AppendInBatches<T>(s: Store<T>, a: seq<T>, b: seq<T>)
    requires !s.Corrupt?
    ensures Append(Append(s, a).value, b) == Append(s, a + b)
  {
    assert Existing(s) + a + b == Existing(s) + (a + b);
  }

  function EntryKeys(es: seq<SuccessEntry>): set<string> {
    set i | 0 <= i < |es| :: es[i].key
  }

  /** The keys `LoadProcessedRecordsAsync` would find in the file. */
  function StoreKeys(s: Store<SuccessEntry>): set<string> {
    if s.Entries? then EntryKeys(s.entries) else {}
  }

  function RecordKeys(rs: seq<DonationRecord>): set<string> {
    set i | 0 <= i < |rs| :: rs[i].Key()
  }

  lemma EntryKeysAppend(a: seq<SuccessEntry>, b: seq<SuccessEntry>)
    ensures EntryKeys(a + b) == EntryKeys(a) + EntryKeys(b)
  {
    var ab := a + b;
    forall k | k in EntryKeys(ab)
      ensures k in EntryKeys(a) + EntryKeys(b)
    {
      var i :| 0 <= i < |ab| && ab[i].key == k;
      if i < |a| {
        assert a[i] == ab[i];
      } else {
        assert b[i - |a|] == ab[i];
      }
    }
    forall k | k in EntryKeys(a) + EntryKeys(b)
      ensures k in EntryKeys(ab)
    {
      if k in EntryKeys(a) {
        var i :| 0 <= i < |a| && a[i].key == k;
        assert ab[i] == a[i];
      } else {
        var i :| 0 <= i < |b| && b[i].key == k;
        assert ab[|a| + i] == b[i];
      }
    }
  }

  lemma SuccessEntriesKeys(rs: seq<DonationRecord>, now: Instant)
    ensures EntryKeys(SuccessEntries(rs, now)) == RecordKeys(rs)
  {
    var es := SuccessEntries(rs, now);
    forall k | k in EntryKeys(es) ensures k in RecordKeys(rs) {
      var i :| 0 <= i < |es| && es[i].key == k;
      assert rs[i].Key() == k;
    }
    forall k | k in RecordKeys(rs) ensures k in EntryKeys(es) {
      var i :| 0 <= i < |rs| && rs[i].Key() == k;
      assert es[i].key == k;
    }
  }

  lemma RecordKeysAppend(a: seq<DonationRecord>, b: seq<DonationRecord>)
    ensures RecordKeys(a + b) == RecordKeys(a) + RecordKeys(b)
  {
    var ab := a + b;
    forall k | k in RecordKeys(ab)
      ensures k in RecordKeys(a) + RecordKeys(b)
    {
      var i :| 0 <= i < |ab| && ab[i].Key() == k;
      if i < |a| {
        assert a[i] == ab[i];
      } else {
        assert b[i - |a|] == ab[i];
      }
    }
    forall k | k in RecordKeys(a) + RecordKeys(b)
      ensures k in RecordKeys(ab)
    {
      if k in RecordKeys(a) {
        var i :| 0 <= i < |a| && a[i].Key() == k;
        assert ab[i] == a[i];
      } else {
        var i :| 0 <= i < |b| && b[i].Key() == k;
        assert ab[|a| + i] == b[i];
      }
    }
  }

  /** The success side of the service: the key set, the pending queue (front
      first), the success file and the configured `FileWriteBatchSize`. */
  datatype SuccessLedger = SuccessLedger(
    processed: set<string>,
    pending: seq<DonationRecord>,
    store: Store<SuccessEntry>,
    batchSize: int)
  {
    /** `IsProcessed`: the record's key is in the key set. */
    predicate IsProcessed(r: DonationRecord) {
      r.Key() in processed
    }

    /** Every key in the file and every pending key is known as processed. */
    predicate Consistent() {
      StoreKeys(store) <= processed && RecordKeys(pending) <= processed
    }

    /** The key set is exactly what the file and the queue account for: what
      a restart would find once the queue has been written. */
    predicate Exact() {
      processed == StoreKeys(store) + RecordKeys(pending)
    }
  }

  /** The service as constructed: an empty key set and an empty queue. */
  function Fresh(store: Store<SuccessEntry>, batchSize: int): (l: SuccessLedger)
    ensures l.processed == {} && l.pending == []
  {
    SuccessLedger({}, [], store, batchSize)
  }

  /** `LoadProcessedRecordsAsync`: the keys of a readable, non-blank file
      join the key set; a missing, blank or unreadable file adds nothing and
      nothing is thrown. The key set is returned as `r.processed`. */
  function Load(l: SuccessLedger): (r: SuccessLedger)
    ensures l.processed <= r.processed
    ensures r.(processed := l.processed) == l
    ensures !l.store.Entries? ==> r == l
    ensures r.Consistent() <== RecordKeys(l.pending) <= l.processed
    ensures l.store.Entries? ==> forall i :: 0 <= i < |l.store.entries| ==> l.store.entries[i].key in r.processed
  {
    l.(processed := l.processed + StoreKeys(l.store))
  }

  /** Loading into a fresh service makes the key set exactly the file's keys. */
  lemma LoadFreshIsExact(store: Store<SuccessEntry>, batchSize: int)
    ensures Load(Fresh(store, batchSize)).Exact()
    ensures Load(Fresh(store, batchSize)).processed == StoreKeys(store)
  {
    assert RecordKeys([]) == {};
  }

  /** What a flush came to: the new state and whether it threw. */
  datatype Flushed = Flushed(ledger: SuccessLedger, thrown: bool)

  /** `FlushSuccessfulRecordsAsync`: an empty queue is left alone. Otherwise
      the whole queue is taken; the file becomes its old list followed by the
      taken records in queue order, all stamped `now`. If the file cannot be
      read the exception escapes after the queue was emptied, so that batch
      is written nowhere. */
  function FlushSuccessful(l: SuccessLedger, now: Instant): (r: Flushed)
    ensures r.ledger.processed == l.processed && r.ledger.batchSize == l.batchSize
    ensures r.ledger.pending == []
    ensures l.pending == [] ==> r == Flushed(l, false)
    ensures r.thrown <==> l.pending != [] && l.store.Corrupt?
    ensures r.thrown ==> r.ledger.store == l.store
    ensures !r.thrown && l.pending != [] ==>
      r.ledger.store == Entries(Existing(l.store) + SuccessEntries(l.pending, now))
  {
    if l.pending == [] then Flushed(l, false)
    else
      match Append(l.store, SuccessEntries(l.pending, now))
      case None => Flushed(l.(pending := []), true)
      case Some(s) => Flushed(l.(pending := [], store := s), false)
  }

  /** A flush that does not throw keeps the key set exact, and afterwards the
      file alone accounts for every processed key. */
  lemma FlushKeepsExact(l: SuccessLedger, now: Instant)
    requires l.Exact()
    ensures var r := FlushSuccessful(l, now);
      !r.thrown ==> r.ledger.Exact() && r.ledger.processed == StoreKeys(r.ledger.store)
  {
    var r := FlushSuccessful(l, now);
    if !r.thrown && l.pending != [] {
      EntryKeysAppend(Existing(l.store), SuccessEntries(l.pending, now));
      SuccessEntriesKeys(l.pending, now);
      assert StoreKeys(l.store) == EntryKeys(Existing(l.store));
    }
    assert RecordKeys([]) == {};
  }

  /** Every flush keeps the weaker invariant, including one that throws. */
  lemma FlushKeepsConsistent(l: SuccessLedger, now: Instant)
    requires l.Consistent()
    ensures FlushSuccessful(l, now).ledger.Consistent()
  {
    var r := FlushSuccessful(l, now);
    if !r.thrown && l.pending != [] {
      EntryKeysAppend(Existing(l.store), SuccessEntries(l.pending, now));
      SuccessEntriesKeys(l.pending, now);
      assert StoreKeys(l.store) == EntryKeys(Existing(l.store));
    }
    assert RecordKeys([]) == {};
  }

  /** `SaveSuccessfulRecordsAsync`: each record is queued and its key added to
      the set before anything is written; the queue is flushed only once it
      holds at least `FileWriteBatchSize` records. */
  function SaveSuccessful(l: SuccessLedger, records: seq<DonationRecord>, now: Instant): (r: Flushed)
    ensures forall i :: 0 <= i < |records| ==> r.ledger.IsProcessed(records[i])
    ensures r.ledger.processed == l.processed + RecordKeys(records)
    ensures r.ledger.batchSize == l.batchSize
    ensures |l.pending| + |records| < l.batchSize ==>
      !r.thrown && r.ledger.store == l.store && r.ledger.pending == l.pending + records
    ensures |l.pending| + |records| >= l.batchSize ==> r.ledger.pending == []
    ensures |l.pending| + |records| >= l.batchSize && |l.pending| + |records| > 0 ==>
      (r.thrown <==> l.store.Corrupt?)
    ensures |l.pending| + |records| >= l.batchSize && |l.pending| + |records| > 0 && !l.store.Corrupt? ==>
      r.ledger.store == Entries(Existing(l.store) + SuccessEntries(l.pending + records, now))
  {
    var queued := l.(pending := l.pending + records, processed := l.processed + RecordKeys(records));
    if |queued.pending| >= l.batchSize then FlushSuccessful(queued, now) else Flushed(queued, false)
  }

  /** Saving keeps both invariants (the exact one unless a flush threw). */
  lemma SaveKeepsInvariants(l: SuccessLedger, records: seq<DonationRecord>, now: Instant)
    ensures l.Consistent() ==> SaveSuccessful(l, records, now).ledger.Consistent()
    ensures l.Exact() && !SaveSuccessful(l, records, now).thrown ==> SaveSuccessful(l, records, now).ledger.Exact()
  {
    var queued := l.(pending := l.pending + records, processed := l.processed + RecordKeys(records));
    RecordKeysAppend(l.pending, records);
    if l.Consistent() {
      assert queued.Consistent();
      if |queued.pending| >= l.batchSize {
        FlushKeepsConsistent(queued, now);
      }
    }
    if l.Exact() {
      assert queued.Exact();
      if |queued.pending| >= l.batchSize {
        FlushKeepsExact(queued, now);
      }
    }
  }

  /** Resume: once the queue is empty, a new run that loads the file knows
      exactly the keys this run knew. */
  lemma RestartSeesProcessed(l: SuccessLedger)
    requires l.Exact() && l.pending == []
    ensures Load(Fresh(l.store, l.batchSize)).processed == l.processed
  {
    LoadFreshIsExact(l.store, l.batchSize);
    assert RecordKeys([]) == {};
  }
}

=== FILE: legacy_persistence.dfy ===
/** The earlier `ProcessingPersistenceService`: the same success ledger, but
    failures are queued like successes and written in batches to a JSON
    array file of their own. */
module LegacyPersistence {
  import opened Wrappers
  import opened Records
  import opened Ledger

  datatype Service = Service(
    successes: SuccessLedger,
    pendingFailures: seq<ProcessingResult>,
    failureStore: Store<FailureEntry>)
  {
    /** `FileWriteBatchSize`, shared by both queues. */
    function BatchSize(): int {
      successes.batchSize
    }
  }

  datatype Outcome = Outcome(service: Service, thrown: bool)

  /** The state right after construction. */
  function Fresh(successStore: Store<SuccessEntry>, failureStore: Store<FailureEntry>, batchSize: int): (s: Service)
    ensures s.successes.processed == {} && s.successes.pending == [] && s.pendingFailures == []
  {
    Service(Ledger.Fresh(successStore, batchSize), [], failureStore)
  }

  function LoadProcessed(s: Service): (r: Service)
    ensures r.successes == Load(s.successes)
    ensures r.pendingFailures == s.pendingFailures && r.failureStore == s.failureStore
  {
    s.(successes := Load(s.successes))
  }

  predicate IsProcessed(s: Service, record: DonationRecord) {
    s.successes.IsProcessed(record)
  }

  function SaveSuccessful(s: Service, records: seq<DonationRecord>, now: Instant): (r: Outcome)
    ensures forall i :: 0 <= i < |records| ==> IsProcessed(r.service, records[i])
    ensures r.service.pendingFailures == s.pendingFailures && r.service.failureStore == s.failureStore
    ensures |s.successes.pending| + |records| < s.BatchSize() ==>
      !r.thrown && r.service.successes.store == s.successes.store
      && r.service.successes.pending == s.successes.pending + records
  {
    var f := Ledger.SaveSuccessful(s.successes, records, now);
    Outcome(s.(successes := f.ledger), f.thrown)
  }

  /** `FlushFailedRecordsAsync`: like the success flush, on the failure queue
      and file; a missing message becomes `Unknown error`. An unreadable file
      throws after the queue was emptied. */
  function FlushFailed(s: Service): (r: Outcome)
    ensures r.service.successes == s.successes
    ensures r.service.pendingFailures == []
    ensures s.pendingFailures == [] ==> r == Outcome(s, false)
    ensures r.thrown <==> s.pendingFailures != [] && s.failureStore.Corrupt?
    ensures r.thrown ==> r.service.failureStore == s.failureStore
    ensures !r.thrown && s.pendingFailures != [] ==>
      r.service.failureStore == Entries(Existing(s.failureStore) + FailureEntries(s.pendingFailures))
  {
    if s.pendingFailures == [] then Outcome(s, false)
    else
      match Append(s.failureStore, FailureEntries(s.pendingFailures))
      case None => Outcome(s.(pendingFailures := []), true)
      case Some(store) => Outcome(s.(pendingFailures := [], failureStore := store), false)
  }

  /** `SaveFailedRecordsAsync`: queue the results; write them once the queue
      holds at least `FileWriteBatchSize`. The key set is never touched. */
  function SaveFailed(s: Service, results: seq<ProcessingResult>): (r: Outcome)
    ensures r.service.successes == s.successes
    ensures |s.pendingFailures| + |results| < s.BatchSize() ==>
      !r.thrown && r.service.failureStore == s.failureStore
      && r.service.pendingFailures == s.pendingFailures + results
    ensures |s.pendingFailures| + |results| >= s.BatchSize() ==> r.service.pendingFailures == []
    ensures var q := s.pendingFailures + results;
      |q| >= s.BatchSize() && q != [] ==>
        && (r.thrown <==> s.failureStore.Corrupt?)
        && (r.thrown ==> r.service.failureStore == s.failureStore)
        && (!r.thrown ==> r.service.failureStore == Entries(Existing(s.failureStore) + FailureEntries(q)))
  {
    var queued := s.(pendingFailures := s.pendingFailures + results);
    if |queued.pendingFailures| >= s.BatchSize() then FlushFailed(queued) else Outcome(queued, false)
  }

  /** Whether or not the queue reached the batch size, saving failures and
      then flushing them leaves a readable failure file reading as its old
      list followed by everything queued, in order. */
  lemma SaveFailedThenFlush(s: Service, results: seq<ProcessingResult>)
    requires !s.failureStore.Corrupt?
    ensures var saved := SaveFailed(s, results);
      var flushed := FlushFailed(saved.service);
      && !saved.thrown && !flushed.thrown
      && flushed.service.pendingFailures == []
      && Existing(flushed.service.failureStore) == Existing(s.failureStore) + FailureEntries(s.pendingFailures + results)
  {
    var q := s.pendingFailures + results;
    if q == [] {
      assert Existing(s.failureStore) + FailureEntries(q) == Existing(s.failureStore);
    }
  }

  /** `FlushAllAsync`: successes first, then failures. If the success flush
      throws, the failure flush is not reached. */
  function FlushAll(s: Service, now: Instant): (r: Outcome)
    ensures r.service.successes.pending == []
    ensures r.service.successes.processed == s.successes.processed
    ensures r.thrown <==> (s.successes.pending != [] && s.successes.store.Corrupt?)
                          || (s.pendingFailures != [] && s.failureStore.Corrupt?)
    ensures s.successes.pending != [] && s.successes.store.Corrupt? ==>
      r.service.pendingFailures == s.pendingFailures && r.service.failureStore == s.failureStore
    ensures !(s.successes.pending != [] && s.successes.store.Corrupt?) ==> r.service.pendingFailures == []
    ensures !r.thrown && s.successes.pending != [] ==>
      r.service.successes.store == Entries(Existing(s.successes.store) + SuccessEntries(s.successes.pending, now))
    ensures !r.thrown && s.pendingFailures != [] ==>
      r.service.failureStore == Entries(Existing(s.failureStore) + FailureEntries(s.pendingFailures))
    ensures s.successes.pending == [] && s.pendingFailures == [] ==> r == Outcome(s, false)
  {
    var f := FlushSuccessful(s.successes, now);
    if f.thrown then Outcome(s.(successes := f.ledger), true)
    else FlushFailed(s.(successes := f.ledger))
  }

  /** With readable files, flushing everything leaves both queues empty and
      each file reading as its old list followed by everything that was
      queued, in queue order. */
  lemma FlushAllIsDurable(s: Service, now: Instant)
    requires !s.successes.store.Corrupt? && !s.failureStore.Corrupt?
    ensures var r := FlushAll(s, now);
      && !r.thrown
      && r.service.successes.pending == [] && r.service.pendingFailures == []
      && !r.service.successes.store.Corrupt? && !r.service.failureStore.Corrupt?
      && Existing(r.service.successes.store) == Existing(s.successes.store) + SuccessEntries(s.successes.pending, now)
      && Existing(r.service.failureStore) == Existing(s.failureStore) + FailureEntries(s.pendingFailures)
  {
    assert Existing(s.successes.store) + SuccessEntries([], now) == Existing(s.successes.store);
    assert Existing(s.failureStore) + FailureEntries([]) == Existing(s.failureStore);
  }
}

=== FILE: persistence.dfy ===
/** The current `ProcessingPersistenceService`: the shared success ledger
    plus a failure file to which every failure is appended at once, one JSON
    line per failure. */
module Persistence {
  import opened Records
  import opened Ledger

  /** The failure file is the sequence of lines appended to it, oldest first. */
  datatype Service = Service(successes: SuccessLedger, failureLog: seq<FailureEntry>)

  /** What a call came to: the new state and whether an exception escaped. */
  datatype Outcome = Outcome(service: Service, thrown: bool)

  function LoadProcessed(s: Service): (r: Service)
    ensures r.successes == Load(s.successes)
    ensures r.failureLog == s.failureLog
  {
    s.(successes := Load(s.successes))
  }

  predicate IsProcessed(s: Service, record: DonationRecord) {
    s.successes.IsProcessed(record)
  }

  function SaveSuccessful(s: Service, records: seq<DonationRecord>, now: Instant): (r: Outcome)
    ensures forall i :: 0 <= i < |records| ==> IsProcessed(r.service, records[i])
    ensures r.service.failureLog == s.failureLog
    ensures |s.successes.pending| + |records| < s.successes.batchSize ==>
      !r.thrown && r.service.successes.store == s.successes.store
  {
    var f := Ledger.SaveSuccessful(s.successes, records, now);
    Outcome(s.(successes := f.ledger), f.thrown)
  }

  /** `WriteFailedRecordImmediately`: one line appended; nothing else changes. */
  function WriteFailedImmediately(s: Service, result: ProcessingResult): (r: Service)
    ensures |r.failureLog| == |s.failureLog| + 1
    ensures r.failureLog[..|s.failureLog|] == s.failureLog
    ensures r.failureLog[|s.failureLog|].key == result.record.Key()
    ensures r.successes == s.successes
  {
    s.(failureLog := s.failureLog + [FailureEntryOf(result)])
  }

  /** `SaveFailedRecordsAsync`: the results are written one by one, in order. */
  function SaveFailed(s: Service, results: seq<ProcessingResult>): (r: Service)
    ensures r.failureLog == s.failureLog + FailureEntries(results)
    ensures r.successes == s.successes
    decreases |results|
  {
    if |results| == 0 then
      assert s.failureLog + FailureEntries(results) == s.failureLog;
      s
    else
      var n := |results| - 1;
      var before := SaveFailed(s, results[..n]);
      assert FailureEntries(results) == FailureEntries(results[..n]) + [FailureEntryOf(results[n])];
      WriteFailedImmediately(before, results[n])
  }

  /** Failures never mark a record as processed, whatever their number. */
  lemma FailuresAreRetried(s: Service, results: seq<ProcessingResult>, record: DonationRecord)
    ensures IsProcessed(SaveFailed(s, results), record) <==> IsProcessed(s, record)
  {
  }

  /** `FlushAllAsync`: only the pending successes are written. The failure
      file is never touched, since failures were written already (the
      failure flush of this version does nothing). */
  function FlushAll(s: Service, now: Instant): (r: Outcome)
    ensures r.service.failureLog == s.failureLog
    ensures r.service.successes.pending == []
    ensures r.service.successes.processed == s.successes.processed
    ensures r.thrown <==> s.successes.pending != [] && s.successes.store.Corrupt?
    ensures r.thrown ==> r.service.successes.store == s.successes.store
    ensures !r.thrown && s.successes.pending != [] ==>
      r.service.successes.store == Entries(Existing(s.successes.store) + SuccessEntries(s.successes.pending, now))
    ensures s.successes.pending == [] ==> r == Outcome(s, false)
  {
    var f := FlushSuccessful(s.successes, now);
    Outcome(s.(successes := f.ledger), f.thrown)
  }

  /** Saving successes below the batch size and then flushing everything
      writes the same file as saving them in one full batch. */
  lemma FlushAllCompletesSave(s: Service, records: seq<DonationRecord>, now: Instant)
    requires s.successes.pending == [] && !s.successes.store.Corrupt?
    requires 0 < |records| < s.successes.batchSize
    ensures var saved := SaveSuccessful(s, records, now);
      var flushed := FlushAll(saved.service, now);
      && !flushed.thrown
      && flushed.service.successes.store == Entries(Existing(s.successes.store) + SuccessEntries(records, now))
  {
    var saved := SaveSuccessful(s, records, now);
    assert saved.service.successes.pending == [] + records;
    assert [] + records == records;
  }
}

=== FILE: progress.dfy ===
/** `ProgressTrackingService`: the counters kept under the lock, the rule that
    decides when an update is published, the 500 ms console throttle, the
    summary headline and the duration format. Rates, percentages, the ETA
    and the progress bar are floating point and not modelled. */
module Progress {
  import opened Wrappers
  import opened Text
  import opened Records

  /** Console updates closer together than this are skipped (milliseconds). */
  const ThrottleMs := 500

  datatype Tracker = Tracker(
    total: int,
    processed: int,
    success: int,
    failed: int,
    skipped: int,
    lastReported: int,
    startTime: Instant,
    lastUpdateTime: Instant,
    batchSize: int)
  {
    /** Every processed record has been counted under exactly one status. */
    predicate Balanced() {
      processed == success + failed + skipped
    }
  }

  /** `ProgressEventArgs` without the percentage. */
  datatype ProgressEvent = ProgressEvent(processed: int, total: int, success: int, failed: int, skipped: int)

  /** A tracker step: the new state, whether the progress line was written
      and the event raised, if any. */
  datatype Step = Step(tracker: Tracker, rendered: bool, event: Option<ProgressEvent>)

  /** `DisplayProgress(force)`: the line is written when forced or when at
      least 500 ms have passed since the last written line, and only then is
      the time of the last update moved. */
  function DisplayProgress(t: Tracker, now: Instant, force: bool): (r: (Tracker, bool))
    ensures r.1 <==> force || now - t.lastUpdateTime >= ThrottleMs
    ensures r.1 ==> r.0 == t.(lastUpdateTime := now)
    ensures !r.1 ==> r.0 == t
  {
    if !force && now - t.lastUpdateTime < ThrottleMs then (t, false)
    else (t.(lastUpdateTime := now), true)
  }

  /** `Initialize(totalRecords)`: every counter is zero, both times are the
      current time and the line is written unconditionally. */
  function Initialize(t: Tracker, totalRecords: int, now: Instant): (r: Step)
    ensures r.tracker.total == totalRecords
    ensures r.tracker.processed == 0 && r.tracker.lastReported == 0
    ensures r.tracker.success == 0 && r.tracker.failed == 0 && r.tracker.skipped == 0
    ensures r.tracker.Balanced()
    ensures r.tracker.startTime == now && r.tracker.lastUpdateTime == now
    ensures r.tracker.batchSize == t.batchSize
    ensures r.rendered && r.event.None?
  {
    var reset := t.(total := totalRecords, processed := 0, success := 0, failed := 0, skipped := 0,
                    lastReported := 0, startTime := now, lastUpdateTime := now);
    var (shown, rendered) := DisplayProgress(reset, now, true);
    Step(shown, rendered, None)
  }

  /** Whether a report publishes an update: a full batch since the last one,
      or the last record. */
  predicate ShouldUpdate(t: Tracker) {
    t.processed - t.lastReported >= t.batchSize || t.processed == t.total
  }

  /** `ReportProgress(result)`: one more processed record, counted under its
      status; an update (line and event) only when `ShouldUpdate` holds. */
  function ReportProgress(t: Tracker, result: ProcessingResult, now: Instant): (r: Step)
    ensures r.tracker.processed == t.processed + 1
    ensures r.tracker.success == t.success + (if result.status == Success then 1 else 0)
    ensures r.tracker.failed == t.failed + (if result.status == Failed then 1 else 0)
    ensures r.tracker.skipped == t.skipped + (if result.status == Skipped then 1 else 0)
    ensures r.tracker.total == t.total && r.tracker.batchSize == t.batchSize && r.tracker.startTime == t.startTime
    ensures r.event.Some? <==> t.processed + 1 - t.lastReported >= t.batchSize || t.processed + 1 == t.total
    ensures r.event.Some? ==>
      && r.tracker.lastReported == r.tracker.processed
      && r.event.value == ProgressEvent(r.tracker.processed, r.tracker.total, r.tracker.success, r.tracker.failed, r.tracker.skipped)
    ensures r.event.None? ==>
      && r.tracker.lastReported == t.lastReported
      && !r.rendered
      && r.tracker.lastUpdateTime == t.lastUpdateTime
    ensures r.rendered ==> r.event.Some?
  {
    var counted := t.(
      processed := t.processed + 1,
      success := t.success + (if result.status == Success then 1 else 0),
      failed := t.failed + (if result.status == Failed then 1 else 0),
      skipped := t.skipped + (if result.status == Skipped then 1 else 0));
    if ShouldUpdate(counted) then
      var (shown, rendered) := DisplayProgress(counted, now, false);
      var published := shown.(lastReported := shown.processed);
      Step(published, rendered,
        Some(ProgressEvent(published.processed, published.total, published.success, published.failed, published.skipped)))
    else Step(counted, false, None)
  }

  /** A throttled line does not hold back the event or the batch bookkeeping. */
  lemma ThrottledUpdateStillPublishes(t: Tracker, result: ProcessingResult, now: Instant)
    requires t.processed + 1 - t.lastReported >= t.batchSize
    requires now - t.lastUpdateTime < ThrottleMs
    ensures var r := ReportProgress(t, result, now);
      !r.rendered && r.event.Some? && r.tracker.lastReported == t.processed + 1
  {
  }

  /** Reporting keeps the counters balanced. */
  lemma ReportKeepsBalanced(t: Tracker, result: ProcessingResult, now: Instant)
    requires t.Balanced()
    ensures ReportProgress(t, result, now).tracker.Balanced()
  {
  }

  /** How many results have the given status. */
  function CountStatus(results: seq<ProcessingResult>, status: ProcessingStatus): (n: nat)
    ensures n <= |results|
    decreases |results|
  {
    if |results| == 0 then 0
    else CountStatus(results[..|results| - 1], status) + (if results[|results| - 1].status == status then 1 else 0)
  }

  lemma {:induction false} StatusCountsAddUp(results: seq<ProcessingResult>)
    ensures CountStatus(results, Success) + CountStatus(results, Failed) + CountStatus(results, Skipped) == |results|
    decreases |results|
  {
    if |results| > 0 {
      StatusCountsAddUp(results[..|results| - 1]);
    }
  }

  lemma {:induction false} CountStatusConcat(a: seq<ProcessingResult>, b: seq<ProcessingResult>, status: ProcessingStatus)
    ensures CountStatus(a + b, status) == CountStatus(a, status) + CountStatus(b, status)
    decreases |b|
  {
    if |b| == 0 {
      assert a + b == a;
    } else {
      var n := |b| - 1;
      assert (a + b)[..|a| + n] == a + b[..n];
      CountStatusConcat(a, b[..n], status);
    }
  }

  /** The tracker after reporting `results` in order, the i-th at time `times[i]`. */
  function After(t: Tracker, results: seq<ProcessingResult>, times: seq<Instant>): Tracker
    requires |times| == |results|
    decreases |results|
  {
    if |results| == 0 then t
    else
      var n := |results| - 1;
      ReportProgress(After(t, results[..n], times[..n]), results[n], times[n]).tracker
  }

  /** The events raised by those reports, one slot per report. */
  function Events(t: Tracker, results: seq<ProcessingResult>, times: seq<Instant>): (es: seq<Option<ProgressEvent>>)
    requires |times| == |results|
    ensures |es| == |results|
    decreases |results|
  {
    if |results| == 0 then []
    else
      var n := |results| - 1;
      Events(t, results[..n], times[..n]) + [ReportProgress(After(t, results[..n], times[..n]), results[n], times[n]).event]
  }

  /** One more report after a run. */
  lemma AfterSnoc(t: Tracker, rs: seq<ProcessingResult>, ts: seq<Instant>, r: ProcessingResult, tm: Instant)
    requires |ts| == |rs|
    ensures After(t, rs + [r], ts + [tm]) == ReportProgress(After(t, rs, ts), r, tm).tracker
  {
    assert (rs + [r])[..|rs|] == rs && (ts + [tm])[..|ts|] == ts;
  }

  /** Reporting two runs one after the other is reporting their concatenation. */
  lemma {:induction false} AfterConcat(t: Tracker, a: seq<ProcessingResult>, ta: seq<Instant>, b: seq<ProcessingResult>, tb: seq<Instant>)
    requires |ta| == |a| && |tb| == |b|
    ensures After(t, a + b, ta + tb) == After(After(t, a, ta), b, tb)
    decreases |b|
  {
    if |b| == 0 {
      assert a + b == a && ta + tb == ta;
    } else {
      var n := |b| - 1;
      AfterConcat(t, a, ta, b[..n], tb[..n]);
      LastSplit(b);
      LastSplit(tb);
      assert a + b == (a + b[..n]) + [b[n]];
      assert ta + tb == (ta + tb[..n]) + [tb[n]];
      AfterSnoc(t, a + b[..n], ta + tb[..n], b[n], tb[n]);
      AfterSnoc(After(t, a, ta), b[..n], tb[..n], b[n], tb[n]);
    }
  }

  /** After a run of reports on a balanced tracker, each counter has grown by
      the number of results with its status, and the counters still balance. */
  lemma {:induction false} ReportAllCounts(t: Tracker, results: seq<ProcessingResult>, times: seq<Instant>)
    requires |times| == |results|
    ensures var a := After(t, results, times);
      && a.processed == t.processed + |results|
      && a.success == t.success + CountStatus(results, Success)
      && a.failed == t.failed + CountStatus(results, Failed)
      && a.skipped == t.skipped + CountStatus(results, Skipped)
      && a.total == t.total && a.batchSize == t.batchSize
      && (t.Balanced() ==> a.Balanced())
    decreases |results|
  {
    if |results| > 0 {
      var n := |results| - 1;
      ReportAllCounts(t, results[..n], times[..n]);
    }
  }

  /** The last of `total` reports after `Initialize(total)` always publishes
      an update, carrying the final counters. */
  lemma FinalReportPublishes(t: Tracker, total: nat, now: Instant, results: seq<ProcessingResult>, times: seq<Instant>)
    requires |results| == total > 0 && |times| == total
    ensures var es := Events(Initialize(t, total, now).tracker, results, times);
      && es[total - 1].Some?
      && es[total - 1].value.processed == total
  {
    var init := Initialize(t, total, now).tracker;
    var n := total - 1;
    ReportAllCounts(init, results[..n], times[..n]);
  }

  /** The headline of the final summary. */
  datatype Headline = Stopped | Complete

  /** `DisplayFinalSummary`: "stopped" when fewer records were processed than
      expected, and the error-log line only when something failed. */
  function FinalSummary(t: Tracker): (r: (Headline, bool))
    ensures r.0 == Complete <==> t.processed >= t.total
    ensures r.1 <==> t.failed > 0
  {
    (if t.processed < t.total then Stopped else Complete, t.failed > 0)
  }

  /** Reporting every record after `Initialize(n)` ends complete; reporting
      fewer (a cancelled run) ends stopped. */
  lemma HeadlineReflectsCoverage(t: Tracker, total: nat, now: Instant, results: seq<ProcessingResult>, times: seq<Instant>)
    requires |results| == |times| <= total
    ensures var a := After(Initialize(t, total, now).tracker, results, times);
      FinalSummary(a).0 == (if |results| == total then Complete else Stopped)
  {
    ReportAllCounts(Initialize(t, total, now).tracker, results, times);
  }

  const SecondMs := 1000
  const MinuteMs := 60000
  const HourMs := 3600000
  const DayMs := 86400000

  /** The `Hours`, `Minutes` and `Seconds` components of a `TimeSpan`. */
  datatype Clock = Clock(hours: nat, minutes: nat, seconds: nat)

  function Components(ms: nat): (c: Clock)
    ensures c.hours < 24 && c.minutes < 60 && c.seconds < 60
  {
    Clock((ms / HourMs) % 24, (ms / MinuteMs) % 60, (ms / SecondMs) % 60)
  }

  function Two(n: nat): (s: string)
    requires n < 100
    ensures |s| == 2 && AllDigits(s) && DigitsValue(s) == n
  {
    assert Pow10(2) == 100;
    PadDigits(n, 2)
  }

  /** `FormatDuration`: `HH:MM:SS` from one hour on (whole days dropped),
      `MM:SS` below; each field two digits. */
  function FormatDuration(ms: nat): (s: string)
    ensures ms >= HourMs ==> |s| == 8
    ensures ms < HourMs ==> |s| == 5
  {
    var c := Components(ms);
    if ms >= HourMs then Two(c.hours) + ":" + Two(c.minutes) + ":" + Two(c.seconds)
    else Two(c.minutes) + ":" + Two(c.seconds)
  }

  /** Reads `HH:MM:SS` or `MM:SS` back: the partner of `FormatDuration`. */
  function ParseDuration(s: string): Option<Clock> {
    if |s| == 8 && s[2] == ':' && s[5] == ':' && AllDigits(s[..2]) && AllDigits(s[3..5]) && AllDigits(s[6..]) then
      Some(Clock(DigitsValue(s[..2]), DigitsValue(s[3..5]), DigitsValue(s[6..])))
    else if |s| == 5 && s[2] == ':' && AllDigits(s[..2]) && AllDigits(s[3..]) then
      Some(Clock(0, DigitsValue(s[..2]), DigitsValue(s[3..])))
    else None
  }

  /** Where the fields of `HH:MM:SS` sit. */
  lemma LongLayout(h: string, m: string, sec: string)
    requires |h| == 2 && |m| == 2 && |sec| == 2
    ensures var s := h + ":" + m + ":" + sec;
      |s| == 8 && s[2] == ':' && s[5] == ':' && s[..2] == h && s[3..5] == m && s[6..] == sec
  {
  }

  /** Where the fields of `MM:SS` sit. */
  lemma ShortLayout(m: string, sec: string)
    requires |m| == 2 && |sec| == 2
    ensures var s := m + ":" + sec;
      |s| == 5 && s[2] == ':' && s[..2] == m && s[3..] == sec
  {
  }

  /** The formatted duration reads back as the duration's clock components
      (below one hour the hours component is zero anyway). */
  lemma FormatParseRoundTrip(ms: nat)
    ensures ParseDuration(FormatDuration(ms)) == Some(Components(ms))
  {
    var c := Components(ms);
    if ms >= HourMs {
      LongLayout(Two(c.hours), Two(c.minutes), Two(c.seconds));
    } else {
      ShortLayout(Two(c.minutes), Two(c.seconds));
      assert ms / HourMs == 0;
    }
  }

  lemma DayShiftsHours(ms: nat)
    ensures ((ms + 86400000) / 3600000) % 24 == (ms / 3600000) % 24
  {
    assert (ms + 86400000) / 3600000 == ms / 3600000 + 24;
  }

  lemma DayShiftsMinutes(ms: nat)
    ensures ((ms + 86400000) / 60000) % 60 == (ms / 60000) % 60
  {
    assert (ms + 86400000) / 60000 == ms / 60000 + 1440;
  }

  lemma DayShiftsSeconds(ms: nat)
    ensures ((ms + 86400000) / 1000) % 60 == (ms / 1000) % 60
  {
    assert (ms + 86400000) / 1000 == ms / 1000 + 86400;
  }

  /** A day is a whole number of hours, minutes and seconds, so adding one
      leaves each clock component where it was. */
  lemma DayShiftsComponents(ms: nat)
    ensures Components(ms + DayMs) == Components(ms)
  {
    DayShiftsHours(ms);
    DayShiftsMinutes(ms);
    DayShiftsSeconds(ms);
  }

  /** Whole days vanish from the rendering: a run of a day and a bit shows
      as the bit. */
  lemma WholeDaysDropped(ms: nat)
    requires ms >= HourMs
    ensures FormatDuration(ms + DayMs) == FormatDuration(ms)
  {
    DayShiftsComponents(ms);
  }
}

=== FILE: records.dfy ===
/** The record model: the input row (`DonationRecord`) with its natural key and
    validity predicate, and the per-record outcome (`ProcessingResult`). */
module Records {
  import opened Wrappers
  import opened Text

  /** A `DateTime`, as a count of milliseconds; `default(DateTime)` is 0. */
  type Instant = nat

  const DefaultInstant: Instant := 0

  /** One CSV row. The three fields are never null on any path of the program,
      so they are plain strings. */
  datatype DonationRecord = DonationRecord(donationNumber: string, productCode: string, holdCode: string) {

    /** `GetKey`: the three fields separated by `|`. */
    function Key(): (k: string)
      ensures |k| == |donationNumber| + |productCode| + |holdCode| + 2
      ensures k[|donationNumber|] == '|' && k[|donationNumber| + 1 + |productCode|] == '|'
      ensures IsValid() ==> Utf16Length(k) == 23
    {
      Utf16LengthConcat(donationNumber, "|");
      Utf16LengthConcat(donationNumber + "|", productCode);
      Utf16LengthConcat(donationNumber + "|" + productCode, "|");
      Utf16LengthConcat(donationNumber + "|" + productCode + "|", holdCode);
      donationNumber + "|" + productCode + "|" + holdCode
    }

    /** `IsValid`: each field is not whitespace-only and has its fixed
        `Length`, in UTF-16 code units (14, 4 and 3). Nothing is trimmed first. */
    predicate IsValid() {
      && !IsBlank(donationNumber) && Utf16Length(donationNumber) == 14
      && !IsBlank(productCode) && Utf16Length(productCode) == 4
      && !IsBlank(holdCode) && Utf16Length(holdCode) == 3
    }
  }

  /** The fields that must be free of the separator for keys to be unambiguous. */
  predicate KeySafe(r: DonationRecord) {
    !Contains(r.donationNumber, '|') && !Contains(r.productCode, '|')
  }

  /** Reads a key back into its three fields: everything before the first `|`,
      everything between it and the next `|`, and the rest. */
  function SplitKey(k: string): Option<(string, string, string)> {
    var i := IndexOf(k, '|');
    if i == |k| then None
    else
      var rest := k[i + 1..];
      var j := IndexOf(rest, '|');
      if j == |rest| then None
      else Some((k[..i], rest[..j], rest[j + 1..]))
  }

  /** Reading back three fields joined by `|`, the first two free of it. */
  lemma SplitKeyOf(a: string, b: string, c: string)
    requires !Contains(a, '|') && !Contains(b, '|')
    ensures SplitKey(a + "|" + b + "|" + c) == Some((a, b, c))
  {
    var k := a + "|" + b + "|" + c;
    var rest := b + "|" + c;
    assert k == a + "|" + rest;
    IndexOfSeparator(a, '|', rest);
    IndexOfSeparator(b, '|', c);
    assert k[..|a|] == a && k[|a| + 1..] == rest;
    assert rest[..|b|] == b && rest[|b| + 1..] == c;
  }

  /** The key decodes back to the record's fields when the donation number and
      product code hold no `|` (the hold code may hold anything). */
  lemma KeyRoundTrip(r: DonationRecord)
    requires KeySafe(r)
    ensures SplitKey(r.Key()) == Some((r.donationNumber, r.productCode, r.holdCode))
  {
    SplitKeyOf(r.donationNumber, r.productCode, r.holdCode);
  }

  /** Records with equal keys are equal records, as long as the separator does
      not occur inside the first two fields. */
  lemma KeyInjective(a: DonationRecord, b: DonationRecord)
    requires KeySafe(a) && KeySafe(b)
    requires a.Key() == b.Key()
    ensures a == b
  {
    KeyRoundTrip(a);
    KeyRoundTrip(b);
  }

  /** Without that proviso keys collide: `a|b`,`c`,`d` and `a`,`b|c`,`d` share
      the key `a|b|c|d`. */
  lemma KeyCollision()
    ensures DonationRecord("a|b", "c", "d").Key() == DonationRecord("a", "b|c", "d").Key()
  {
  }

  /** Validity counts surrounding spaces towards the length, and rejects a
      whitespace-only field even when its length is right: for any valid
      record, a 13-unit number behind a space is accepted, a trailing space
      makes the number too long, and a product code of four spaces is refused. */
  lemma IsValidDoesNotTrim(r: DonationRecord, x: string)
    requires r.IsValid()
    requires !IsBlank(x) && Utf16Length(x) == 13
    ensures r.(donationNumber := " " + x).IsValid()
    ensures !r.(donationNumber := r.donationNumber + " ").IsValid()
    ensures !r.(productCode := "    ").IsValid()
  {
    Utf16LengthConcat(" ", x);
    Utf16LengthConcat(r.donationNumber, " ");
    assert !IsBlank(" " + x) by {
      var i :| 0 <= i < |x| && !IsWhiteSpace(x[i]);
      assert (" " + x)[i + 1] == x[i];
    }
    assert IsBlank("    ");
  }

  datatype ProcessingStatus = Success | Failed | Skipped

  /** The positional record `ProcessingResult(Record, Status, ErrorMessage = null,
      ProcessedAt = default)`. */
  datatype ProcessingResult = ProcessingResult(
    record: DonationRecord,
    status: ProcessingStatus,
    errorMessage: Option<string> := None,
    processedAt: Instant := DefaultInstant)
  {
    predicate IsSuccess() {
      status == Success
    }

    /** `!string.IsNullOrEmpty(ErrorMessage)`, whatever the status. */
    predicate HasError() {
      errorMessage.Some? && |errorMessage.value| > 0
    }
  }

  /** The constructor's defaults: no message and the default timestamp. */
  lemma PositionalDefaults(record: DonationRecord, status: ProcessingStatus)
    ensures ProcessingResult(record, status).errorMessage == None
    ensures ProcessingResult(record, status).processedAt == DefaultInstant
    ensures !ProcessingResult(record, status).HasError()
  {
  }

  /** `CreateSuccess`, stamped with the clock reading `now`. */
  function CreateSuccess(record: DonationRecord, now: Instant): (r: ProcessingResult)
    ensures r.record == record && r.processedAt == now
    ensures r.IsSuccess() && r.errorMessage == None && !r.HasError()
  {
    ProcessingResult(record, Success, None, now)
  }

  /** `CreateFailure`: Failed, carrying exactly the given message. */
  function CreateFailure(record: DonationRecord, errorMessage: string, now: Instant): (r: ProcessingResult)
    ensures r.record == record && r.processedAt == now
    ensures r.status == Failed && !r.IsSuccess()
    ensures r.errorMessage == Some(errorMessage)
    ensures r.HasError() <==> errorMessage != ""
  {
    ProcessingResult(record, Failed, Some(errorMessage), now)
  }

  /** `CreateSkipped`. */
  function CreateSkipped(record: DonationRecord, now: Instant): (r: ProcessingResult)
    ensures r.record == record && r.processedAt == now
    ensures r.status == Skipped && !r.IsSuccess()
    ensures r.errorMessage == None && !r.HasError()
  {
    ProcessingResult(record, Skipped, None, now)
  }

  /** `HasError` ignores the status: a failure with an empty message has no
      error, a success carrying a message has one. */
  lemma HasErrorIgnoresStatus(record: DonationRecord, now: Instant)
    ensures !CreateFailure(record, "", now).HasError()
    ensures ProcessingResult(record, Success, Some("cleared")).IsSuccess()
    ensures ProcessingResult(record, Success, Some("cleared")).HasError()
  {
  }
}

=== FILE: test_data.dfy ===
/** The test-data generator: a header line followed by `recordCount` data
    lines, each built from its line number and three random draws (the last
    character of the donation number, the product code and the hold code).
    The random number generator becomes the sequence of draws. */
module TestData {
  import opened Wrappers
  import opened Text
  import opened Records
  import opened CsvReader

  const RecordCount: nat := 20000

  const DonationPrefix: string := "G095625"

  /** Candidates for the donation number's last character: `0`-`9`, `A`-`Z`. */
  const LastChars: string := "0123456789ABCDEFGHIJKLMNOPQRSTUVWXYZ"

  const ProductCodes: seq<string> := ["PROD", "GIFT", "DONA", "MEMB", "EVEN", "ITEM"]

  const HoldCodes: seq<string> := ["H01", "H02", "H03", "H04", "H05", "SUS", "REV", "CHK"]

  const HeaderLine: string := "DonationNumber,ProductCode,HoldCode"

  /** The three `random.Next` results used for one line. */
  datatype Draw = Draw(last: nat, product: nat, hold: nat) {
    predicate InRange() {
      last < |LastChars| && product < |ProductCodes| && hold < |HoldCodes|
    }
  }

  /** ASCII letters and digits: the only characters the generator writes into
      a field. */
  predicate IsAlphaNum(c: char) {
    '0' <= c <= '9' || 'A' <= c <= 'Z' || 'a' <= c <= 'z'
  }

  predicate AllAlphaNum(s: string) {
    forall i :: 0 <= i < |s| ==> IsAlphaNum(s[i])
  }

  /** A letters-and-digits field survives CSV joining, trimming and the
      whitespace test unchanged, and its `Length` is its number of characters. */
  lemma AlphaNumField(s: string)
    requires AllAlphaNum(s)
    ensures PlainField(s) && IsTrimmed(s)
    ensures |s| > 0 ==> !IsBlank(s)
    ensures Utf16Length(s) == |s|
  {
    BmpLength(s);
    if |s| > 0 {
      assert !IsWhiteSpace(s[0]);
    }
  }

  /** Every code in both pools has its fixed length and holds only letters. */
  lemma PoolsAreWellFormed()
    ensures forall k :: 0 <= k < |ProductCodes| ==> |ProductCodes[k]| == 4 && AllAlphaNum(ProductCodes[k])
    ensures forall k :: 0 <= k < |HoldCodes| ==> |HoldCodes[k]| == 3 && AllAlphaNum(HoldCodes[k])
    ensures forall k :: 0 <= k < |HoldCodes| ==> HoldCodes[k][0] != 'G' && !IsDigit(HoldCodes[k][0])
    ensures AllAlphaNum(LastChars) && |LastChars| == 36
  {
  }

  lemma Pow10Six()
    ensures Pow10(6) == 1000000
  {
    assert Pow10(2) == 100;
    assert Pow10(4) == 10000;
  }

  /** Where the parts of a donation number sit, and that it stays letters
      and digits. */
  lemma DonationNumberLayout(prefix: string, digits: string, c: char)
    requires |prefix| == 7 && |digits| == 6
    requires AllAlphaNum(prefix) && AllDigits(digits) && IsAlphaNum(c)
    ensures var dn := prefix + digits + [c];
      && |dn| == 14 && dn[..7] == prefix && dn[7..13] == digits && dn[13] == c
      && AllAlphaNum(dn)
  {
    var dn := prefix + digits + [c];
    assert dn[7..13] == digits;
    forall k | 0 <= k < 14 ensures IsAlphaNum(dn[k]) {
      if k < 7 {
        assert dn[k] == prefix[k];
      } else if k < 13 {
        assert dn[k] == digits[k - 7];
      }
    }
  }

  /** `G095625`, the line number as six digits, and the drawn last character. */
  function DonationNumber(i: nat, last: nat): (dn: string)
    requires 1 <= i <= RecordCount && last < |LastChars|
    ensures |dn| == 14
    ensures dn[..7] == DonationPrefix && dn[13] == LastChars[last]
    ensures AllDigits(dn[7..13]) && DigitsValue(dn[7..13]) == i
    ensures AllAlphaNum(dn)
  {
    Pow10Six();
    PoolsAreWellFormed();
    DonationNumberLayout(DonationPrefix, PadDigits(i, 6), LastChars[last]);
    DonationPrefix + PadDigits(i, 6) + [LastChars[last]]
  }

  /** Different line numbers give different donation numbers, whatever the
      last characters drawn. */
  lemma DonationNumbersDistinct(i: nat, a: nat, j: nat, b: nat)
    requires 1 <= i <= RecordCount && a < |LastChars|
    requires 1 <= j <= RecordCount && b < |LastChars|
    requires i != j
    ensures DonationNumber(i, a) != DonationNumber(j, b)
  {
  }

  /** The record written on data line `i`. */
  function GeneratedRecord(i: nat, d: Draw): DonationRecord
    requires 1 <= i <= RecordCount && d.InRange()
  {
    DonationRecord(DonationNumber(i, d.last), ProductCodes[d.product], HoldCodes[d.hold])
  }

  /** Data line `i`: the three fields joined by commas. */
  function DataLine(i: nat, d: Draw): string
    requires 1 <= i <= RecordCount && d.InRange()
  {
    FormatLine(GeneratedRecord(i, d))
  }

  /** Every data line splits into its three fields, and the reader's parse of
      it is the valid record it was written from. */
  lemma DataLineParses(i: nat, d: Draw)
    requires 1 <= i <= RecordCount && d.InRange()
    ensures var r := GeneratedRecord(i, d);
      && r.IsValid()
      && Split(DataLine(i, d)) == [r.donationNumber, r.productCode, r.holdCode]
      && !IsBlank(DataLine(i, d))
      && ParseLine(DataLine(i, d)) == Some(r)
  {
    var r := GeneratedRecord(i, d);
    GeneratedRecordValid(i, d);
    GeneratedFieldsAreAlphaNum(i, d);
    AlphaNumRecordLine(r);
    assert DataLine(i, d) == FormatLine(r);
  }

  /** Any valid record of letters and digits is written as a line that splits
      into its fields and parses back to it. */
  lemma AlphaNumRecordLine(r: DonationRecord)
    requires AllAlphaNum(r.donationNumber) && AllAlphaNum(r.productCode) && AllAlphaNum(r.holdCode)
    requires r.IsValid()
    ensures Split(FormatLine(r)) == [r.donationNumber, r.productCode, r.holdCode]
    ensures !IsBlank(FormatLine(r))
    ensures ParseLine(FormatLine(r)) == Some(r)
  {
    AlphaNumField(r.donationNumber);
    AlphaNumField(r.productCode);
    AlphaNumField(r.holdCode);
    assert Split(FormatLine(r)) == [r.donationNumber, r.productCode, r.holdCode] by {
      SplitJoin([r.donationNumber, r.productCode, r.holdCode]);
    }
    assert !IsBlank(FormatLine(r)) by {
      JoinThree(r.donationNumber, r.productCode, r.holdCode);
      assert FormatLine(r)[0] == r.donationNumber[0];
      assert !IsWhiteSpace(r.donationNumber[0]);
    }
    ParseFormatRoundTrip(r);
  }

  lemma GeneratedFieldsAreAlphaNum(i: nat, d: Draw)
    requires 1 <= i <= RecordCount && d.InRange()
    ensures var r := GeneratedRecord(i, d);
      AllAlphaNum(r.donationNumber) && AllAlphaNum(r.productCode) && AllAlphaNum(r.holdCode)
  {
    PoolsAreWellFormed();
  }

  lemma JoinThree(a: string, b: string, c: string)
    ensures Join([a, b, c], ',') == a + [','] + b + [','] + c
  {
    assert [a, b, c][..2] == [a, b];
    assert [a, b][..1] == [a];
    assert Join([a], ',') == a;
    assert Join([a, b], ',') == a + [','] + b;
    assert Join([a, b, c], ',') == Join([a, b], ',') + [','] + c;
  }

  /** The records of a run, in line order; line `k + 1` uses draw `k`. */
  function GeneratedRecords(draws: seq<Draw>): (rs: seq<DonationRecord>)
    requires |draws| <= RecordCount
    requires forall k :: 0 <= k < |draws| ==> draws[k].InRange()
    ensures |rs| == |draws|
  {
    seq(|draws|, k requires 0 <= k < |draws| => GeneratedRecord(k + 1, draws[k]))
  }

  function DataLines(draws: seq<Draw>): (lines: seq<string>)
    requires |draws| <= RecordCount
    requires forall k :: 0 <= k < |draws| ==> draws[k].InRange()
    ensures |lines| == |draws|
  {
    seq(|draws|, k requires 0 <= k < |draws| => DataLine(k + 1, draws[k]))
  }

  /** The generated file: the header, then, on line `k + 1`, the donation
      number for `k + 1`, the product code and the hold code of draw `k`. */
  function GenerateFile(draws: seq<Draw>): (lines: seq<string>)
    requires |draws| == RecordCount
    requires forall k :: 0 <= k < |draws| ==> draws[k].InRange()
    ensures |lines| == 1 + RecordCount
    ensures lines[0] == HeaderLine
    ensures forall k :: 0 <= k < |draws| && draws[k].InRange() ==>
      Split(lines[k + 1]) == [DonationNumber(k + 1, draws[k].last), ProductCodes[draws[k].product], HoldCodes[draws[k].hold]]
  {
    DataLinesSplit(draws);
    [HeaderLine] + DataLines(draws)
  }

  lemma DataLineAt(draws: seq<Draw>, k: nat)
    requires |draws| <= RecordCount
    requires forall k :: 0 <= k < |draws| ==> draws[k].InRange()
    requires k < |draws|
    ensures DataLines(draws)[k] == DataLine(k + 1, draws[k])
  {
  }

  /** Each data line splits into the fields drawn for it. */
  lemma DataLinesSplit(draws: seq<Draw>)
    requires |draws| <= RecordCount
    requires forall k :: 0 <= k < |draws| ==> draws[k].InRange()
    ensures forall k :: 0 <= k < |draws| ==>
      Split(DataLines(draws)[k]) == [DonationNumber(k + 1, draws[k].last), ProductCodes[draws[k].product], HoldCodes[draws[k].hold]]
  {
    forall k | 0 <= k < |draws|
      ensures Split(DataLines(draws)[k]) == [DonationNumber(k + 1, draws[k].last), ProductCodes[draws[k].product], HoldCodes[draws[k].hold]]
    {
      DataLineAt(draws, k);
      DataLineParses(k + 1, draws[k]);
    }
  }

  lemma KeyStartsWithDonationNumber(r: DonationRecord)
    ensures |r.Key()| >= |r.donationNumber| && r.Key()[..|r.donationNumber|] == r.donationNumber
  {
  }

  lemma GeneratedRecordValid(i: nat, d: Draw)
    requires 1 <= i <= RecordCount && d.InRange()
    ensures GeneratedRecord(i, d).IsValid()
  {
    PoolsAreWellFormed();
    var r := GeneratedRecord(i, d);
    AlphaNumField(r.donationNumber);
    AlphaNumField(r.productCode);
    AlphaNumField(r.holdCode);
  }

  lemma GeneratedRecordAt(draws: seq<Draw>, k: nat)
    requires |draws| <= RecordCount
    requires forall k :: 0 <= k < |draws| ==> draws[k].InRange()
    requires k < |draws|
    ensures GeneratedRecords(draws)[k] == GeneratedRecord(k + 1, draws[k])
  {
  }

  lemma GeneratedRecordsValid(draws: seq<Draw>)
    requires |draws| <= RecordCount
    requires forall k :: 0 <= k < |draws| ==> draws[k].InRange()
    ensures forall k :: 0 <= k < |draws| ==> GeneratedRecords(draws)[k].IsValid()
  {
    forall k | 0 <= k < |draws| ensures GeneratedRecords(draws)[k].IsValid() {
      GeneratedRecordAt(draws, k);
      GeneratedRecordValid(k + 1, draws[k]);
    }
  }

  lemma GeneratedRecordsDistinct(draws: seq<Draw>)
    requires |draws| <= RecordCount
    requires forall k :: 0 <= k < |draws| ==> draws[k].InRange()
    ensures forall k, m :: 0 <= k < m < |draws| ==>
      GeneratedRecords(draws)[k].Key() != GeneratedRecords(draws)[m].Key()
  {
    forall k, m | 0 <= k < m < |draws|
      ensures GeneratedRecords(draws)[k].Key() != GeneratedRecords(draws)[m].Key()
    {
      KeyEncodesLine(draws, k);
      KeyEncodesLine(draws, m);
    }
  }

  /** Characters 7 to 12 of a generated record's key spell its line number. */
  lemma KeyEncodesLine(draws: seq<Draw>, k: nat)
    requires |draws| <= RecordCount
    requires forall k :: 0 <= k < |draws| ==> draws[k].InRange()
    requires k < |draws|
    ensures |GeneratedRecords(draws)[k].Key()| >= 13
    ensures DigitsValue(GeneratedRecords(draws)[k].Key()[7..13]) == k + 1
  {
    GeneratedRecordAt(draws, k);
    KeyDigitsOf(GeneratedRecords(draws)[k]);
  }

  /** The digits at positions 7 to 12 of a donation number are also there in
      its record's key. */
  lemma KeyDigitsOf(r: DonationRecord)
    requires |r.donationNumber| >= 13
    ensures |r.Key()| >= 13 && r.Key()[7..13] == r.donationNumber[7..13]
  {
    KeyStartsWithDonationNumber(r);
    assert r.Key()[7..13] == r.donationNumber[7..13];
  }

  /** Every generated record is valid, and no two share a key. */
  lemma GeneratedRecordsValidAndDistinct(draws: seq<Draw>)
    requires |draws| <= RecordCount
    requires forall k :: 0 <= k < |draws| ==> draws[k].InRange()
    ensures forall k :: 0 <= k < |draws| ==> GeneratedRecords(draws)[k].IsValid()
    ensures forall k, m :: 0 <= k < m < |draws| ==>
      GeneratedRecords(draws)[k].Key() != GeneratedRecords(draws)[m].Key()
  {
    GeneratedRecordsValid(draws);
    GeneratedRecordsDistinct(draws);
  }

  const HeaderFields: seq<string> := ["DonationNumber", "ProductCode", "HoldCode"]

  lemma HeaderIsJoin()
    ensures HeaderLine == Join(HeaderFields, ',')
  {
    var f := HeaderFields;
    assert Join(f[..2][..1], ',') == f[0];
    assert Join(f[..2], ',') == f[0] + [','] + f[1];
  }

  lemma HeaderFieldsArePlain()
    ensures forall k :: 0 <= k < |HeaderFields| ==> PlainField(HeaderFields[k])
  {
    forall k | 0 <= k < |HeaderFields| ensures PlainField(HeaderFields[k]) {
      AlphaNumField(HeaderFields[k]);
    }
  }

  /** The header line splits into three fields and is taken for a header. */
  lemma HeaderIsDetected()
    ensures Split(HeaderLine) == HeaderFields
    ensures DetectHeader(HeaderLine)
  {
    HeaderIsJoin();
    HeaderFieldsArePlain();
    SplitJoin(HeaderFields);
    assert HeaderLikeField(HeaderFields[0]);
  }

  /** Every generated data line would pass for a header too, through its hold
      code, which never starts with a digit or `G`. */
  lemma DataLineIsHeaderLike(i: nat, d: Draw)
    requires 1 <= i <= RecordCount && d.InRange()
    ensures DetectHeader(DataLine(i, d))
  {
    DataLineParses(i, d);
    PoolsAreWellFormed();
    assert HeaderLikeField(Split(DataLine(i, d))[2]);
  }

  /** A data line contributes exactly the record it was written from. */
  lemma DataLineYields(i: nat, d: Draw)
    requires 1 <= i <= RecordCount && d.InRange()
    ensures YieldsRecord(DataLine(i, d), GeneratedRecord(i, d))
  {
    DataLineParses(i, d);
  }

  /** Each data line contributes its own record to a read. */
  lemma DataLinesYieldRecords(draws: seq<Draw>)
    requires |draws| <= RecordCount
    requires forall k :: 0 <= k < |draws| ==> draws[k].InRange()
    ensures forall k :: 0 <= k < |draws| ==> YieldsRecord(DataLines(draws)[k], GeneratedRecords(draws)[k])
  {
    forall k | 0 <= k < |draws|
      ensures YieldsRecord(DataLines(draws)[k], GeneratedRecords(draws)[k])
    {
      DataLineYieldsAt(draws, k);
    }
  }

  lemma DataLineYieldsAt(draws: seq<Draw>, k: nat)
    requires |draws| <= RecordCount
    requires forall k :: 0 <= k < |draws| ==> draws[k].InRange()
    requires k < |draws|
    ensures YieldsRecord(DataLines(draws)[k], GeneratedRecords(draws)[k])
  {
    DataLineAt(draws, k);
    GeneratedRecordAt(draws, k);
    DataLineYields(k + 1, draws[k]);
  }

  /** Reading the generated file back gives every generated record, in order,
      with nothing counted invalid. */
  lemma ReadGeneratedFile(draws: seq<Draw>)
    requires |draws| == RecordCount
    requires forall k :: 0 <= k < |draws| ==> draws[k].InRange()
    ensures ReadRecords(GenerateFile(draws), None) == ReadOutcome(GeneratedRecords(draws), RecordCount, 0)
  {
    ReadHeaderAndDataLines(draws);
    assert GenerateFile(draws) == [HeaderLine] + DataLines(draws);
  }

  lemma ReadHeaderAndDataLines(draws: seq<Draw>)
    requires |draws| == RecordCount
    requires forall k :: 0 <= k < |draws| ==> draws[k].InRange()
    ensures ReadRecords([HeaderLine] + DataLines(draws), None) == ReadOutcome(GeneratedRecords(draws), RecordCount, 0)
  {
    var file := [HeaderLine] + DataLines(draws);
    var rs := GeneratedRecords(draws);
    HeaderIsDetected();
    DataLinesYieldRecords(draws);
    forall k | 0 <= k < |rs| ensures YieldsRecord(file[k + 1], rs[k]) {
      assert file[k + 1] == DataLines(draws)[k];
    }
    ReadHeaderThenRecords(file, rs);
  }

  /** Without its header line the file loses its first record: the reader
      takes the first data line for a header. */
  lemma HeaderlessFileLosesFirstRecord(draws: seq<Draw>)
    requires 1 <= |draws| <= RecordCount
    requires forall k :: 0 <= k < |draws| ==> draws[k].InRange()
    ensures ReadRecords(DataLines(draws), None) == ReadOutcome(GeneratedRecords(draws)[1..], |draws| - 1, 0)
  {
    FirstDataLineIsHeaderLike(draws);
    LaterDataLinesYield(draws);
    ReadHeaderThenRecords(DataLines(draws), GeneratedRecords(draws)[1..]);
  }

  lemma FirstDataLineIsHeaderLike(draws: seq<Draw>)
    requires 1 <= |draws| <= RecordCount
    requires forall k :: 0 <= k < |draws| ==> draws[k].InRange()
    ensures DetectHeader(DataLines(draws)[0])
  {
    assert DataLines(draws)[0] == DataLine(1, draws[0]) by {
      DataLineAt(draws, 0);
    }
    assert DetectHeader(DataLine(1, draws[0])) by {
      DataLineIsHeaderLike(1, draws[0]);
    }
  }

  lemma LaterDataLinesYield(draws: seq<Draw>)
    requires 1 <= |draws| <= RecordCount
    requires forall k :: 0 <= k < |draws| ==> draws[k].InRange()
    ensures forall k :: 0 <= k < |draws| - 1 ==> YieldsRecord(DataLines(draws)[k + 1], GeneratedRecords(draws)[1..][k])
  {
    forall k | 0 <= k < |draws| - 1 ensures YieldsRecord(DataLines(draws)[k + 1], GeneratedRecords(draws)[1..][k]) {
      DataLineYieldsAt(draws, k + 1);
      assert GeneratedRecords(draws)[1..][k] == GeneratedRecords(draws)[k + 1];
    }
  }
}

=== FILE: text.dfy ===
/** String helpers standing in for the .NET string API the program uses:
    `Length`, `Trim`, `ToUpper`, `IsNullOrWhiteSpace`, `char.IsDigit`,
    `string.Join` and the `D<n>` zero-padded integer format. Only ASCII is modelled:
    whitespace is the six ASCII whitespace characters and case mapping is
    `a`-`z` to `A`-`Z`. */
module Text {

  /** ASCII whitespace: space, tab, line feed, vertical tab, form feed, carriage return. */
  predicate IsWhiteSpace(c: char) {
    c == ' ' || 9 <= c as int <= 13
  }

  /** `string.IsNullOrWhiteSpace` on a non-null string: empty or all whitespace. */
  predicate IsBlank(s: string) {
    forall i :: 0 <= i < |s| ==> IsWhiteSpace(s[i])
  }

  /** No whitespace at either end (what `Trim` leaves behind). */
  predicate IsTrimmed(s: string) {
    |s| == 0 || (!IsWhiteSpace(s[0]) && !IsWhiteSpace(s[|s| - 1]))
  }

  function TrimStart(s: string): (r: string)
    ensures |r| <= |s| && r == s[|s| - |r|..]
    ensures forall k :: 0 <= k < |s| - |r| ==> IsWhiteSpace(s[k])
    ensures |r| > 0 ==> !IsWhiteSpace(r[0])
    decreases |s|
  {
    if |s| > 0 && IsWhiteSpace(s[0]) then TrimStart(s[1..]) else s
  }

  function TrimEnd(s: string): (r: string)
    ensures |r| <= |s| && r == s[..|r|]
    ensures forall k :: |r| <= k < |s| ==> IsWhiteSpace(s[k])
    ensures |r| > 0 ==> !IsWhiteSpace(r[|r| - 1])
    decreases |s|
  {
    if |s| > 0 && IsWhiteSpace(s[|s| - 1]) then TrimEnd(s[..|s| - 1]) else s
  }

  /** `r` is `s` with nothing but whitespace removed from its two ends. */
  predicate IsWhiteSpaceInfix(r: string, s: string) {
    exists i, j :: 0 <= i <= j <= |s| && r == s[i..j] && IsBlank(s[..i]) && IsBlank(s[j..])
  }

  /** What `TrimStart` drops is whitespace. */
  lemma TrimStartDropsWhiteSpace(s: string)
    ensures IsBlank(s[..|s| - |TrimStart(s)|])
  {
    var i := |s| - |TrimStart(s)|;
    forall k | 0 <= k < i
      ensures IsWhiteSpace(s[..i][k])
    {
      assert s[..i][k] == s[k];
    }
  }

  /** What `TrimEnd` drops is whitespace. */
  lemma TrimEndDropsWhiteSpace(a: string)
    ensures IsBlank(a[|TrimEnd(a)|..])
  {
    var j := |TrimEnd(a)|;
    forall k | 0 <= k < |a| - j
      ensures IsWhiteSpace(a[j..][k])
    {
      assert a[j..][k] == a[j + k];
    }
  }

  /** Dropping a whitespace prefix and then a whitespace suffix leaves a
      whitespace infix. */
  lemma BlankEndsMakeInfix(s: string, a: string, r: string)
    requires |a| <= |s| && a == s[|s| - |a|..] && IsBlank(s[..|s| - |a|])
    requires |r| <= |a| && r == a[..|r|] && IsBlank(a[|r|..])
    ensures IsWhiteSpaceInfix(r, s)
  {
    var i := |s| - |a|;
    assert r == s[i..i + |r|];
    assert s[i + |r|..] == a[|r|..];
  }

  /** What `TrimEnd(TrimStart(s))` drops is whitespace only. */
  lemma TrimEndsAreWhiteSpace(s: string)
    ensures IsWhiteSpaceInfix(TrimEnd(TrimStart(s)), s)
  {
    TrimStartDropsWhiteSpace(s);
    TrimEndDropsWhiteSpace(TrimStart(s));
    BlankEndsMakeInfix(s, TrimStart(s), TrimEnd(TrimStart(s)));
  }

  /** `string.Trim()`: the longest infix of `s` without whitespace at either end,
      obtained by dropping only whitespace. */
  function Trim(s: string): (r: string)
    ensures IsTrimmed(r)
    ensures |r| <= |s|
    ensures IsBlank(s) <==> |r| == 0
    ensures IsWhiteSpaceInfix(r, s)
  {
    var a := TrimStart(s);
    var r := TrimEnd(a);
    TrimEndsAreWhiteSpace(s);
    if |r| == 0 then
      assert |a| == 0;
      r
    else
      assert !IsBlank(s) by {
        assert r[0] == s[|s| - |a|];
      }
      r
  }

  /** Trimming a string that has no whitespace at either end changes nothing. */
  lemma TrimmedIsFixed(s: string)
    requires IsTrimmed(s)
    ensures Trim(s) == s
  {
  }

  /** `Trim` is idempotent. */
  lemma TrimIdempotent(s: string)
    ensures Trim(Trim(s)) == Trim(s)
  {
    TrimmedIsFixed(Trim(s));
  }

  /** ASCII `char.ToUpperInvariant`. */
  function UpperChar(c: char): (u: char)
    ensures IsWhiteSpace(u) <==> IsWhiteSpace(c)
    ensures !('a' <= u <= 'z')
    ensures !('a' <= c <= 'z') ==> u == c
  {
    if 'a' <= c <= 'z' then (c as int - 32) as char else c
  }

  /** No lower-case ASCII letter occurs. */
  predicate IsUpper(s: string) {
    forall i :: 0 <= i < |s| ==> !('a' <= s[i] <= 'z')
  }

  /** ASCII `string.ToUpper()`: same length, every letter upper-cased, every
      other character kept. */
  function ToUpper(s: string): (r: string)
    ensures |r| == |s|
    ensures IsUpper(r)
    ensures forall i :: 0 <= i < |s| ==> r[i] == UpperChar(s[i])
  {
    seq(|s|, i requires 0 <= i < |s| => UpperChar(s[i]))
  }

  /** Upper-casing an upper-case string changes nothing. */
  lemma UpperIsFixed(s: string)
    requires IsUpper(s)
    ensures ToUpper(s) == s
  {
  }

  /** Whitespace is untouched by upper-casing, so the two operations commute. */
  lemma {:induction false} TrimStartOfUpper(s: string)
    ensures TrimStart(ToUpper(s)) == ToUpper(TrimStart(s))
    decreases |s|
  {
    if |s| > 0 && IsWhiteSpace(s[0]) {
      assert ToUpper(s)[1..] == ToUpper(s[1..]);
      TrimStartOfUpper(s[1..]);
    }
  }

  lemma {:induction false} TrimEndOfUpper(s: string)
    ensures TrimEnd(ToUpper(s)) == ToUpper(TrimEnd(s))
    decreases |s|
  {
    if |s| > 0 && IsWhiteSpace(s[|s| - 1]) {
      assert ToUpper(s)[..|s| - 1] == ToUpper(s[..|s| - 1]);
      TrimEndOfUpper(s[..|s| - 1]);
    }
  }

  /** Upper-casing commutes with taking a prefix or suffix, and keeps blanks blank. */
  lemma UpperSlices(s: string, i: nat)
    requires i <= |s|
    ensures ToUpper(s)[..i] == ToUpper(s[..i]) && ToUpper(s)[i..] == ToUpper(s[i..])
    ensures IsBlank(ToUpper(s[..i])) ==> IsBlank(s[..i])
    ensures IsBlank(ToUpper(s[i..])) ==> IsBlank(s[i..])
  {
  }

  lemma TrimOfUpper(s: string)
    ensures Trim(ToUpper(s)) == ToUpper(Trim(s))
  {
    TrimStartOfUpper(s);
    TrimEndOfUpper(TrimStart(s));
  }

  predicate IsDigit(c: char) {
    '0' <= c <= '9'
  }

  predicate AllDigits(s: string) {
    forall i :: 0 <= i < |s| ==> IsDigit(s[i])
  }

  function DigitChar(d: nat): (c: char)
    requires d < 10
    ensures IsDigit(c)
  {
    ('0' as int + d) as char
  }

  function DigitValue(c: char): (d: nat)
    requires IsDigit(c)
    ensures d < 10 && DigitChar(d) == c
  {
    c as int - '0' as int
  }

  /** Decimal digits of `n` without leading zeros (`n.ToString()`). */
  function NatToDigits(n: nat): (r: string)
    ensures |r| >= 1
    ensures AllDigits(r)
    decreases n
  {
    if n < 10 then [DigitChar(n)] else NatToDigits(n / 10) + [DigitChar(n % 10)]
  }

  /** The number a string of decimal digits denotes: the partner of `NatToDigits`. */
  function DigitsValue(s: string): nat
    requires AllDigits(s)
    decreases |s|
  {
    if |s| == 0 then 0 else DigitsValue(s[..|s| - 1]) * 10 + DigitValue(s[|s| - 1])
  }

  lemma {:induction false} DigitsRoundTrip(n: nat)
    ensures DigitsValue(NatToDigits(n)) == n
    decreases n
  {
    if n >= 10 {
      var d := NatToDigits(n);
      assert d[..|d| - 1] == NatToDigits(n / 10);
      DigitsRoundTrip(n / 10);
    }
  }

  function Zeros(k: nat): (r: string)
    ensures |r| == k && AllDigits(r)
  {
    seq(k, _ => '0')
  }

  /** Leading zeros do not change the value of a digit string. */
  lemma {:induction false} LeadingZerosValue(k: nat, s: string)
    requires AllDigits(s)
    ensures DigitsValue(Zeros(k) + s) == DigitsValue(s)
    decreases |s|
  {
    if |s| == 0 {
      assert Zeros(k) + s == Zeros(k);
      ZerosValue(k);
    } else {
      assert (Zeros(k) + s)[..|Zeros(k) + s| - 1] == Zeros(k) + s[..|s| - 1];
      LeadingZerosValue(k, s[..|s| - 1]);
    }
  }

  lemma {:induction false} ZerosValue(k: nat)
    ensures DigitsValue(Zeros(k)) == 0
  {
    if k > 0 {
      assert Zeros(k)[..k - 1] == Zeros(k - 1);
      ZerosValue(k - 1);
    }
  }

  function Pow10(k: nat): (p: nat)
    ensures p >= 1
  {
    if k == 0 then 1 else 10 * Pow10(k - 1)
  }

  /** A number below 10^w needs at most w digits. */
  lemma {:induction false} DigitsLength(n: nat, w: nat)
    requires w >= 1 && n < Pow10(w)
    ensures |NatToDigits(n)| <= w
    decreases w
  {
    if n >= 10 {
      assert w >= 2;
      DigitsLength(n / 10, w - 1);
    }
  }

  /** The `D<width>` format: decimal digits left-padded with zeros to at least
      `width` characters. Reading the digits back gives `n`. */
  function PadDigits(n: nat, width: nat): (r: string)
    ensures AllDigits(r)
    ensures |r| >= width && |r| >= 1
    ensures DigitsValue(r) == n
    ensures 1 <= width && n < Pow10(width) ==> |r| == width
    ensures |r| == if |NatToDigits(n)| >= width then |NatToDigits(n)| else width
  {
    var d := NatToDigits(n);
    DigitsRoundTrip(n);
    assert 1 <= width && n < Pow10(width) ==> |d| <= width by {
      if 1 <= width && n < Pow10(width) {
        DigitsLength(n, width);
      }
    }
    if |d| >= width then d
    else
      LeadingZerosValue(width - |d|, d);
      Zeros(width - |d|) + d
  }

  /** Equal padded renderings come from equal numbers. */
  lemma PadDigitsInjective(n: nat, m: nat, width: nat)
    requires PadDigits(n, width) == PadDigits(m, width)
    ensures n == m
  {
  }

  /** `string.Join(sep, parts)`; the empty list joins to the empty string. */
  function Join(parts: seq<string>, sep: char): (r: string)
    decreases |parts|
  {
    if |parts| == 0 then []
    else if |parts| == 1 then parts[0]
    else Join(parts[..|parts| - 1], sep) + [sep] + parts[|parts| - 1]
  }

  /** Whether `c` occurs in `s`. */
  predicate Contains(s: string, c: char) {
    exists i :: 0 <= i < |s| && s[i] == c
  }

  /** Position of the first `c` in `s`, or `|s|` when there is none (`IndexOf`
      with "not found" mapped to the end of the string). */
  function IndexOf(s: string, c: char): (i: nat)
    ensures i <= |s|
    ensures forall j :: 0 <= j < i ==> s[j] != c
    ensures i < |s| ==> s[i] == c
    decreases |s|
  {
    if |s| == 0 then 0
    else if s[0] == c then 0
    else 1 + IndexOf(s[1..], c)
  }

  /** The first `c` in `a + [c] + b` is the one after `a` when `a` has none. */
  lemma IndexOfSeparator(a: string, c: char, b: string)
    requires !Contains(a, c)
    ensures IndexOf(a + [c] + b, c) == |a|
  {
    var s := a + [c] + b;
    assert s[|a|] == c;
  }

  /** A non-empty sequence is its front followed by its last element. */
  lemma LastSplit<T>(s: seq<T>)
    requires |s| > 0
    ensures s == s[..|s| - 1] + [s[|s| - 1]]
  {
  }

  /** A character outside the Basic Multilingual Plane, which UTF-16 stores
      as a surrogate pair. */
  predicate IsAstral(c: char) {
    c as int >= 0x1_0000
  }

  /** `string.Length`: the number of UTF-16 code units, two for each
      character outside the Basic Multilingual Plane. */
  function Utf16Length(s: string): (n: nat)
    ensures |s| <= n <= 2 * |s|
  {
    if |s| == 0 then 0 else (if IsAstral(s[0]) then 2 else 1) + Utf16Length(s[1..])
  }

  /** `Length` counts characters exactly when none lies outside the Basic
      Multilingual Plane. */
  lemma {:induction false} Utf16LengthIsLength(s: string)
    ensures Utf16Length(s) == |s| <==> forall i :: 0 <= i < |s| ==> !IsAstral(s[i])
    decreases |s|
  {
    if |s| > 0 {
      Utf16LengthIsLength(s[1..]);
      assert forall i :: 1 <= i < |s| ==> s[i] == s[1..][i - 1];
    }
  }

  /** Code units add up over a concatenation. */
  lemma {:induction false} Utf16LengthConcat(a: string, b: string)
    ensures Utf16Length(a + b) == Utf16Length(a) + Utf16Length(b)
    decreases |a|
  {
    if |a| > 0 {
      assert (a + b)[1..] == a[1..] + b;
      Utf16LengthConcat(a[1..], b);
    } else {
      assert a + b == b;
    }
  }

  /** A string with no character outside the Basic Multilingual Plane has a
      `Length` equal to its number of characters. */
  lemma BmpLength(s: string)
    requires forall i :: 0 <= i < |s| ==> !IsAstral(s[i])
    ensures Utf16Length(s) == |s|
  {
    Utf16LengthIsLength(s);
  }
}

=== FILE: worker.dfy ===
/** `ProcessingWorkerService.ProcessRecordsAsync` run by a single worker: the
    resume partition, the skip reports, the per-record routing into the
    success and failure collections, and the final save. The API call is a
    function from a record to what processing it came to; cancellation is
    the number of records handled before it is seen. */
module Worker {
  import opened Wrappers
  import opened Records
  import opened Ledger
  import LP = LegacyPersistence
  import opened Progress

  /** Processing one record: the API call's result, or an exception with its message. */
  datatype Attempt = Completed(result: ProcessingResult) | Threw(message: string)

  const WorkerErrorPrefix := "Worker error: "

  /** The result reported for one dequeued record: the call's own result, or
      a failure naming the exception. */
  function Route(record: DonationRecord, attempt: Attempt, now: Instant): (r: ProcessingResult)
    ensures attempt.Completed? ==> r == attempt.result
    ensures attempt.Threw? ==>
      && r.record == record && r.status == Failed
      && r.errorMessage == Some(WorkerErrorPrefix + attempt.message)
  {
    match attempt
    case Completed(result) => result
    case Threw(m) => CreateFailure(record, WorkerErrorPrefix + m, now)
  }

  /** The reported results for a queue, in queue order. */
  function Outcomes(queue: seq<DonationRecord>, call: DonationRecord -> Attempt, now: Instant): (rs: seq<ProcessingResult>)
    ensures |rs| == |queue|
  {
    seq(|queue|, i requires 0 <= i < |queue| => Route(queue[i], call(queue[i]), now))
  }

  /** The records whose result is a success (the success collection). */
  function SucceededRecords(queue: seq<DonationRecord>, results: seq<ProcessingResult>): seq<DonationRecord>
    requires |queue| == |results|
    decreases |queue|
  {
    if |queue| == 0 then []
    else
      var n := |queue| - 1;
      SucceededRecords(queue[..n], results[..n]) + (if results[n].IsSuccess() then [queue[n]] else [])
  }

  /** The results that are not successes (the failure collection). */
  function FailedResults(results: seq<ProcessingResult>): seq<ProcessingResult>
    decreases |results|
  {
    if |results| == 0 then []
    else
      var n := |results| - 1;
      FailedResults(results[..n]) + (if results[n].IsSuccess() then [] else [results[n]])
  }

  /** Every handled record lands in exactly one collection: the success
      collection has one record per successful result and the failure
      collection holds every other result. */
  lemma {:induction false} RoutingPartitions(queue: seq<DonationRecord>, results: seq<ProcessingResult>)
    requires |queue| == |results|
    ensures |SucceededRecords(queue, results)| == CountStatus(results, Success)
    ensures |FailedResults(results)| == CountStatus(results, Failed) + CountStatus(results, Skipped)
    ensures |SucceededRecords(queue, results)| + |FailedResults(results)| == |queue|
    ensures forall i :: 0 <= i < |FailedResults(results)| ==> !FailedResults(results)[i].IsSuccess()
    decreases |queue|
  {
    if |queue| > 0 {
      var n := |queue| - 1;
      RoutingPartitions(queue[..n], results[..n]);
      StatusCountsAddUp(results);
      StatusCountsAddUp(results[..n]);
    }
  }

  /** How many records the worker takes before it sees cancellation. */
  function Handled(size: nat, cancelAfter: Option<nat>): (k: nat)
    ensures k <= size
    ensures cancelAfter.None? ==> k == size
  {
    if cancelAfter.Some? && cancelAfter.value < size then cancelAfter.value else size
  }

  /** `ProcessWorkerQueue` for one worker: while no cancellation is seen and
      the queue is not empty, take the next record, route its result to one
      of the two collections and report it once. */
  method ProcessWorkerQueue(queue: seq<DonationRecord>, call: DonationRecord -> Attempt, cancelAfter: Option<nat>, now: Instant)
    returns (successes: seq<DonationRecord>, failures: seq<ProcessingResult>, reports: seq<ProcessingResult>)
    ensures reports == Outcomes(queue[..Handled(|queue|, cancelAfter)], call, now)
    ensures successes == SucceededRecords(queue[..Handled(|queue|, cancelAfter)], reports)
    ensures failures == FailedResults(reports)
  {
    successes, failures, reports := [], [], [];
    var i := 0;
    while !(cancelAfter.Some? && i >= cancelAfter.value) && i < |queue|
      invariant 0 <= i <= Handled(|queue|, cancelAfter)
      invariant reports == Outcomes(queue[..i], call, now)
      invariant successes == SucceededRecords(queue[..i], reports)
      invariant failures == FailedResults(reports)
    {
      var record := queue[i];
      var result := Route(record, call(record), now);
      if result.IsSuccess() {
        successes := successes + [record];
      } else {
        failures := failures + [result];
      }
      assert queue[..i + 1][..i] == queue[..i];
      assert (reports + [result])[..i] == reports;
      reports := reports + [result];
      i := i + 1;
    }
  }

  /** The filter of lines 38-39: keep, in input order, the records whose key
      is not processed. */
  function Keep(records: seq<DonationRecord>, processed: set<string>): seq<DonationRecord>
    decreases |records|
  {
    if |records| == 0 then []
    else
      var n := |records| - 1;
      Keep(records[..n], processed) + (if records[n].Key() in processed then [] else [records[n]])
  }

  lemma {:induction false} KeepUnprocessedOnly(records: seq<DonationRecord>, processed: set<string>)
    ensures |Keep(records, processed)| <= |records|
    ensures forall i :: 0 <= i < |Keep(records, processed)| ==> Keep(records, processed)[i].Key() !in processed
    decreases |records|
  {
    if |records| > 0 {
      KeepUnprocessedOnly(records[..|records| - 1], processed);
    }
  }

  lemma {:induction false} KeepFromInput(records: seq<DonationRecord>, processed: set<string>)
    ensures forall i :: 0 <= i < |Keep(records, processed)| ==> Keep(records, processed)[i] in records
    decreases |records|
  {
    if |records| > 0 {
      var n := |records| - 1;
      KeepFromInput(records[..n], processed);
      forall i | 0 <= i < |Keep(records, processed)| ensures Keep(records, processed)[i] in records {
        if i < |Keep(records[..n], processed)| {
          var x := Keep(records[..n], processed)[i];
          assert x in records[..n];
        }
      }
    }
  }

  lemma {:induction false} KeepComplete(records: seq<DonationRecord>, processed: set<string>)
    ensures forall i :: 0 <= i < |records| && records[i].Key() !in processed ==> records[i] in Keep(records, processed)
    decreases |records|
  {
    if |records| > 0 {
      var n := |records| - 1;
      KeepComplete(records[..n], processed);
      forall i | 0 <= i < |records| && records[i].Key() !in processed ensures records[i] in Keep(records, processed) {
        if i < n {
          assert records[..n][i] == records[i];
        }
      }
    }
  }

  lemma KeepLaws(records: seq<DonationRecord>, processed: set<string>)
    ensures |Keep(records, processed)| <= |records|
    ensures forall i :: 0 <= i < |Keep(records, processed)| ==> Keep(records, processed)[i].Key() !in processed
    ensures forall i :: 0 <= i < |Keep(records, processed)| ==> Keep(records, processed)[i] in records
    ensures forall i :: 0 <= i < |records| && records[i].Key() !in processed ==> records[i] in Keep(records, processed)
  {
    KeepUnprocessedOnly(records, processed);
    KeepFromInput(records, processed);
    KeepComplete(records, processed);
  }

  lemma {:induction false} KeepConcat(a: seq<DonationRecord>, b: seq<DonationRecord>, processed: set<string>)
    ensures Keep(a + b, processed) == Keep(a, processed) + Keep(b, processed)
    decreases |b|
  {
    if |b| == 0 {
      assert a + b == a;
    } else {
      var n := |b| - 1;
      assert (a + b)[..|a + b| - 1] == a + b[..n];
      assert (a + b)[|a + b| - 1] == b[n];
      KeepConcat(a, b[..n], processed);
    }
  }

  /** The records not yet processed: only input records, none of them
      processed, and every unprocessed input record among them. */
  function Unprocessed(records: seq<DonationRecord>, processed: set<string>): (u: seq<DonationRecord>)
    ensures |u| <= |records|
    ensures forall i :: 0 <= i < |u| ==> u[i].Key() !in processed
    ensures forall i :: 0 <= i < |u| ==> u[i] in records
    ensures forall i :: 0 <= i < |records| && records[i].Key() !in processed ==> records[i] in u
  {
    KeepLaws(records, processed);
    Keep(records, processed)
  }

  /** A single record is kept exactly when its key is not processed. */
  lemma UnprocessedOne(r: DonationRecord, processed: set<string>)
    ensures Unprocessed([r], processed) == if r.Key() in processed then [] else [r]
  {
    assert [r][..0] == [];
    assert Keep([r], processed) == Keep([], processed) + (if r.Key() in processed then [] else [r]);
  }

  /** The filter works piece by piece: filtering a concatenation is filtering
      each part, so the kept records keep their input order. */
  lemma UnprocessedConcat(a: seq<DonationRecord>, b: seq<DonationRecord>, processed: set<string>)
    ensures Unprocessed(a + b, processed) == Unprocessed(a, processed) + Unprocessed(b, processed)
  {
    KeepConcat(a, b, processed);
  }

  /** The final save as written: hand the collections to the persistence
      service. An exception from saving successes skips the failures; the
      exception is logged and swallowed. */
  function FinalSaveAsWritten(s: LP.Service, successes: seq<DonationRecord>, failures: seq<ProcessingResult>, now: Instant): (r: LP.Outcome)
    ensures forall i :: 0 <= i < |successes| ==> LP.IsProcessed(r.service, successes[i])
    ensures |s.successes.pending| + |successes| < s.BatchSize() ==> r.service.successes.store == s.successes.store
    ensures |s.pendingFailures| + |failures| < s.BatchSize() ==> r.service.failureStore == s.failureStore
  {
    var afterSuccesses := if |successes| > 0 then LP.SaveSuccessful(s, successes, now) else LP.Outcome(s, false);
    if afterSuccesses.thrown then afterSuccesses
    else if |failures| > 0 then LP.SaveFailed(afterSuccesses.service, failures)
    else afterSuccesses
  }

  /** A run with a single success, a fresh ledger with no success file and
      the default batch size of 100: the final save leaves the file absent,
      so a restart does not know the record and clears its hold again. */
  lemma SmallRunIsNotWritten(rec: DonationRecord, now: Instant)
    ensures var s := LP.LoadProcessed(LP.Fresh(Missing, Missing, 100));
      var r := FinalSaveAsWritten(s, [rec], [], now);
      && LP.IsProcessed(r.service, rec)
      && r.service.successes.store == Missing
      && !Load(Fresh(r.service.successes.store, 100)).IsProcessed(rec)
  {
    var s := LP.LoadProcessed(LP.Fresh(Missing, Missing, 100));
    var r := FinalSaveAsWritten(s, [rec], [], now);
    assert [rec][0] == rec;
    assert LP.IsProcessed(r.service, [rec][0]);
  }

  /** The final save with the flush it needs: save, then write both queues out. */
  function FinalSave(s: LP.Service, successes: seq<DonationRecord>, failures: seq<ProcessingResult>, now: Instant): (r: LP.Outcome)
    ensures forall i :: 0 <= i < |successes| ==> LP.IsProcessed(r.service, successes[i])
    ensures !r.thrown ==> r.service.successes.pending == [] && r.service.pendingFailures == []
  {
    var saved := FinalSaveAsWritten(s, successes, failures, now);
    if saved.thrown then saved else LP.FlushAll(saved.service, now)
  }

  /** With readable files, the corrected final save writes everything: each
      file reads as its old list followed by everything that was queued and
      everything handed over. */
  lemma FinalSaveWritesQueues(s: LP.Service, successes: seq<DonationRecord>, failures: seq<ProcessingResult>, now: Instant)
    requires !s.successes.store.Corrupt? && !s.failureStore.Corrupt?
    ensures var r := FinalSave(s, successes, failures, now);
      && !r.thrown
      && !r.service.successes.store.Corrupt?
      && Existing(r.service.successes.store) == Existing(s.successes.store) + SuccessEntries(s.successes.pending + successes, now)
      && Existing(r.service.failureStore) == Existing(s.failureStore) + FailureEntries(s.pendingFailures + failures)
  {
    var saved := FinalSaveAsWritten(s, successes, failures, now);
    var q := s.successes.pending + successes;
    var fq := s.pendingFailures + failures;
    assert SuccessEntries([], now) == [] && FailureEntries([]) == [];
    // Each queue was written by the save itself, or is still queued and
    // written by the flush after it.
    if |successes| > 0 && |q| >= s.BatchSize() {
      assert saved.service.successes.pending == [];
      assert Existing(saved.service.successes.store) == Existing(s.successes.store) + SuccessEntries(q, now);
    } else if |successes| == 0 {
      assert q == s.successes.pending;
    }
    if |failures| > 0 && |fq| >= s.BatchSize() && !saved.thrown {
      assert saved.service.pendingFailures == [];
      assert Existing(saved.service.failureStore) == Existing(s.failureStore) + FailureEntries(fq);
    } else if |failures| == 0 {
      assert fq == s.pendingFailures;
    }
    LP.FlushAllIsDurable(saved.service, now);
  }

  /** So a restart skips every success and keeps skipping what it skipped
      before. */
  lemma FinalSaveIsDurable(s: LP.Service, successes: seq<DonationRecord>, failures: seq<ProcessingResult>, now: Instant)
    requires !s.successes.store.Corrupt? && !s.failureStore.Corrupt?
    ensures var r := FinalSave(s, successes, failures, now);
      && !r.thrown
      && Existing(r.service.successes.store) == Existing(s.successes.store) + SuccessEntries(s.successes.pending + successes, now)
      && Existing(r.service.failureStore) == Existing(s.failureStore) + FailureEntries(s.pendingFailures + failures)
      && StoreKeys(s.successes.store) + RecordKeys(successes) <= StoreKeys(r.service.successes.store)
      && (forall i :: 0 <= i < |successes| ==> Load(Fresh(r.service.successes.store, s.BatchSize())).IsProcessed(successes[i]))
  {
    FinalSaveWritesQueues(s, successes, failures, now);
    var store := FinalSave(s, successes, failures, now).service.successes.store;
    var q := s.successes.pending + successes;
    EntryKeysAppend(Existing(s.successes.store), SuccessEntries(q, now));
    SuccessEntriesKeys(q, now);
    RecordKeysAppend(s.successes.pending, successes);
    LoadFreshIsExact(store, s.BatchSize());
  }

  /** The skips are reported for the first `skippedCount` input records, not
      for the records that were filtered out: with `a` new and `b` done, the
      skip is reported for `a`, which is then processed as well. */
  lemma SkipReportsNameLeadingRecords(a: DonationRecord, b: DonationRecord, processed: set<string>, now: Instant)
    requires a.Key() !in processed && b.Key() in processed
    ensures var records := [a, b];
      var unprocessed := Unprocessed(records, processed);
      && unprocessed == [a]
      && |records| - |unprocessed| == 1
      && SkipReports(records, 1, now) == [CreateSkipped(a, now)]
  {
    var records := [a, b];
    assert records == [a] + [b];
    UnprocessedConcat([a], [b], processed);
    UnprocessedOne(a, processed);
    UnprocessedOne(b, processed);
  }

  /** `CreateSkipped(recordList[i])` for `i < skippedCount`. */
  function SkipReports(records: seq<DonationRecord>, skippedCount: nat, now: Instant): (rs: seq<ProcessingResult>)
    requires skippedCount <= |records|
    ensures |rs| == skippedCount
    ensures forall i :: 0 <= i < skippedCount ==> rs[i].record == records[i]
    ensures CountStatus(rs, Skipped) == skippedCount
    ensures CountStatus(rs, Success) == 0 && CountStatus(rs, Failed) == 0
    decreases skippedCount
  {
    if skippedCount == 0 then []
    else
      var rs := SkipReports(records, skippedCount - 1, now) + [CreateSkipped(records[skippedCount - 1], now)];
      assert rs[..skippedCount - 1] == SkipReports(records, skippedCount - 1, now);
      rs
  }

  /** One clock reading per report. */
  function Times(n: nat, now: Instant): (ts: seq<Instant>)
    ensures |ts| == n
  {
    seq(n, _ => now)
  }

  /** What `ProcessRecordsAsync` leaves behind. `returned` is false when the
      call never returns; `tracker` is `None` when it returns before
      initialising the tracker, and `summary` is `None` unless the `finally`
      block ran. */
  datatype RunReport = RunReport(
    returned: bool,
    service: LP.Service,
    unprocessed: seq<DonationRecord>,
    skippedCount: nat,
    successes: seq<DonationRecord>,
    failures: seq<ProcessingResult>,
    reports: seq<ProcessingResult>,
    tracker: Option<Tracker>,
    summary: Option<(Headline, bool)>)

  /** The part of `ProcessRecordsAsync` before the `finally` block: load the
      key set, drop the processed records, return early when nothing is left,
      otherwise initialise the tracker with the full count, report the skips
      and work the queue. Nothing is saved yet. */
  method Work(records: seq<DonationRecord>, s: LP.Service, t: Tracker,
              call: DonationRecord -> Attempt, cancelAfter: Option<nat>, now: Instant)
    returns (run: RunReport)
    ensures run.unprocessed == Unprocessed(records, Load(s.successes).processed)
    ensures run.skippedCount + |run.unprocessed| == |records|
    ensures run.service == LP.LoadProcessed(s) && run.summary.None?
    ensures run.returned <==> |run.unprocessed| == 0
    ensures |run.unprocessed| == 0 ==>
      && run.tracker.None? && run.reports == [] && run.successes == [] && run.failures == []
    ensures |run.unprocessed| > 0 ==>
      && |run.successes| + |run.failures| == Handled(|run.unprocessed|, cancelAfter)
      && |run.reports| == run.skippedCount + Handled(|run.unprocessed|, cancelAfter)
      && run.reports[..run.skippedCount] == SkipReports(records, run.skippedCount, now)
      && run.tracker.Some?
      && run.tracker.value.Balanced()
      && run.tracker.value.total == |records|
      && run.tracker.value.processed == |run.reports|
      && run.tracker.value.success == |run.successes|
      && run.tracker.value.failed + run.tracker.value.skipped == run.skippedCount + |run.failures|
  {
    var loaded := LP.LoadProcessed(s);
    var unprocessed := Unprocessed(records, loaded.successes.processed);
    var skippedCount := |records| - |unprocessed|;
    if |unprocessed| == 0 {
      return RunReport(true, loaded, unprocessed, skippedCount, [], [], [], None, None);
    }
    var tracker := Initialize(t, |records|, now).tracker;
    var skips := SkipReports(records, skippedCount, now);
    var successes, failures, reports := ProcessWorkerQueue(unprocessed, call, cancelAfter, now);
    var k := Handled(|unprocessed|, cancelAfter);
    RoutingPartitions(unprocessed[..k], reports);
    var all := skips + reports;
    assert all[..skippedCount] == skips;
    var final := After(tracker, all, Times(|all|, now));
    RunCounts(t, |records|, now, records, skippedCount, reports);
    run := RunReport(false, loaded, unprocessed, skippedCount, successes, failures, all, Some(final), None);
  }

  /** `ProcessRecordsAsync` as written. The batch saver only stops on
      cancellation, so `await batchSaver` does not return until a stop is
      requested: an uncancelled run with work handles every record and then
      never reaches the final save or the summary. `cancelAfter == Some(n)`
      is a stop requested once `n` records are handled (or, for `n` at least
      the queue length, after the workers are done); the `finally` block then
      runs the final save as written, which writes nothing below the batch
      size. */
  method ProcessRecordsAsWritten(records: seq<DonationRecord>, s: LP.Service, t: Tracker,
                                 call: DonationRecord -> Attempt, cancelAfter: Option<nat>, now: Instant)
    returns (run: RunReport)
    ensures run.unprocessed == Unprocessed(records, Load(s.successes).processed)
    ensures run.skippedCount + |run.unprocessed| == |records|
    ensures |run.unprocessed| == 0 ==>
      && run.returned && run.tracker.None? && run.summary.None? && run.reports == []
      && run.service == LP.LoadProcessed(s)
    ensures |run.unprocessed| > 0 && cancelAfter.None? ==>
      && !run.returned && run.summary.None? && run.service == LP.LoadProcessed(s)
      && |run.successes| + |run.failures| == |run.unprocessed|
      && run.tracker.Some? && run.tracker.value.processed == |records|
    ensures |run.unprocessed| > 0 && cancelAfter.Some? ==>
      && run.returned && run.tracker.Some? && run.summary == Some(FinalSummary(run.tracker.value))
      && run.tracker.value.success == |run.successes|
      && run.service == FinalSaveAsWritten(LP.LoadProcessed(s), run.successes, run.failures, now).service
      && (forall i :: 0 <= i < |run.successes| ==> LP.IsProcessed(run.service, run.successes[i]))
      && (|s.successes.pending| + |run.successes| < s.BatchSize() ==> run.service.successes.store == s.successes.store)
  {
    run := Work(records, s, t, call, cancelAfter, now);
    if |run.unprocessed| > 0 && cancelAfter.Some? {
      var saved := FinalSaveAsWritten(run.service, run.successes, run.failures, now);
      run := run.(returned := true, service := saved.service, summary := Some(FinalSummary(run.tracker.value)));
    }
  }

  /** `ProcessRecordsAsync` with the batch saver stopping once the workers
      are done and with the corrected final save: every run returns, an
      uncancelled one ends complete, and with readable files every success
      reaches the success file. */
  method ProcessRecords(records: seq<DonationRecord>, s: LP.Service, t: Tracker,
                        call: DonationRecord -> Attempt, cancelAfter: Option<nat>, now: Instant)
    returns (run: RunReport)
    ensures run.returned
    ensures run.unprocessed == Unprocessed(records, Load(s.successes).processed)
    ensures run.skippedCount + |run.unprocessed| == |records|
    ensures |run.unprocessed| == 0 ==>
      && run.tracker.None? && run.summary.None? && run.reports == []
      && run.service == LP.LoadProcessed(s)
    ensures |run.unprocessed| > 0 ==>
      && |run.successes| + |run.failures| == Handled(|run.unprocessed|, cancelAfter)
      && |run.reports| == run.skippedCount + Handled(|run.unprocessed|, cancelAfter)
      && run.reports[..run.skippedCount] == SkipReports(records, run.skippedCount, now)
      && run.tracker.Some? && run.summary == Some(FinalSummary(run.tracker.value))
      && run.tracker.value.Balanced()
      && run.tracker.value.total == |records|
      && run.tracker.value.processed == |run.reports|
      && run.tracker.value.success == |run.successes|
      && run.tracker.value.failed + run.tracker.value.skipped == run.skippedCount + |run.failures|
      && run.service == FinalSave(LP.LoadProcessed(s), run.successes, run.failures, now).service
    ensures |run.unprocessed| > 0 && cancelAfter.None? ==>
      && |run.successes| + |run.failures| == |run.unprocessed|
      && run.summary.value.0 == Complete
    ensures |run.unprocessed| > 0 && !s.successes.store.Corrupt? && !s.failureStore.Corrupt? ==>
      forall i :: 0 <= i < |run.successes| ==> run.successes[i].Key() in StoreKeys(run.service.successes.store)
  {
    run := Work(records, s, t, call, cancelAfter, now);
    if |run.unprocessed| > 0 {
      var saved := FinalSave(run.service, run.successes, run.failures, now);
      if !s.successes.store.Corrupt? && !s.failureStore.Corrupt? {
        SavedSuccessesAreStored(run.service, run.successes, run.failures, now);
      }
      run := run.(returned := true, service := saved.service, summary := Some(FinalSummary(run.tracker.value)));
    }
  }

  /** The tracker after the skips and the worker's reports: balanced, with
      the successes counted from the reports and every skip counted. */
  lemma RunCounts(t: Tracker, total: nat, now: Instant, records: seq<DonationRecord>, skippedCount: nat,
                  reports: seq<ProcessingResult>)
    requires skippedCount <= |records|
    ensures var all := SkipReports(records, skippedCount, now) + reports;
      var final := After(Initialize(t, total, now).tracker, all, Times(|all|, now));
      && final.Balanced() && final.total == total && final.processed == |all|
      && final.success == CountStatus(reports, Success)
      && final.failed + final.skipped == skippedCount + CountStatus(reports, Failed) + CountStatus(reports, Skipped)
  {
    var skips := SkipReports(records, skippedCount, now);
    var all := skips + reports;
    ReportAllCounts(Initialize(t, total, now).tracker, all, Times(|all|, now));
    CountStatusConcat(skips, reports, Success);
    CountStatusConcat(skips, reports, Failed);
    CountStatusConcat(skips, reports, Skipped);
  }

  /** With readable files every success's key ends up in the success file. */
  lemma SavedSuccessesAreStored(s: LP.Service, successes: seq<DonationRecord>, failures: seq<ProcessingResult>, now: Instant)
    requires !s.successes.store.Corrupt? && !s.failureStore.Corrupt?
    ensures forall i :: 0 <= i < |successes| ==>
      successes[i].Key() in StoreKeys(FinalSave(s, successes, failures, now).service.successes.store)
  {
    FinalSaveIsDurable(s, successes, failures, now);
    forall i | 0 <= i < |successes|
      ensures successes[i].Key() in StoreKeys(FinalSave(s, successes, failures, now).service.successes.store)
    {
      assert successes[i].Key() in RecordKeys(successes);
    }
  }

  /** Resume: after a run whose files were readable, a new run over the same
      input loads a key set in which every record that succeeded, and every
      record that was already done before, is processed, so none of them is
      sent again. */
  lemma ResumeSkipsSucceeded(records: seq<DonationRecord>, successStore: Store<SuccessEntry>, failureStore: Store<FailureEntry>,
                             batchSize: int, successes: seq<DonationRecord>, failures: seq<ProcessingResult>, now: Instant)
    requires !successStore.Corrupt? && !failureStore.Corrupt?
    ensures var s := LP.LoadProcessed(LP.Fresh(successStore, failureStore, batchSize));
      var after := FinalSave(s, successes, failures, now).service.successes.store;
      var again := Unprocessed(records, Load(Fresh(after, batchSize)).processed);
      && (forall i :: 0 <= i < |again| ==> again[i] !in successes)
      && (forall i :: 0 <= i < |again| ==> again[i].Key() !in StoreKeys(successStore))
  {
    var s := LP.LoadProcessed(LP.Fresh(successStore, failureStore, batchSize));
    FinalSaveIsDurable(s, successes, failures, now);
    var after := FinalSave(s, successes, failures, now).service.successes.store;
    LoadFreshIsExact(after, batchSize);
  }
}

=== FILE: wrappers.dfy ===
/** The nullable-reference wrapper used throughout the model: `None` plays the
    role of C#'s `null` for `string?` and other reference-typed values. */
module Wrappers {

  datatype Option<+T> = None | Some(value: T) {

    /** `x ?? default` */
    function GetOr(default: T): T {
      match this
      case Some(v) => v
      case None => default
    }
  }
}
